=== FILE: README.md ===
# GravityFun core, modelled in Dafny

GravityFun is a real-time particle toy. A few hundred "floating objects" attract each other,
the mouse and (optionally) a downward gravity. They may bounce off the window border or wrap
around it, and they may collide with each other. The work is split across worker threads in
two passes over triple-buffered object arrays.

This project models the sequential, self-contained logic of that program as pure Dafny
functions over immutable data and proves properties about it:

- `ObjectMapper`: the spatial hash grid. A flat `int` buffer is split into `SizeX*SizeY` cells
  of `CellCapacity` slots, and each cell holds a list ended by the `-1` sentinel.
  - The model covers truncating position-to-cell casts, toroidal cell coordinates,
    `Clear`, `AddObject`, `GetObjects` and the per-cell visit.
- `ObjectMapperRadius`: the radius query.
  - It covers the clamped extents and the ring-by-ring traversal around the centre cell, with
    its four edges per ring.
  - It also covers the short-circuiting visit over the cells that traversal produces.
- `TimeStep`: the adaptive time-step controller of `Physics::OnRun`. It works with the time
  debt, the correction clamp and the positive floor; the clock delta is an input.
- `Physics`: the other per-body rules of `Physics::OnRun`.
  - Worker index ranges, velocity braking, and bouncing off or wrapping around the border.
  - The integration of one body, and the whole pass over all workers' ranges.
  - The clocks: a pass-2 worker runs the time-step controller on the clock fields of its
    paired pass-1 worker, so the two share one clock and both advance it in every frame.
- `Collision`: the discrete part of the object-collision mode.
  - Self-exclusion and the `MAX_COLLISION_COUNT` cap.
  - The per-body contact memory ended by the sentinel `MAX_OBJECTS_COUNT + 1`, and the merge
    walk that tells new contacts from continuing ones.
  - The shared velocity, and the velocity written for a body with contacts. The update takes
    an `Accumulation` argument: `AsWritten` follows the `=` at `Physics.cpp:90`, `Intended`
    the evident `+=` (see Findings).
- `GameManager`: the frame state machine.
  - Buffer-role rotation, the stepped object count, resizing the three buffers, the time
    multiplier, the mouse mapping and new random bodies.
- `BufferGeneration`: the index topology of every generated mesh (vertex counts, index counts
  and index ranges), and the resolution and radius clamps.
- `Startup`: the `concurrency = <n>` configuration-line parser, the clamp to [1, 1024], the
  last-accepted-line-wins rule, and the pairing of pass-1 with pass-2 workers.
- `AnimatedModel`: the equal-length constructor check and the linear interpolation between two
  vertex states.
- `EnergySaver`: the factor clamp and the idle amount.
- `Easing`: the renderer's `smoothstep`, `smoothstart` and `smoothstop`.
- `Bodies` and `Arith`: the shared data (`Vec2`, `Body`, `Option`) and small arithmetic
  lemmas.

Numbers:

- `double` and `float` are modelled as `real`. The C++ `(int)` cast is `ObjectMapper.Trunc`,
  which truncates toward zero.
- C++ `%` is `ObjectMapper.CRem`, which truncates; the wrapped cell index is the Euclidean
  `WrapIndex`.

Inputs. Values that come from outside the sequential logic are parameters:

- the clock delta;
- the `sqrt`-based magnitudes and normalised directions;
- the random draws;
- the scheduler's predicted times;
- the hardware concurrency;
- the lines of the configuration file.

Headers versus sources. Where a header disagrees with its `.cpp`, the `.cpp` behaviour is
modelled:

- `GameManager.h` constructor and buffer declarations;
- `Physics.h` contact set, where the code keeps a sentinel-ended array;
- `EnergySaver.h` idling time;
- `AnimatedModel.h` `SetState`/`GetState`, where the code has `Update`.

## Model

| member | source | states |
|---|---|---|
| ObjectMapper.Trunc | GravityFun/ObjectMapper.h:31-39 | the `(int)` cast truncates toward zero: for non-negative v the result is the floor, for negative v it is the ceiling |
| ObjectMapper.TruncMonotone | GravityFun/ObjectMapper.h:31-39 | truncation is monotone non-decreasing |
| ObjectMapper.GetIndexX | GravityFun/ObjectMapper.h:31-34 | no contract of its own: `ObjectMapper.GetIndexXTruncates`, `ObjectMapper.GetIndexXMonotone` and `ObjectMapper.GetIndexInArea` state what the column is |
| ObjectMapper.GetIndexY | GravityFun/ObjectMapper.h:36-39 | no contract of its own: `ObjectMapper.GetIndexYMonotone` and `ObjectMapper.GetIndexInArea` state what the row is |
| ObjectMapper.GetIndexInArea | GravityFun/ObjectMapper.h:31-39 | a position inside the area `[0, AreaX) x [0, AreaY)` has its column in `[0, SizeX)` and its row in `[0, SizeY)` |
| ObjectMapper.GetIndexXMonotone | GravityFun/ObjectMapper.h:31-34 | `GetIndexX` alone is monotone in the position |
| ObjectMapper.GetIndexYMonotone | GravityFun/ObjectMapper.h:36-39 | `GetIndexY` alone is monotone in the position |
| ObjectMapper.GetIndexXTruncates | GravityFun/ObjectMapper.h:31-34 | the column is the scaled position truncated toward zero, not floored |
| ObjectMapper.ColumnZeroIsDoubleWidth | GravityFun/ObjectMapper.h:31-34 | because of truncation, every position strictly within one column width of 0 on either side lands in column 0 |
| ObjectMapper.TruncWithinUnit | GravityFun/ObjectMapper.h:31-34 | a position strictly within one cell width of 0, on either side, truncates to column 0 |
| ObjectMapper.CRem | GravityFun/ObjectMapper.h:41-50 | C++ `%` has the sign of the dividend, lies strictly between -n and n, and is either the Euclidean remainder or that minus n |
| ObjectMapper.CRemNegative | GravityFun/ObjectMapper.h:41-50 | for a negative dividend, the truncating remainder is the negated remainder of the absolute value |
| ObjectMapper.WrapIndex | GravityFun/ObjectMapper.h:41-50 | the wrapped cell coordinate lies in [0, n) and is the Euclidean residue of the raw index |
| ObjectMapper.GetIndex | GravityFun/ObjectMapper.h:41-57 | the result is always a cell start: a multiple of `CellCapacity` below `SizeX*SizeY*CellCapacity`, for the wrapped coordinates |
| ObjectMapper.CellNumberRange | GravityFun/ObjectMapper.h:41-50 | the cell number of in-range coordinates is below `SizeX*SizeY` |
| ObjectMapper.CellRankStart | GravityFun/ObjectMapper.h:41-50 | cell c starts at `c*CellCapacity`, and its slots lie inside the buffer |
| ObjectMapper.IndexMultipliers | GravityFun/ObjectMapper.h:41-50 | the two multipliers of `GetIndex` give cell number times capacity |
| ObjectMapper.CellStartFits | GravityFun/ObjectMapper.h:41-50 | every cell start is a multiple of the capacity whose whole cell fits in the buffer |
| ObjectMapper.GetIndexPeriodic | GravityFun/ObjectMapper.h:41-50 | adding `SizeX` to x or `SizeY` to y gives the same cell |
| ObjectMapper.GetIndexSameCell | GravityFun/ObjectMapper.h:41-50 | two coordinate pairs give the same cell exactly when they agree modulo the grid sizes |
| ObjectMapper.CellOf | GravityFun/ObjectMapper.h:52-57 | a position always maps to a cell start |
| ObjectMapper.OriginInFirstCell | GravityFun/ObjectMapper.h:52-57 | the origin lies in cell 0 |
| ObjectMapper.Scan | GravityFun/ObjectMapper.h:59-94 | the cell scan reads a contiguous run of non-sentinel entries from the start; it stops at the first sentinel or at the stop bound and never reads past the buffer |
| ObjectMapper.ScanUpToSentinel | GravityFun/ObjectMapper.h:59-76 | when a sentinel lies o slots in, the scan returns the first o entries, clipped to the bound |
| ObjectMapper.ScanFillsBound | GravityFun/ObjectMapper.h:59-76 | with no sentinel before the bound, the scan returns everything up to the bound |
| ObjectMapper.ScanStopsAtSentinel | GravityFun/ObjectMapper.h:78-94 | nothing at or past a sentinel is scanned |
| ObjectMapper.SentinelOffset | GravityFun/ObjectMapper.h:59-76 | a terminated cell has its first sentinel within its own slots, with only real entries before it |
| ObjectMapper.CellEntriesOfTerminated | GravityFun/ObjectMapper.h:59-76 | a terminated cell's entries are exactly the slots before its sentinel |
| ObjectMapper.CellEntries | GravityFun/ObjectMapper.h:59-94 | no contract of its own: the entries a cell visit reads, the scan from the cell start to `start + SlotsCount`; `ObjectMapper.CellEntriesOfTerminated` and `ObjectMapper.CellEntriesMatchCellList` state what they are |
| ObjectMapper.Clear | GravityFun/ObjectMapper.h:96-102 | after `Clear`, every cell start holds the sentinel, every cell reads as empty, the grid is well formed, and no other slot changes |
| ObjectMapper.AddAt | GravityFun/ObjectMapper.h:104-121 | the insertion loop keeps the buffer length |
| ObjectMapper.AddAtWrites | GravityFun/ObjectMapper.h:104-121 | with the first sentinel at offset o, the insertion loop stays in bounds, writes the object at o and a sentinel at o+1 when each lies before the bound, touches no other slot, and leaves the buffer unchanged when the sentinel lies past the bound |
| ObjectMapper.AddAtAppends | GravityFun/ObjectMapper.h:104-121 | with the first sentinel before the bound, writing at the sentinel's slot and moving the sentinel on appends the object to the scanned list |
| ObjectMapper.ScanAfterWrite | GravityFun/ObjectMapper.h:59-76 | a cell whose first o entries are kept, followed by the new object and then a sentinel or the bound, reads back as those entries plus the object |
| ObjectMapper.AddAtCell | GravityFun/ObjectMapper.h:104-121 | in a region of c slots whose sentinel lies at o < c-1, the insertion loop changes no slot outside the region, and appends the object when o lies before the bound |
| ObjectMapper.AddObjectAt | GravityFun/ObjectMapper.h:104-121 | `AddObject` as written, on a cell whose sentinel lies at o < `CellCapacity-1`, stays in bounds, changes no slot of another cell, and appends the index unless the bound `start + SlotsCount` lies at or before the sentinel |
| ObjectMapper.AddObject | GravityFun/ObjectMapper.h:104-121 | `AddObject` as written, with the scan bound `start + SlotsCount`, keeps the buffer length |
| ObjectMapper.CellsDisjoint | GravityFun/ObjectMapper.h:41-50 | the slot ranges of two different cells do not overlap |
| ObjectMapper.AddObjectAppends | GravityFun/ObjectMapper.h:104-121 | in a cell holding fewer than `CellCapacity-1` entries, `AddObject` appends the index, rewrites the sentinel after it, keeps the grid well formed, and changes no slot outside the cell |
| ObjectMapper.WellFormedAfterCellWrite | GravityFun/ObjectMapper.h:96-121 | a write confined to one cell that leaves that cell terminated keeps the whole grid well formed |
| ObjectMapper.GetObjects | GravityFun/ObjectMapper.h:59-76 | `GetObjects` copies the cell's entries in buffer order from index i, writes only below the result's length, returns i plus the number written, and leaves every other position unchanged |
| ObjectMapper.VisitObjects | GravityFun/ObjectMapper.h:78-94 | the cell visit returns true exactly when some entry made the visitor return true; it stops at the first such entry and visits nothing past it or past the sentinel |
| ObjectMapper.CellList | GravityFun/ObjectMapper.h:59-76 | the entries before the first sentinel within the cell's own slots number at most `CellCapacity` |
| ObjectMapper.CellEntriesMatchCellList | GravityFun/ObjectMapper.h:59-76 | in a well-formed grid, the scan as written reads the same list as a scan bounded by the cell's own slots |
| ObjectMapper.AddObjectClobbersNeighbour | GravityFun/ObjectMapper.h:104-121 | concrete input: adding to a full-but-one cell, with the bound `start + SlotsCount`, overwrites the next cell's first entry and empties that cell |
| ObjectMapper.AddObjectBounded | GravityFun/ObjectMapper.h:104-121 | corrected `AddObject`, scanning only the cell's own `CellCapacity` slots, keeps the buffer length |
| ObjectMapper.AddObjectBoundedKeepsCells | GravityFun/ObjectMapper.h:104-121 | the corrected `AddObject` appends when the cell has room, does nothing when it is full, and never changes another cell |
| ObjectMapperRadius.Span | GravityFun/ObjectMapper.h:153-166 | the overlap clamp keeps both extents of an axis non-negative with sum at most size-1, and leaves them alone when they already fit |
| ObjectMapperRadius.GetExtents | GravityFun/ObjectMapper.h:148-166 | no contract of its own: `ObjectMapperRadius.ExtentsBounds` states the bounds of the four extents |
| ObjectMapperRadius.IndexRadius | GravityFun/ObjectMapper.h:167 | the index radius is at least each of the four extents and equal to one of them |
| ObjectMapperRadius.ExtentsBounds | GravityFun/ObjectMapper.h:24-27 | for radius >= 0 the extents are non-negative, with `left+right <= SizeX-1` and `bottom+top <= SizeY-1`, whether or not the clamp fires |
| ObjectMapperRadius.RowRightMembers | GravityFun/ObjectMapper.h:172-222 | a row walked left to right holds exactly its cells, once each |
| ObjectMapperRadius.RowLeftMembers | GravityFun/ObjectMapper.h:172-222 | a row walked right to left holds exactly its cells, once each |
| ObjectMapperRadius.ColumnUpMembers | GravityFun/ObjectMapper.h:172-222 | a column walked upward holds exactly its cells, once each |
| ObjectMapperRadius.ColumnDownMembers | GravityFun/ObjectMapper.h:172-222 | a column walked downward holds exactly its cells, once each |
| ObjectMapperRadius.EdgesPartitionRing | GravityFun/ObjectMapper.h:172-222 | the four edge conditions of ring d cover exactly the in-area cells at Chebyshev distance d, and no cell lies on two edges |
| ObjectMapperRadius.BottomEdge | GravityFun/ObjectMapper.h:182-191 | every cell of the bottom edge of ring d lies on row `cy-d`, between the ring's clamped left and right columns |
| ObjectMapperRadius.RightEdge | GravityFun/ObjectMapper.h:192-201 | every cell of the right edge of ring d lies on column `cx+d`, between the ring's clamped bottom and top rows |
| ObjectMapperRadius.TopEdge | GravityFun/ObjectMapper.h:202-211 | every cell of the top edge of ring d lies on row `cy+d`, between the ring's clamped left and right columns |
| ObjectMapperRadius.LeftEdge | GravityFun/ObjectMapper.h:212-221 | every cell of the left edge of ring d lies on column `cx-d`, between the ring's clamped bottom and top rows |
| ObjectMapperRadius.Ring | GravityFun/ObjectMapper.h:174-221 | no contract of its own: `ObjectMapperRadius.RingMembers` and `ObjectMapperRadius.RingDistance` state which cells ring d visits |
| ObjectMapperRadius.Rings | GravityFun/ObjectMapper.h:172-222 | no contract of its own: `ObjectMapperRadius.RingsMembers` and `ObjectMapperRadius.RingsOrdered` state what the rings visit and in which order |
| ObjectMapperRadius.Traversal | GravityFun/ObjectMapper.h:170-222 | no contract of its own: `ObjectMapperRadius.TraversalCoversArea`, `ObjectMapperRadius.TraversalOrdered` and `ObjectMapperRadius.TraversalCellsDistinct` state what it visits |
| ObjectMapperRadius.BottomEdgeMembers | GravityFun/ObjectMapper.h:182-191 | the bottom-edge walk yields exactly the bottom-edge cells, once each |
| ObjectMapperRadius.RightEdgeMembers | GravityFun/ObjectMapper.h:192-201 | the right-edge walk yields exactly the right-edge cells, once each |
| ObjectMapperRadius.TopEdgeMembers | GravityFun/ObjectMapper.h:202-211 | the top-edge walk yields exactly the top-edge cells, once each |
| ObjectMapperRadius.LeftEdgeMembers | GravityFun/ObjectMapper.h:212-221 | the left-edge walk yields exactly the left-edge cells, once each |
| ObjectMapperRadius.RingMembers | GravityFun/ObjectMapper.h:172-222 | ring d visits exactly the in-area cells at distance d, each once |
| ObjectMapperRadius.RingsMembers | GravityFun/ObjectMapper.h:172-222 | rings d..last visit exactly the in-area cells whose distance is in [d, last], each once |
| ObjectMapperRadius.TraversalCoversArea | GravityFun/ObjectMapper.h:167-222 | the centre followed by all rings visits every cell of `[cx-left, cx+right] x [cy-bottom, cy+top]` exactly once |
| ObjectMapperRadius.RingDistance | GravityFun/ObjectMapper.h:172-222 | every cell of ring d is at distance d |
| ObjectMapperRadius.RingsFarEnough | GravityFun/ObjectMapper.h:172-222 | every cell of rings d..last is at distance at least d |
| ObjectMapperRadius.RingsOrdered | GravityFun/ObjectMapper.h:172-222 | the rings are visited in non-decreasing Chebyshev distance |
| ObjectMapperRadius.TraversalOrdered | GravityFun/ObjectMapper.h:167-222 | the centre comes first, and the whole traversal is ordered by distance |
| ObjectMapperRadius.SameResidueClose | GravityFun/ObjectMapper.h:153-166 | two coordinates closer than the grid size with the same residue are equal, which is why the clamp prevents double visits |
| ObjectMapperRadius.Cells | GravityFun/ObjectMapper.h:167-222 | every coordinate of the traversal is turned into a cell start by `GetIndex` |
| ObjectMapperRadius.RadiusCells | GravityFun/ObjectMapper.h:148-222 | the radius query's cells are all cell starts, and the first is the cell of the centre position |
| ObjectMapperRadius.TraversalCellsDistinct | GravityFun/ObjectMapper.h:153-222 | with clamped extents, no wrapped cell is visited twice |
| ObjectMapperRadius.AxisRepresentative | GravityFun/ObjectMapper.h:153-166 | any coordinate within the unclamped reach has a wrapped twin within the clamped extents |
| ObjectMapperRadius.RadiusCoversNearby | GravityFun/ObjectMapper.h:143-222 | every position within the radius square around p lies in a cell the radius visit traverses |
| ObjectMapperRadius.VisitCells | GravityFun/ObjectMapper.h:172-222 | visiting a list of cells returns true exactly when some entry made the visitor return true, and stops at the first such entry |
| ObjectMapperRadius.VisitCell | GravityFun/ObjectMapper.h:172-222 | visiting cell i after a visit that found no hit either stops at the first hit of all entries read so far, or counts every entry up to and including cell i with no hit |
| ObjectMapperRadius.NoHitStep | GravityFun/ObjectMapper.h:172-222 | no hit in the first i cells and no hit in cell i mean no hit in the first i+1 cells, with the visit counts added |
| ObjectMapperRadius.RadiusWitness | GravityFun/ObjectMapper.h:143-222 | a position within the radius square has a coordinate inside the visited area whose cell is the position's cell |
| ObjectMapperRadius.NoHitConcat | GravityFun/ObjectMapper.h:172-222 | two lists that reject every entry reject every entry of their concatenation |
| ObjectMapperRadius.HitStopsVisit | GravityFun/ObjectMapper.h:172-222 | the first hit inside cell i is the first hit of the whole visit |
| ObjectMapperRadius.FirstHitInPrefix | GravityFun/ObjectMapper.h:172-222 | a first hit found in a prefix is the first hit of the whole list |
| ObjectMapperRadius.VisitRadius | GravityFun/ObjectMapper.h:143-224 | the radius visit returns true exactly when some entry of the traversed cells made the visitor return true, and stops at the first such entry |
| ObjectMapperRadius.EntriesPrefix | GravityFun/ObjectMapper.h:172-222 | the entries of a prefix of the cells are a prefix of all entries |
| ObjectMapperRadius.CellInEntries | GravityFun/ObjectMapper.h:170-222 | an entry of any visited cell is among the entries the radius visit reads |
| ObjectMapperRadius.NearbyEntryVisited | GravityFun/ObjectMapper.h:143-222 | an object filed in the cell of any position within the radius square is read by the radius visit |
| TimeStep.ActualStep | GravityFun/Physics.cpp:159-162 | the actual step never exceeds `MAX_TIME_DIFF * multiplier`, is positive for positive inputs, and is `elapsed * multiplier` below the cap |
| TimeStep.Offset | GravityFun/Physics.cpp:163 | no contract of its own: `TimeStep.Correction` bounds the correction by it and `TimeStep.DebtConserved` states the debt it feeds |
| TimeStep.Correction | GravityFun/Physics.cpp:163-167 | `abs(correction) <= abs(offset)`, the correction has the sign of the offset for non-negative strictness, and it is the offset itself when the actual step is 0 |
| TimeStep.PreFloorStep | GravityFun/Physics.cpp:163-168 | with strictness in [0, 1], the step before the floor lies between the last step and `actual + debt` |
| TimeStep.Advance | GravityFun/Physics.cpp:163-172 | one frame moves the debt by actual minus step, remembers the step, keeps a positive step, and replaces a non-positive one by `actual*0.5` |
| TimeStep.RunFrames | GravityFun/Physics.cpp:155-172 | running the controller over n frames emits n steps |
| TimeStep.DebtConserved | GravityFun/Physics.cpp:163-172 | over any number of frames, initial debt plus total actual time equals total steps plus final debt |
| TimeStep.StepsPositive | GravityFun/Physics.cpp:169-170 | every emitted step is positive when every actual step is |
| Physics.RangeEnd | GravityFun/Physics.cpp:35-37 | a worker's range ends at a non-negative index, at most n for a worker that exists |
| Physics.RangeBegin | GravityFun/Physics.cpp:35-37 | a worker's range begins within [0, n] |
| Physics.RangeBounds | GravityFun/Physics.cpp:35-37 | `0 <= begin <= end <= n` for every worker |
| Physics.RangeMonotone | GravityFun/Physics.cpp:36 | later workers begin no earlier |
| Physics.RangesSpan | GravityFun/Physics.cpp:36-37 | the first worker begins at 0 and the last ends at n |
| Physics.RangesDisjoint | GravityFun/Physics.cpp:36-37 | an earlier worker's range ends before a later one's begins |
| Physics.RangesCover | GravityFun/Physics.cpp:36-37 | every object index in [0, n) lies in some worker's range |
| Physics.Brake | GravityFun/Physics.cpp:235-253 | braking never increases the magnitude or flips the sign; it gives 0 when the magnitude is at most the amount, and otherwise the magnitude minus the amount |
| Physics.BrakeVelocity | GravityFun/Physics.cpp:235-253 | braking never increases either component's magnitude |
| Physics.BounceAxis | GravityFun/Physics.cpp:257-281 | inside the border nothing changes; an overshoot is mirrored back inside and the velocity becomes `-v*COLLISION_PRESERVE` |
| Physics.LocalBorder | GravityFun/Physics.cpp:259-260 | the border a body bounces at is pulled in by its radius: inside the border for a positive mass, the border itself for mass 0 |
| Physics.WrapAxis | GravityFun/Physics.cpp:282-300 | inside the border nothing changes; a crossing shifts the position by 2*border back inside |
| Physics.Integrate | GravityFun/Physics.cpp:186-300 | the write keeps its mass; with wrapping the velocity is the new velocity; with bouncing, a move that stays inside is taken as is |
| Physics.Acceleration | GravityFun/Physics.cpp:188-231 | down gravity lowers only the y acceleration by `DOWN_GRAVITY_ACCELERATION`, and otherwise the pull is used as is |
| Physics.Velocity | GravityFun/Physics.cpp:232-253 | without braking the velocity gains acceleration times step; with braking neither component's magnitude exceeds that |
| Physics.Moved | GravityFun/Physics.cpp:255 | no contract of its own: the unclamped new position, which `Physics.WrapKeepsInside` and `Physics.BounceKeepsInside` take as their premise |
| Physics.WrapKeepsInside | GravityFun/Physics.cpp:282-300 | with wrapping, a move of less than two border widths ends inside the border |
| Physics.BounceKeepsInside | GravityFun/Physics.cpp:257-281 | with bouncing, a move of less than two local-border widths ends inside the local border |
| Physics.WorkerPass | GravityFun/Physics.cpp:35-37 | one worker integrates exactly the bodies of its range and leaves every other write slot unchanged |
| Physics.Workers | GravityFun/Physics.cpp:35-37 | running the workers, worker k with step k, keeps the write buffer's length |
| Physics.WorkersPrefix | GravityFun/Physics.cpp:35-37 | after workers 0..k-1, every body in worker j's range is integrated with worker j's own step, and everything from worker k's range on is untouched |
| Physics.PassUpdatesAll | GravityFun/Physics.cpp:35-37 | after all workers of a pass, every body in worker j's range is integrated with step j, and the slots from n on are untouched |
| Physics.PassSharedStep | GravityFun/Physics.cpp:154-172 | when every worker's clock produced the same step, every body in [0, n) is integrated with that step |
| Physics.PairedFrame | GravityFun/Physics.cpp:154-173 | pass-2 worker k advances the clock of pass-1 worker k again: its step is the controller's step from the pass-1 step and the debt pass 1 left; the shared clock ends with the pass-2 step as its last step and its debt keeps both actual steps minus both emitted steps; positive actual steps give positive steps |
| Physics.PairedFrameIsTwoFrames | GravityFun/Physics.h:38-41 | one frame of a shared clock is the controller run over two frames: the pass-1 and pass-2 steps are its two consecutive steps and the clock it leaves is the run's last state |
| Physics.FramePasses | GravityFun/Physics.cpp:26-37 | in one normal-mode frame, every body in worker j's range is integrated in pass 1 with the first and in pass 2 with the second of two consecutive steps of clock j |
| Collision.Candidates | GravityFun/Physics.cpp:47-63 | the touching entries, never the body itself, and every touching entry other than itself |
| Collision.Collect | GravityFun/Physics.cpp:47-63 | collection stops at `MAX_COLLISION_COUNT` contacts and keeps what was already found |
| Collision.CollectTakesFirst | GravityFun/Physics.cpp:47-63 | the contacts are the first candidates in visit order, up to the cap |
| Collision.Contacts | GravityFun/Physics.cpp:47-64 | at most 24 contacts, never the body itself, each touching; below the cap every touching entry is recorded |
| Collision.NearbyTouchingIsContact | GravityFun/Physics.cpp:47-64 | fed with the entries of the radius visit around the body, with radius `2*MAX_MASS*MASS_TO_RADIUS`, the contacts include every touching body, other than itself, filed in the cell of any position within that radius, unless the cap is reached |
| Collision.SentinelIndex | GravityFun/Physics.cpp:80-87 | the first sentinel of a contact memory, with none before it |
| Collision.InitialMemory | GravityFun/Physics.cpp:16-21 | the constructor gives every body a memory that starts with the sentinel and so remembers nothing |
| Collision.Advance | GravityFun/Physics.cpp:80-83 | the inner `while` stops at the first remembered entry not below j and never passes the sentinel |
| Collision.Walk | GravityFun/Physics.cpp:77-93 | the walk marks as continuing only contacts that the memory remembers |
| Collision.WalkExact | GravityFun/Physics.cpp:77-93 | when memory and contacts are both increasing, a contact is marked continuing exactly when it is remembered |
| Collision.WalkMissesUnsorted | GravityFun/Physics.cpp:77-93 | concrete input: when the visit order is not increasing, a remembered contact is taken as new |
| Collision.TotalMassPositive | GravityFun/Physics.cpp:74-94 | the total of positive masses is positive, so the division at line 94 is defined |
| Collision.CommonMomentum | GravityFun/Physics.cpp:74-94 | bodies sharing one velocity have momentum equal to that velocity times the total mass |
| Collision.SharedVelocity | GravityFun/Physics.cpp:74-94 | corrected shared velocity: times the total mass of the body and its new partners, it gives their total momentum |
| Collision.SharedVelocityKeepsCommon | GravityFun/Physics.cpp:74-94 | when all new partners move with the body, the shared velocity is the body's own velocity |
| Collision.SharedVelocityAsWrittenHalves | GravityFun/Physics.cpp:90 | concrete input: two unit bodies moving together at (1, 0) get shared velocity (0.5, 0) as written, while the corrected version gives (1, 0) |
| Collision.SharedVelocityAsWritten | GravityFun/Physics.cpp:74-94 | as written: without new partners the body's own velocity; otherwise, times the total mass, only the last new partner's momentum |
| Collision.LastMomentum | GravityFun/Physics.cpp:88-92 | the `=` loop leaves only the last partner's momentum, or the initial one when there are no partners |
| Collision.Shared | GravityFun/Physics.cpp:74-94 | no contract of its own: selects the as-written or the intended accumulation |
| Collision.NewPartners | GravityFun/Physics.cpp:88-92 | the partners used for the shared velocity are bodies of the read buffer, at most one per contact |
| Collision.Rebounds | GravityFun/Physics.cpp:96-121 | the rebound count equals the number of new partners |
| Collision.RecordContacts | GravityFun/Physics.cpp:98-103 | the memory written after a frame with contacts remembers exactly the contacts, in order, followed by the sentinel |
| Collision.ContactVelocity | GravityFun/Physics.cpp:140-149 | for either accumulation, with only continuing contacts and no push-out, the velocity is the previous velocity |
| Collision.RestingVelocity | GravityFun/Physics.cpp:147-148 | the velocity times the pass-1 step is the distance from the previous position to the pushed-out one, so a body that was not pushed keeps its velocity |
| Collision.CoMovingRebounds | GravityFun/Physics.cpp:96-121 | when every new partner moves with the body, the rebounds add up to zero and the partners share the body's velocity |
| Collision.CoMovingKeepsVelocity | GravityFun/Physics.cpp:74-149 | with the intended accumulation, a body that is not pushed and whose new partners all move with it keeps its velocity |
| Collision.CoMovingAsWrittenHalves | GravityFun/Physics.cpp:90 | concrete input: two unit bodies moving together at (1, 0), in a new contact; as written body 0 is given (0.5, 0), the intended accumulation keeps (1, 0) |
| Collision.CollideBody | GravityFun/Physics.cpp:44-150 | with zero contacts, position and velocity are copied and the memory kept; otherwise the memory holds exactly the contacts followed by the sentinel and the position is the pushed-out one; a body resting in continuing contacts keeps its velocity; with the intended accumulation, so does a body whose new partners all move with it |
| Collision.SentinelAfter | GravityFun/Physics.cpp:134-139 | a contact list without the sentinel, followed by it, has its sentinel right after the list |
| Collision.AllContinuingNoPartners | GravityFun/Physics.cpp:140-149 | with only continuing contacts there are no new partners, so the `else` branch at line 145 is taken |
| GameManager.InitialRolesValid | GravityFun/GameManager.cpp:22-23 | the initial render and pass-2 write buffers are {0, 2}; neither is the fixed pass-1 write or pass-2 read buffer 1 |
| GameManager.SwapRoles | GravityFun/GameManager.cpp:47-48 | the swap exchanges the render and pass-2 write buffers, keeps them {0, 2}, and makes pass 1 read the new render buffer |
| GameManager.NotifyPass | GravityFun/GameManager.cpp:139-142 | after a physics pass, pass 1 reads the pass-2 write buffer and the other roles are kept |
| GameManager.SwapTwiceRestores | GravityFun/GameManager.cpp:47-48 | two consecutive swaps restore the render and pass-2 write buffers |
| GameManager.Toggle | GravityFun/GameManager.cpp:50-60 | a mode flag flips exactly when its key was pressed this frame |
| GameManager.CountUp | GravityFun/GameManager.cpp:63-72 | stepping up never lowers the count, never passes `MAX_OBJECTS_COUNT`, and raises it when there is room |
| GameManager.CountDown | GravityFun/GameManager.cpp:73-82 | stepping down never raises the count, never passes `MIN_OBJECTS_COUNT`, and lowers it when there is room |
| GameManager.StepCount | GravityFun/GameManager.cpp:63-82 | the count stays in [0, 1000]; up never lowers it, down never raises it, and no key keeps it |
| GameManager.GetDouble | GravityFun/GameManager.cpp:95-102 | a random draw in [0, 1) scaled to [lo, hi) stays in range |
| GameManager.NewBody | GravityFun/GameManager.cpp:95-102 | a new body is at rest, has `DEFAULT_MASS` unless variable mass is on (then in [MIN_MASS, MAX_MASS]), and starts inside its local border |
| GameManager.Resized | GravityFun/GameManager.cpp:85-106 | a resized buffer has the new count and keeps its surviving prefix |
| GameManager.ResizeBuffers | GravityFun/GameManager.cpp:85-106 | the resize keeps three buffers |
| GameManager.ResizeKeepsPrefix | GravityFun/GameManager.cpp:85-106 | after the resize all three buffers have the new length, keep their surviving prefix, and have the same new bodies appended |
| GameManager.Slower | GravityFun/GameManager.cpp:108-114 | Left halves the multiplier only when the result stays at least `MIN_TIME_MULTIPLIER` |
| GameManager.Faster | GravityFun/GameManager.cpp:115-122 | Right doubles the multiplier only when the result stays at most `MAX_TIME_MULTIPLIER` |
| GameManager.SlowerFasterInverse | GravityFun/GameManager.cpp:108-122 | within range, a halving undone by a doubling, or the other way round, restores the multiplier |
| GameManager.MouseWorldX | GravityFun/GameManager.cpp:125-133 | pixel x = 0 maps to `-BorderX`, x = width to `+BorderX`, the middle to 0 |
| GameManager.MouseWorldY | GravityFun/GameManager.cpp:125-133 | pixel y = 0 maps to `+BorderY`, y = height to `-BorderY`, the middle to 0 |
| GameManager.MouseInsideBorders | GravityFun/GameManager.cpp:125-133 | a pixel inside the window maps inside the borders |
| GameManager.Initial | GravityFun/GameManager.cpp:15-39 | the constructor's state has valid roles, the default count, three equal-length buffers of resting default-mass bodies, and a multiplier in range |
| GameManager.OnRun | GravityFun/GameManager.cpp:41-137 | a frame keeps the invariant (roles, count range, multiplier range, equal buffer lengths), swaps roles, sets the borders from the aspect ratio, and keeps every surviving body |
| GameManager.OnRunIgnoresAspectAndMouse | GravityFun/GameManager.cpp:124-136 | a frame sets the aspect ratio to width over height and the mouse buttons to the polled ones, and its result does not depend on the aspect ratio or mouse state it started from |
| GameManager.PhysicsPassNotify | GravityFun/GameManager.cpp:139-142 | only the pass-1 read role changes, to the pass-2 write buffer, and the invariant is kept |
| BufferGeneration.FanLoop | GravityFun/BufferGeneration.cpp:38-65 | the remaining fan triangles number 3 indices each, start at the centre, and stay in range |
| BufferGeneration.FanLoopTriangles | GravityFun/BufferGeneration.cpp:38-65 | triangle t of the loop is centre, vertex i+t, vertex i+t+1 |
| BufferGeneration.Fan | GravityFun/BufferGeneration.cpp:38-65 | the fan has `3*res` indices in range, every triangle starts at the centre, and the last closes back to vertex 1 |
| BufferGeneration.FanTriangles | GravityFun/BufferGeneration.cpp:38-65 | each non-closing triangle joins two consecutive rim vertices |
| BufferGeneration.FanLoopShift | GravityFun/BufferGeneration.cpp:38-65 | a fan loop at base b is the fan loop at 0 shifted by b |
| BufferGeneration.FanShift | GravityFun/BufferGeneration.cpp:38-65 | a fan at base b is the fan at 0 shifted by b |
| BufferGeneration.GenerateCircle | GravityFun/BufferGeneration.cpp:10-68 | after clamping to >= 8, `res+1` vertices and `3*res` indices, every index in range, every triangle starting at vertex 0 |
| BufferGeneration.GenerateSquare | GravityFun/BufferGeneration.cpp:70-120 | 4 vertices (24 floats) and 6 indices, all below 4 |
| BufferGeneration.ClampResolution | GravityFun/BufferGeneration.cpp:124-125 | the resolution is raised to the least allowed value and otherwise kept |
| BufferGeneration.ClampRadius | GravityFun/BufferGeneration.cpp:126-133 | a radius is brought into [0, 1], in-range values are kept, and values in [-1, 0) are negated |
| BufferGeneration.CornerLoop | GravityFun/BufferGeneration.cpp:191-277 | the remaining corner triangles number `12*(res-i)` indices, all below `1+4*res` |
| BufferGeneration.RoundedSquareIndices | GravityFun/BufferGeneration.cpp:191-277 | `12*res` indices below `1+4*res`, and each triangle has the centre as its middle index |
| BufferGeneration.GenerateRoundedSquare | GravityFun/BufferGeneration.cpp:122-279 | after the clamps, `1+4*res` vertices and `12*res` indices, all in range, radii in [0, 1] |
| BufferGeneration.CornerCentres | GravityFun/BufferGeneration.cpp:191-277 | every triangle of the corner loop has the centre as its middle index |
| BufferGeneration.CornerTriangles | GravityFun/BufferGeneration.cpp:242-256 | no contract of its own: `BufferGeneration.CornerLoopJoinsSteps` states which vertices its triangles join |
| BufferGeneration.CornerLoopJoinsSteps | GravityFun/BufferGeneration.cpp:242-256 | loop step j joins each corner's new vertex `1+4j+c` through the centre to the same corner's previous vertex `1+4(j-1)+c` |
| BufferGeneration.ClosingTriangles | GravityFun/BufferGeneration.cpp:259-276 | no contract of its own: `BufferGeneration.ClosingJoinsCorners` states which vertices its triangles join |
| BufferGeneration.ClosingJoinsCorners | GravityFun/BufferGeneration.cpp:259-276 | the last four triangles join corner c's start `1+c` through the centre to the last vertex of the corner before it, `(c+3) mod 4` |
| BufferGeneration.GenerateExitIcon | GravityFun/BufferGeneration.cpp:281-468 | 15 vertices and 27 indices, all below 15 |
| BufferGeneration.AnimatedCircle | GravityFun/BufferGeneration.cpp:470-553 | `res+1` vertices appended to both lists, `3*res` new indices in `[next, next+res]`, earlier indices kept, `next_index` advanced by `res+1` |
| BufferGeneration.AnimatedCircleMatchesCircle | GravityFun/BufferGeneration.cpp:470-553 | the animated circle's indices are the circle's indices shifted by `next_index` |
| BufferGeneration.AnimatedArrow | GravityFun/BufferGeneration.cpp:555-720 | 7 vertices appended to both lists, 9 new indices in `[next, next+7)`, `next_index` advanced by 7 |
| BufferGeneration.Finish | GravityFun/BufferGeneration.cpp:722-830 | the finished buffers carry the builder's counts and indices |
| BufferGeneration.GenerateDownGravityToggle | GravityFun/BufferGeneration.cpp:722-769 | both vertex states have equal length, every index is below the vertex count, and the count is `res+8` |
| BufferGeneration.GenerateRelativeGravityToggle | GravityFun/BufferGeneration.cpp:771-830 | both vertex states have equal length, every index is below the vertex count, and the count is `2*(res+1)+14` |
| Startup.CharAt | GravityFun/GravityFun.cpp:44 | reading past the end of the line yields the terminating NUL |
| Startup.Find | GravityFun/GravityFun.cpp:29-31 | the search returns the first occurrence of `concurrency`, or none |
| Startup.SkipSpaces | GravityFun/GravityFun.cpp:32-33 | skipping stops at the first non-space, or at the end |
| Startup.DigitEndAsWritten | GravityFun/GravityFun.cpp:43-45 | the digit loop as written tests the first digit only, so it either stays put or runs to the end of the line |
| Startup.DigitEnd | GravityFun/GravityFun.cpp:43-45 | the intended digit loop stops at the first non-digit |
| Startup.ValueStart | GravityFun/GravityFun.cpp:29-41 | a value can only start after an occurrence of the keyword |
| Startup.ParseLine | GravityFun/GravityFun.cpp:29-48 | a line is accepted only when it contains the keyword |
| Startup.Stoi | GravityFun/GravityFun.cpp:48 | no contract of its own: `Startup.StoiTail` states that it reads the leading digits |
| Startup.ValueAsWritten | GravityFun/GravityFun.cpp:42-48 | no contract of its own: `Startup.ValueAsWrittenMatches` states that it agrees with the intended digit loop |
| Startup.ParseAsWrittenMatchesIntended | GravityFun/GravityFun.cpp:43-48 | testing `line[i]` in the digit loop does not change the parsed value, because `stoi` stops at the first non-digit |
| Startup.ValueAsWrittenMatches | GravityFun/GravityFun.cpp:43-48 | from any value start, the as-written and intended value parses agree |
| Startup.StoiTail | GravityFun/GravityFun.cpp:48 | `stoi` of the rest of the line is the value of its leading digits |
| Startup.DigitEndShift | GravityFun/GravityFun.cpp:43-45 | the digit end of a suffix is the digit end of the line, shifted |
| Startup.ParseAccepts | GravityFun/GravityFun.cpp:29-48 | a line of the form keyword, spaces, `=`, spaces, digits (first occurrence of the keyword) is accepted with the value of those digits |
| Startup.AcceptedLayout | GravityFun/GravityFun.cpp:29-48 | every accepted line has that form, and its value is the value of its digits |
| Startup.ValueStartAt | GravityFun/GravityFun.cpp:29-41 | the value starts right after the spaces that follow `=` |
| Startup.ValueAt | GravityFun/GravityFun.cpp:42-48 | a digit run ending at a non-digit or the end of line gives its value |
| Startup.FindFirst | GravityFun/GravityFun.cpp:29-31 | the search finds the first occurrence |
| Startup.SkipSpacesOver | GravityFun/GravityFun.cpp:32-33 | skipping passes exactly a run of spaces |
| Startup.DigitEndOver | GravityFun/GravityFun.cpp:43-45 | the digit end is exactly past a run of digits |
| Startup.Clamp | GravityFun/GravityFun.cpp:49-52 | the value is clamped to [1, 1024] and kept when in range |
| Startup.ReadLines | GravityFun/GravityFun.cpp:27-55 | the concurrency after reading lines is the starting value or a value within [1, 1024] |
| Startup.LastAccepted | GravityFun/GravityFun.cpp:27-55 | the value of the last accepted line, when there is one, lies within [1, 1024] |
| Startup.Concurrency | GravityFun/GravityFun.cpp:19-55 | without a configuration file the concurrency is the hardware value; otherwise it is that value or a value within [1, 1024] |
| Startup.ConcurrencyIsLastAccepted | GravityFun/GravityFun.cpp:19-55 | with no configuration file the concurrency is the hardware value; otherwise it is the clamped value of the last accepted line, or the hardware value if none |
| Startup.ReadLinesIsLast | GravityFun/GravityFun.cpp:27-55 | reading the lines yields the last accepted value, within [1, 1024] |
| Startup.ReadLinesSnoc | GravityFun/GravityFun.cpp:27-55 | a later accepted line overrides everything before it, and a rejected one changes nothing |
| Startup.Pass1Workers | GravityFun/GravityFun.cpp:65-77 | exactly `concurrency` pass-1 workers, numbered 0..n-1, with no predecessor |
| Startup.Pass2Workers | GravityFun/GravityFun.cpp:65-77 | exactly `concurrency` pass-2 workers, worker k paired with pass-1 worker k |
| Startup.PassesPaired | GravityFun/GravityFun.cpp:65-77 | every pass-2 worker follows the pass-1 worker with its own number, and every object belongs to some worker's range |
| AnimatedModel.Construct | GravityFun/AnimatedModel.cpp:7-18 | construction succeeds exactly when the two states have equal length, and starts at state 0 |
| AnimatedModel.Lerp | GravityFun/AnimatedModel.cpp:23 | no contract of its own: `AnimatedModel.LerpEnds` states its ends and bounds |
| AnimatedModel.LerpEnds | GravityFun/AnimatedModel.cpp:20-25 | interpolation gives the first state at t = 0 and the second at t = 1, and stays between them for t in [0, 1] |
| AnimatedModel.Update | GravityFun/AnimatedModel.cpp:20-25 | every component is interpolated between the two states, and the length and key states are kept |
| AnimatedModel.UpdateEnds | GravityFun/AnimatedModel.cpp:20-25 | `Update(0)` reproduces state 0 and `Update(1)` state 1 |
| AnimatedModel.UpdatePointwise | GravityFun/AnimatedModel.cpp:20-25 | component i depends only on component i of the two states |
| AnimatedModel.TogglesConstruct | GravityFun/BufferGeneration.cpp:722-830 | the toggle buttons' vertex states always pass the constructor's length check |
| EnergySaver.ClampFactor | GravityFun/EnergySaver.cpp:5-21 | the factor is clamped to [0, 1] and kept when in range |
| EnergySaver.Create | GravityFun/EnergySaver.cpp:5-12 | the constructed factor is in [0, 1] and equals an in-range argument |
| EnergySaver.SetFactor | GravityFun/EnergySaver.cpp:14-21 | the set factor is in [0, 1] and equals an in-range argument |
| EnergySaver.SetFactorIdempotent | GravityFun/EnergySaver.cpp:14-21 | setting twice, or setting the clamped value, has the effect of setting once |
| EnergySaver.OnRun | GravityFun/EnergySaver.cpp:27-38 | no idle when the factor is 0 or a parent or grandparent is missing; otherwise the idle amount is factor times the grandparent's prediction |
| EnergySaver.IdleWithinPrediction | GravityFun/EnergySaver.cpp:27-38 | the idle amount lies between 0 and the non-negative prediction |
| Easing.Smoothstep | GravityFun/Renderer.cpp:36-43 | smoothstep is 0 for t < 0, 1 for t > 1, and always in [0, 1] |
| Easing.CubicBounds | GravityFun/Renderer.cpp:36-43 | on [0, 1] the cubic `t*t*(3-2t)` stays in [0, 1] |
| Easing.SmoothstepEnds | GravityFun/Renderer.cpp:36-43 | smoothstep gives 0 at 0, 1 at 1 and 1/2 at 1/2 |
| Easing.SmoothstepSymmetric | GravityFun/Renderer.cpp:36-43 | `smoothstep(1-t) = 1 - smoothstep(t)` |
| Easing.SmoothstepMonotone | GravityFun/Renderer.cpp:36-43 | smoothstep never decreases |
| Easing.CubicDifference | GravityFun/Renderer.cpp:36-43 | the cubic's difference factors through `b - a` |
| Easing.SlopeNonnegative | GravityFun/Renderer.cpp:36-43 | on [0, 1] the cubic's difference quotient is not negative |
| Easing.SlopeBound | GravityFun/Renderer.cpp:36-43 | the linear step of that bound |
| Easing.Smoothstart | GravityFun/Renderer.cpp:45-52 | smoothstart is 0 for t < 0, 1 for t > 1, and always in [0, 1] |
| Easing.SmoothstartMonotone | GravityFun/Renderer.cpp:45-52 | smoothstart never decreases |
| Easing.Smoothstop | GravityFun/Renderer.cpp:54-57 | smoothstop is 0 for t < 0, 1 for t > 1, and always in [0, 1] |
| Easing.SmoothstopEnds | GravityFun/Renderer.cpp:54-57 | smoothstop gives 0 at 0 and 1 at 1 |
| Easing.SmoothstopMonotone | GravityFun/Renderer.cpp:54-57 | smoothstop never decreases, because smoothstart does not |

## Left out

- Window, GLFW and GL calls: event polling, rendering, shaders, GL uploads in `AnimatedModel`, `Model.h` and `Shaders.h`. These are I/O and foreign calls.
- The `cos`/`sin` vertex positions in `BufferGeneration.cpp`. Only counts, indices and clamps are modelled.
- The loop scheduler, thread-id gating, `Idle` and `PredictLowerRemainingExecutionTime`. The predicted times are inputs to `EnergySaver.OnRun`.
- `std::chrono::steady_clock`. The elapsed time is an input to `TimeStep.ActualStep`.
- `Vec2::GetMagnitude` and `GetNormalized`. Their implementation is not part of this model, and they need `sqrt`. The following are inputs instead:
  - the touching test and the normalised directions of `Collision`;
  - the pushed-out position;
  - the gravity pull on each body.
- Gravity force sums and positional push-out magnitudes. They depend on those magnitudes, and no property is claimed about them.
- IEEE double rounding. All arithmetic is exact on `real`, and nothing bit-exact is claimed.
- TimeStep.Correction: `actual == 0` makes the source divide by zero. The model takes the correction to be the offset. That is what the IEEE clamp gives when the offset is non-zero and the strictness is in (0, 1], the range `GameManager.h:141` asks for. The NaN that arises when the offset is also 0 is not modelled.
- GameManager.MouseWorldX and GameManager.MouseWorldY: they require a non-zero window size. A zero size gives an IEEE infinity or NaN in the source. With width 0 the border is 0 as well, so every mouse x maps to `0 * inf`, which is NaN.
- GameManager.OnRun: it requires a non-zero window size, for the same reason.
- `Random.cpp` (`mt19937`). It is an oracle `draw` that yields values in [0, 1), which `GameManager.GetDouble` scales.
- `std::filesystem` existence checks and `ifstream` reading. The file is given as an optional sequence of lines.
- `std::stoi` overflow. `Startup.Stoi` works on unbounded naturals, so the out-of-range exception is not modelled.
- `std::thread::hardware_concurrency`. It is an input.
- The uninitialised tail of a contact memory after its sentinel. The model keeps only the slots up to and including the sentinel, which is all that the walk reads.
- `Info.h` and `GravityFun.dec.h`: only strings, constants and forward declarations.
- BufferGeneration.AnimatedCircle: it requires `res >= 1`, because the source divides the circle into `res` segments. Both toggle generators clamp to at least 8 before calling it.
- Collision.Walk: the merge walk assumes the contacts arrive in increasing order. The radius visit does not promise that order. `Collision.WalkExact` states the exact behaviour under that assumption, and `Collision.WalkMissesUnsorted` shows a remembered contact taken as new without it.
- Collision.CollideBody: the value of the velocity with new partners is stated only for partners moving with the body (`Collision.CoMovingKeepsVelocity`), plus the count of rebounds, because the rebound values depend on the normalised directions.
- Collision.ContactVelocity: it requires a non-zero pass-1 step when there are no new partners. A step of 0 is reachable: `TimeStep.Advance` emits 0 when the actual step is 0, and then the source divides by zero at `Physics.cpp:148`. The IEEE infinity or NaN it writes has no counterpart among the reals.
- Collision.CollideBody: it has the same requirement, for the same division by zero.
- Collision.RestingVelocity: it requires a non-zero pass-1 step, because it is the computation at `Physics.cpp:147-148` that divides by that step.
- GameManager.Initial: the constructor leaves the aspect ratio, the mouse position and the three mouse-button flags uninitialised. The model gives them 1, (0, 0) and false. `GameManager.OnRun` overwrites all of them before anything reads them (`GameManager.OnRunIgnoresAspectAndMouse`), so no property depends on those values.
- The contact memory is left as it was on a frame without contacts. The source continues at `Physics.cpp:71` before rewriting it, and the model follows the code.

## Findings

| source | as written | input that shows it | evidently intended | confidence | as-written member | corrected member |
|---|---|---|---|---|---|---|
| GravityFun/ObjectMapper.h:104-121 | the insertion scan runs to `start + SlotsCount`, so a cell holding `CellCapacity-1` entries writes its new sentinel into the next cell's first slot | grid of 2x2 cells with capacity 2, buffer `[5, -1, 6, -1, -1, 0, -1, 0]`; adding 7 to cell 0 writes its sentinel over the 6, so cell 1 reads as empty | scan only the cell's own `CellCapacity` slots | not executed | ObjectMapper.AddObjectClobbersNeighbour | ObjectMapper.AddObjectBoundedKeepsCells |
| GravityFun/Physics.cpp:90 | the shared velocity is overwritten (`=`) by each new partner's momentum, instead of accumulated, while the mass is accumulated | two unit-mass bodies both moving at (1, 0), in a new contact: the shared velocity, and so the velocity written for body 0, is (0.5, 0) | `shared_velocity +=`, so the shared velocity is total momentum over total mass | not executed | Collision.CoMovingAsWrittenHalves | Collision.CoMovingKeepsVelocity |

=== FILE: AnimatedModel.dfy ===
/** A model animated between two vertex states: construction checks that
    the states have the same length, and Update interpolates linearly.
    Uploading the vertices to the GPU is left out. */
module AnimatedModel {
  import opened Arith
  import BufferGeneration

  /** The model's state: both key states, the current vertices and the
      index list. */
  datatype Animated = Animated(vertices0: seq<real>, vertices1: seq<real>, vertices: seq<real>, indices: seq<int>)

  /** The constructors either build the model or throw length_error. */
  datatype Construction = Built(model: Animated) | LengthError

  /** Both constructors: the current vertices start as state 0, and
      unequal state lengths are rejected. */
  function Construct(vertices0: seq<real>, vertices1: seq<real>, indices: seq<int>): (c: Construction)
    ensures c.Built? <==> |vertices0| == |vertices1|
    ensures c.Built? ==> c.model.vertices0 == vertices0 && c.model.vertices1 == vertices1
    ensures c.Built? ==> c.model.vertices == vertices0 && c.model.indices == indices
  {
    if |vertices0| != |vertices1| then LengthError
    else Built(Animated(vertices0, vertices1, vertices0, indices))
  }

  /** A model the constructors can return. */
  ghost predicate Valid(m: Animated) {
    |m.vertices0| == |m.vertices1| == |m.vertices|
  }

  function Lerp(a: real, b: real, t: real): real {
    a + (b - a) * t
  }

  /** The ends of an interpolation are its key values, and in between it
      stays between them. */
  lemma LerpEnds(a: real, b: real, t: real)
    ensures Lerp(a, b, 0.0) == a && Lerp(a, b, 1.0) == b
    ensures 0.0 <= t <= 1.0 && a <= b ==> a <= Lerp(a, b, t) <= b
    ensures 0.0 <= t <= 1.0 && b <= a ==> b <= Lerp(a, b, t) <= a
  {
    if 0.0 <= t <= 1.0 {
      if a <= b {
        RealMulMono(t, 1.0, b - a);
        assert t * (b - a) == (b - a) * t;
      } else {
        RealMulMono(t, 1.0, a - b);
        assert t * (a - b) == -((b - a) * t);
      }
    }
  }

  /** Update(t): every component is interpolated between the two states;
      the length and the key states are kept. */
  function Update(m: Animated, t: real): (r: Animated)
    requires Valid(m)
    ensures Valid(r)
    ensures r.vertices0 == m.vertices0 && r.vertices1 == m.vertices1 && r.indices == m.indices
    ensures |r.vertices| == |m.vertices|
    ensures forall i :: 0 <= i < |r.vertices| ==> r.vertices[i] == Lerp(m.vertices0[i], m.vertices1[i], t)
  {
    m.(vertices := seq(|m.vertices0|, i requires 0 <= i < |m.vertices0| => Lerp(m.vertices0[i], m.vertices1[i], t)))
  }

  /** State 0 and state 1 are reproduced exactly. */
  lemma UpdateEnds(m: Animated)
    requires Valid(m)
    ensures Update(m, 0.0).vertices == m.vertices0
    ensures Update(m, 1.0).vertices == m.vertices1
  {
    forall i | 0 <= i < |m.vertices0| {
      LerpEnds(m.vertices0[i], m.vertices1[i], 0.0);
    }
  }

  /** Component i depends only on component i of the two states. */
  lemma UpdatePointwise(m: Animated, n: Animated, t: real, i: int)
    requires Valid(m) && Valid(n)
    requires 0 <= i < |m.vertices0| && 0 <= i < |n.vertices0|
    requires m.vertices0[i] == n.vertices0[i] && m.vertices1[i] == n.vertices1[i]
    ensures Update(m, t).vertices[i] == Update(n, t).vertices[i]
  {
  }

  /** The toggle buttons' buffers always pass the length check, whatever
      the vertex positions are. */
  lemma TogglesConstruct(mesh: BufferGeneration.AnimatedMesh, resolution: int, vertices0: seq<real>, vertices1: seq<real>)
    requires mesh == BufferGeneration.GenerateDownGravityToggle(resolution)
             || mesh == BufferGeneration.GenerateRelativeGravityToggle(resolution)
    requires |vertices0| == mesh.FloatCount0() && |vertices1| == mesh.FloatCount1()
    ensures Construct(vertices0, vertices1, mesh.indices).Built?
  {
  }
}

=== FILE: Arith.dfy ===
/** Small facts about integer multiplication, Euclidean division and remainder,
    kept in one place so that the modules using them stay linear. */
module Arith {

  lemma MulNonneg(a: int, b: int)
    requires 0 <= a && 0 <= b
    ensures 0 <= a * b
  {
  }

  lemma MulMono(a: int, b: int, c: int)
    requires a <= b && 0 <= c
    ensures a * c <= b * c
  {
    MulNonneg(b - a, c);
    assert b * c - a * c == (b - a) * c;
  }

  /** Either a < b, or the products are ordered the same way. */
  lemma MulMonoOrLess(a: int, b: int, c: int)
    requires 0 <= c
    ensures a < b || b * c <= a * c
  {
    if b <= a {
      MulMono(b, a, c);
    }
  }

  lemma MulAtLeast(d: int, n: int)
    requires 1 <= d && 0 < n
    ensures n <= d * n
  {
    MulMono(1, d, n);
  }

  /** Euclidean division of q*n + r for a residue r in [0, n). */
  lemma ModMultipleOffset(q: int, r: int, n: int)
    requires 0 < n && 0 <= r < n
    ensures (q * n + r) % n == r
    ensures (q * n + r) / n == q
  {
    var a := q * n + r;
    var q' := a / n;
    var r' := a % n;
    assert a == q' * n + r';
    assert (q - q') * n == r' - r;
    if q > q' {
      MulAtLeast(q - q', n);
    } else if q < q' {
      MulAtLeast(q' - q, n);
    }
  }

  /** A residue in [0, n) that differs from a by a multiple of n is a % n. */
  lemma ModUnique(a: int, q: int, r: int, n: int)
    requires 0 < n && 0 <= r < n
    requires a == q * n + r
    ensures a % n == r && a / n == q
  {
    ModMultipleOffset(q, r, n);
  }

  lemma DivMono(a: int, b: int, n: int)
    requires a <= b && 0 < n
    ensures a / n <= b / n
  {
    var qa, qb := a / n, b / n;
    assert qa * n + a % n == a;
    assert qb * n + b % n == b;
    assert (qb + 1) * n == qb * n + n;
    MulMonoOrLess(qa, qb + 1, n);
  }

  lemma RealMulMono(a: real, b: real, c: real)
    requires a <= b && 0.0 <= c
    ensures a * c <= b * c
    ensures 0.0 <= a ==> 0.0 <= a * c
  {
    assert b * c - a * c == (b - a) * c;
  }

  lemma RealMulStrict(a: real, b: real, c: real)
    requires a < b && 0.0 < c
    ensures a * c < b * c
  {
    assert b * c - a * c == (b - a) * c;
  }

  /** Scaling a non-negative bound by a factor in [-1, 1] stays within it. */
  lemma RealScaleUnit(b: real, f: real)
    requires 0.0 <= b && -1.0 <= f <= 1.0
    ensures -b <= b * f <= b
  {
    RealMulMono(f, 1.0, b);
    RealMulMono(-1.0, f, b);
    assert f * b == b * f;
  }

  /** A quotient of 0 <= p <= w by a positive w lies in [0, 1]. */
  lemma RealDivUnit(p: real, w: real)
    requires 0.0 <= p <= w && 0.0 < w
    ensures 0.0 <= p / w <= 1.0
  {
    var q := p / w;
    assert q * w == p;
    if q < 0.0 {
      RealMulStrict(q, 0.0, w);
    }
    if 1.0 < q {
      RealMulStrict(1.0, q, w);
    }
  }

  /** A unit fraction of a non-negative length d stays within [0, d]. */
  lemma UnitScale(u: real, d: real)
    ensures 0.0 <= u < 1.0 && 0.0 <= d ==> 0.0 <= u * d <= d
    ensures 0.0 <= u < 1.0 && 0.0 < d ==> u * d < d
  {
    if 0.0 <= u < 1.0 && 0.0 <= d {
      RealMulMono(u, 1.0, d);
      if 0.0 < d {
        RealMulStrict(u, 1.0, d);
      }
    }
  }

  /** A point of [0, a) scaled by s / a lies in [0, s). */
  lemma ScaledBelow(p: real, a: real, s: real)
    ensures 0.0 <= p < a && 0.0 < s ==> 0.0 <= p * (s / a) < s
  {
    if 0.0 <= p < a && 0.0 < s {
      var k := s / a;
      assert a * k == s;
      RealMulMono(0.0, p, k);
      RealMulStrict(p, a, k);
    }
  }

  /** The pixel fractions the mouse mapping relies on. */
  lemma PixelFraction(p: int, w: int)
    requires w != 0
    ensures p == w ==> (p as real) / (w as real) == 1.0
    ensures 2 * p == w ==> (p as real) / (w as real) == 0.5
  {
  }
}

=== FILE: Bodies.dfy ===
/** Two-component vectors (Math::Vec2) and the simulated body (FloatingObject).
    Doubles are modelled as mathematical reals; nothing here is bit-exact. */
module Bodies {

  datatype Option<T> = None | Some(value: T)

  datatype Vec2 = Vec2(x: real, y: real) {

    function Plus(o: Vec2): Vec2 {
      Vec2(x + o.x, y + o.y)
    }

    function Minus(o: Vec2): Vec2 {
      Vec2(x - o.x, y - o.y)
    }

    function Scale(k: real): Vec2 {
      Vec2(x * k, y * k)
    }

    function Dot(o: Vec2): real {
      x * o.x + y * o.y
    }
  }

  /** The value of a default-constructed Vec2 (taken to be the origin). */
  const Origin := Vec2(0.0, 0.0)

  /** A massed point body: FloatingObject{Mass, Position, Velocity}. */
  datatype Body = Body(mass: real, position: Vec2, velocity: Vec2)

  /** FloatingObject's default arguments: mass 1 at rest at the origin. */
  const DefaultBody := Body(1.0, Origin, Origin)

  function Abs(v: real): real {
    if v < 0.0 then -v else v
  }

  function Min(a: real, b: real): real {
    if a <= b then a else b
  }
}

=== FILE: BufferGeneration.dfy ===
/** The mesh topology of BufferGeneration: how many vertices each
    generator emits and which triangle indices it writes.  Vertex
    positions come from cos/sin and are not modelled; every vertex is six
    floats (position x, y, z and the normal 0, 0, 1). */
module BufferGeneration {

  /** Floats per vertex: three for the position, three for the normal. */
  const FloatsPerVertex: int := 6

  /** A static mesh: its vertex count and its index list. */
  datatype Mesh = Mesh(vertexCount: nat, indices: seq<int>) {
    function FloatCount(): int {
      FloatsPerVertex * vertexCount
    }
  }

  /** Every index lies in [lo, hi). */
  ghost predicate IndicesIn(indices: seq<int>, lo: int, hi: int) {
    forall k :: 0 <= k < |indices| ==> lo <= indices[k] < hi
  }

  /** A list of whole triangles whose indices all lie in [0, vertexCount). */
  ghost predicate ValidMesh(m: Mesh) {
    |m.indices| % 3 == 0 && IndicesIn(m.indices, 0, m.vertexCount)
  }

  // ---------------------------------------------------------------------
  // Circle fans

  /** The fan loop: for i = i0 .. res-1 the triangle
      (center, base + i, base + i + 1). */
  function FanLoop(base: int, i: int, res: int): (r: seq<int>)
    requires 1 <= i
    ensures |r| == if i < res then 3 * (res - i) else 0
    ensures IndicesIn(r, base, base + res + 1)
    ensures forall t :: 0 <= t && 3 * t < |r| ==> r[3 * t] == base
    decreases res - i
  {
    if i < res then
      var tri := [base, base + i, base + i + 1];
      var rest := FanLoop(base, i + 1, res);
      assert forall k :: 3 <= k < |tri + rest| ==> (tri + rest)[k] == rest[k - 3];
      assert forall t :: 1 <= t && 3 * t < |tri + rest| ==> (tri + rest)[3 * t] == rest[3 * (t - 1)];
      tri + rest
    else []
  }

  /** The loop's triangle t is (base, base + i + t, base + i + t + 1): the
      rim is walked one vertex at a time. */
  lemma {:induction false} FanLoopTriangles(base: int, i: int, res: int, t: int)
    requires 1 <= i && 0 <= t && i + t < res
    ensures FanLoop(base, i, res)[3 * t..3 * t + 3] == [base, base + i + t, base + i + t + 1]
    decreases t
  {
    var r := FanLoop(base, i, res);
    var rest := FanLoop(base, i + 1, res);
    assert r == [base, base + i, base + i + 1] + rest;
    if t > 0 {
      FanLoopTriangles(base, i + 1, res, t - 1);
      assert r[3 * t..3 * t + 3] == rest[3 * (t - 1)..3 * (t - 1) + 3];
    }
  }

  /** A closed fan around the centre vertex `base` with rim vertices
      base+1 .. base+res: the loop, then the triangle joining the last rim
      vertex back to the first. */
  function Fan(base: int, res: int): (r: seq<int>)
    requires 1 <= res
    ensures |r| == 3 * res
    ensures IndicesIn(r, base, base + res + 1)
    ensures forall t :: 0 <= t < res ==> r[3 * t] == base
    ensures r[3 * (res - 1)..] == [base, base + res, base + 1]
  {
    var loop := FanLoop(base, 1, res);
    assert forall t :: 0 <= t < res - 1 ==> (loop + [base, base + res, base + 1])[3 * t] == loop[3 * t];
    loop + [base, base + res, base + 1]
  }

  /** Fan triangle t, for every t but the closing one, is (base, base+1+t,
      base+2+t): consecutive rim vertices around the centre. */
  lemma FanTriangles(base: int, res: int, t: int)
    requires 0 <= t < res - 1
    ensures Fan(base, res)[3 * t..3 * t + 3] == [base, base + 1 + t, base + 2 + t]
  {
    FanLoopTriangles(base, 1, res, t);
    var loop := FanLoop(base, 1, res);
    assert Fan(base, res)[3 * t..3 * t + 3] == loop[3 * t..3 * t + 3];
  }

  /** A fan around `base` is the fan around 0 shifted by base: the
      animated circle writes the static circle's triangles, offset by the
      vertices already emitted. */
  lemma {:induction false} FanLoopShift(base: int, i: int, res: int)
    requires 1 <= i
    ensures |FanLoop(base, i, res)| == |FanLoop(0, i, res)|
    ensures forall k :: 0 <= k < |FanLoop(base, i, res)| ==> FanLoop(base, i, res)[k] == FanLoop(0, i, res)[k] + base
    decreases res - i
  {
    if i < res {
      FanLoopShift(base, i + 1, res);
      var a := FanLoop(base, i + 1, res);
      var z := FanLoop(0, i + 1, res);
      assert FanLoop(base, i, res) == [base, base + i, base + i + 1] + a;
      assert FanLoop(0, i, res) == [0, i, i + 1] + z;
    }
  }

  lemma FanShift(base: int, res: int)
    requires 1 <= res
    ensures forall k :: 0 <= k < 3 * res ==> Fan(base, res)[k] == Fan(0, res)[k] + base
  {
    FanLoopShift(base, 1, res);
  }

  /** GenerateCircle: the resolution is raised to at least 8; vertex 0 is
      the centre and vertices 1 .. res the rim. */
  function GenerateCircle(resolution: int): (m: Mesh)
    ensures resolution < 8 ==> m.vertexCount == 9 && |m.indices| == 24
    ensures 8 <= resolution ==> m.vertexCount == resolution + 1 && |m.indices| == 3 * resolution
    ensures m.FloatCount() == FloatsPerVertex * (m.vertexCount)
    ensures ValidMesh(m)
    ensures forall t :: 0 <= t && 3 * t < |m.indices| ==> m.indices[3 * t] == 0
  {
    var res := if resolution < 8 then 8 else resolution;
    Mesh(res + 1, Fan(0, res))
  }

  /** GenerateSquare: two triangles over the four corners. */
  function GenerateSquare(): (m: Mesh)
    ensures m.vertexCount == 4 && m.FloatCount() == 24 && |m.indices| == 6
    ensures ValidMesh(m)
  {
    Mesh(4, [0, 1, 2, 0, 2, 3])
  }

  // ---------------------------------------------------------------------
  // Rounded square

  function ClampResolution(resolution: int, least: int): (r: int)
    ensures least <= r
    ensures least <= resolution ==> r == resolution
  {
    if resolution < least then least else resolution
  }

  /** A corner radius: its absolute value, capped at 1. */
  function ClampRadius(radius: real): (r: real)
    ensures 0.0 <= r <= 1.0
    ensures 0.0 <= radius <= 1.0 ==> r == radius
    ensures -1.0 <= radius <= 0.0 ==> r == -radius
  {
    var a := if radius < 0.0 then -radius else radius;
    if a > 1.0 then 1.0 else a
  }

  /** The four corner triangles of one loop step: current + o, the centre
      0, previous + o for corner offsets o = 0 .. 3. */
  function CornerTriangles(current: int, previous: int): seq<int> {
    [current + 0, 0, previous + 0,
     current + 1, 0, previous + 1,
     current + 2, 0, previous + 2,
     current + 3, 0, previous + 3]
  }

  /** The corner loop for i = i0 .. res-1, current index 1 + 4i. */
  function CornerLoop(i: int, res: int): (r: seq<int>)
    requires 1 <= i
    ensures |r| == if i < res then 12 * (res - i) else 0
    ensures IndicesIn(r, 0, 1 + 4 * res)
    decreases res - i
  {
    if i < res then CornerTriangles(1 + 4 * i, 1 + 4 * i - 4) + CornerLoop(i + 1, res) else []
  }

  /** The four closing triangles joining the last corner vertices back to
      the corner starts 1 .. 4. */
  function ClosingTriangles(last: int): seq<int> {
    [1 + 0, 0, last + 3,
     1 + 1, 0, last + 0,
     1 + 2, 0, last + 1,
     1 + 3, 0, last + 2]
  }

  /** The rounded square's index list for a clamped resolution. */
  function RoundedSquareIndices(res: int): (r: seq<int>)
    requires 2 <= res
    ensures |r| == 12 * res
    ensures IndicesIn(r, 0, 1 + 4 * res)
    ensures forall t :: 0 <= t && 3 * t < |r| ==> r[3 * t + 1] == 0
  {
    var loop := CornerLoop(1, res);
    var closing := ClosingTriangles(1 + (res - 1) * 4);
    CornerCentres(1, res);
    assert forall k :: |loop| <= k < |loop + closing| ==> (loop + closing)[k] == closing[k - |loop|];
    assert forall t :: 0 <= t && 3 * t < |loop| ==> (loop + closing)[3 * t + 1] == loop[3 * t + 1];
    loop + closing
  }

  /** A rounded square: its mesh and the clamped corner radii. */
  datatype RoundedSquare = RoundedSquare(mesh: Mesh, radiusX: real, radiusY: real)

  /** GenerateRoundedSquare: the centre, the four corner starts, then four
      new corner vertices per step; the last corner vertices are joined
      back to the corner starts. */
  function GenerateRoundedSquare(resolution: int, radiusX: real, radiusY: real): (s: RoundedSquare)
    ensures 2 <= resolution ==> s.mesh.vertexCount == 1 + 4 * resolution && |s.mesh.indices| == 12 * resolution
    ensures resolution < 2 ==> s.mesh.vertexCount == 9 && |s.mesh.indices| == 24
    ensures ValidMesh(s.mesh)
    ensures forall t :: 0 <= t && 3 * t < |s.mesh.indices| ==> s.mesh.indices[3 * t + 1] == 0
    ensures 0.0 <= s.radiusX <= 1.0 && 0.0 <= s.radiusY <= 1.0
  {
    var res := ClampResolution(resolution, 2);
    RoundedSquare(Mesh(1 + 4 * res, RoundedSquareIndices(res)), ClampRadius(radiusX), ClampRadius(radiusY))
  }

  /** Every corner triangle has the centre as its middle index. */
  lemma {:induction false} CornerCentres(i: int, res: int)
    requires 1 <= i
    ensures forall t :: 0 <= t && 3 * t < |CornerLoop(i, res)| ==> CornerLoop(i, res)[3 * t + 1] == 0
    decreases res - i
  {
    if i < res {
      CornerCentres(i + 1, res);
      var head := CornerTriangles(1 + 4 * i, 1 + 4 * i - 4);
      var rest := CornerLoop(i + 1, res);
      assert CornerLoop(i, res) == head + rest;
      forall t | 0 <= t && 3 * t < |CornerLoop(i, res)|
        ensures CornerLoop(i, res)[3 * t + 1] == 0
      {
        if t >= 4 {
          assert CornerLoop(i, res)[3 * t + 1] == rest[3 * (t - 4) + 1];
        }
      }
    }
  }

  /** Step j of the corner loop joins vertex 1+4j+c to the centre and to
      vertex 1+4(j-1)+c: each corner's new vertex to the same corner's
      previous one. */
  lemma {:induction false} CornerLoopJoinsSteps(i: int, res: int, j: int, c: int)
    requires 1 <= i <= j < res && 0 <= c < 4
    ensures 12 * (j - i) + 3 * c + 2 < |CornerLoop(i, res)|
    ensures CornerLoop(i, res)[12 * (j - i) + 3 * c] == 1 + 4 * j + c
    ensures CornerLoop(i, res)[12 * (j - i) + 3 * c + 1] == 0
    ensures CornerLoop(i, res)[12 * (j - i) + 3 * c + 2] == 1 + 4 * (j - 1) + c
    decreases j - i
  {
    var head := CornerTriangles(1 + 4 * i, 1 + 4 * i - 4);
    var rest := CornerLoop(i + 1, res);
    var all := CornerLoop(i, res);
    assert all == head + rest;
    assert |head| == 12;
    if j == i {
      assert all[3 * c] == head[3 * c];
      assert all[3 * c + 1] == head[3 * c + 1];
      assert all[3 * c + 2] == head[3 * c + 2];
    } else {
      CornerLoopJoinsSteps(i + 1, res, j, c);
      var k := 12 * (j - i - 1) + 3 * c;
      assert all[k + 12] == rest[k];
      assert all[k + 13] == rest[k + 1];
      assert all[k + 14] == rest[k + 2];
    }
  }

  /** The last four triangles close the ring: corner c's start 1+c is
      joined to the last vertex of the corner before it, (c+3) mod 4. */
  lemma ClosingJoinsCorners(res: int, c: int)
    requires 2 <= res && 0 <= c < 4
    ensures 12 * (res - 1) + 3 * c + 2 < |RoundedSquareIndices(res)|
    ensures RoundedSquareIndices(res)[12 * (res - 1) + 3 * c] == 1 + c
    ensures RoundedSquareIndices(res)[12 * (res - 1) + 3 * c + 1] == 0
    ensures RoundedSquareIndices(res)[12 * (res - 1) + 3 * c + 2] == 1 + 4 * (res - 1) + (c + 3) % 4
  {
    var loop := CornerLoop(1, res);
    var closing := ClosingTriangles(1 + (res - 1) * 4);
    assert RoundedSquareIndices(res) == loop + closing;
    assert |loop| == 12 * (res - 1);
  }

  // ---------------------------------------------------------------------
  // Exit icon

  /** GenerateExitIcon: the top, left and bottom quads of the frame, the
      arrow line quad and the arrow head triangle. */
  function GenerateExitIcon(): (m: Mesh)
    ensures m.vertexCount == 15 && |m.indices| == 27
    ensures ValidMesh(m)
  {
    Mesh(15, [0, 1, 2, 0, 2, 3,
              0, 4, 5, 0, 5, 1,
              5, 4, 6, 5, 6, 7,
              8, 9, 10, 8, 10, 11,
              12, 13, 14])
  }

  // ---------------------------------------------------------------------
  // Animated (two-state) meshes

  /** The state of an animated-mesh build: the next vertex index, the
      vertex counts of the two states, and the indices so far. */
  datatype Builder = Builder(next: int, count0: nat, count1: nat, indices: seq<int>)

  /** Both states have as many vertices as the next index, and every index
      refers to an emitted vertex. */
  ghost predicate Consistent(b: Builder) {
    b.count0 == b.count1 == b.next && IndicesIn(b.indices, 0, b.next) && |b.indices| % 3 == 0
  }

  const EmptyBuilder := Builder(0, 0, 0, [])

  /** generate_animated_circle: a centre and a rim of `res` vertices in
      both states, joined by a fan around the centre. */
  function AnimatedCircle(b: Builder, res: int): (r: Builder)
    requires 1 <= res
    ensures r.next == b.next + res + 1
    ensures r.count0 == b.count0 + res + 1 && r.count1 == b.count1 + res + 1
    ensures |r.indices| == |b.indices| + 3 * res
    ensures r.indices[..|b.indices|] == b.indices
    ensures IndicesIn(r.indices[|b.indices|..], b.next, b.next + res + 1)
    ensures Consistent(b) ==> Consistent(r)
  {
    var fan := Fan(b.next, res);
    var r := Builder(b.next + res + 1, b.count0 + res + 1, b.count1 + res + 1, b.indices + fan);
    assert r.indices[|b.indices|..] == fan;
    assert Consistent(b) ==> IndicesIn(r.indices, 0, r.next) by {
      if Consistent(b) {
        forall k | 0 <= k < |r.indices|
          ensures 0 <= r.indices[k] < r.next
        {
          if k >= |b.indices| {
            assert r.indices[k] == fan[k - |b.indices|];
          }
        }
      }
    }
    r
  }

  /** The triangles an animated circle adds are those of GenerateCircle at
      the same (already clamped) resolution, shifted past the vertices
      already emitted. */
  lemma AnimatedCircleMatchesCircle(b: Builder, res: int)
    requires 8 <= res
    ensures forall k :: 0 <= k < 3 * res ==>
      AnimatedCircle(b, res).indices[|b.indices| + k] == GenerateCircle(res).indices[k] + b.next
  {
    FanShift(b.next, res);
    var r := AnimatedCircle(b, res);
    assert r.indices == b.indices + Fan(b.next, res);
  }

  /** generate_animated_arrow: a tail quad of four vertices and a head
      triangle of three, in both states. */
  function AnimatedArrow(b: Builder): (r: Builder)
    ensures r.next == b.next + 7
    ensures r.count0 == b.count0 + 7 && r.count1 == b.count1 + 7
    ensures |r.indices| == |b.indices| + 9
    ensures r.indices[..|b.indices|] == b.indices
    ensures IndicesIn(r.indices[|b.indices|..], b.next, b.next + 7)
    ensures Consistent(b) ==> Consistent(r)
  {
    var n := b.next;
    var tail := [n + 0, n + 1, n + 2, n + 0, n + 2, n + 3];
    var head := [n + 4, n + 5, n + 6];
    var r := Builder(n + 7, b.count0 + 7, b.count1 + 7, b.indices + tail + head);
    assert r.indices[|b.indices|..] == tail + head;
    r
  }

  /** An animated mesh: the vertex counts of both states and the indices. */
  datatype AnimatedMesh = AnimatedMesh(count0: nat, count1: nat, indices: seq<int>) {
    function FloatCount0(): int { FloatsPerVertex * count0 }
    function FloatCount1(): int { FloatsPerVertex * count1 }
  }

  function Finish(b: Builder): (m: AnimatedMesh)
    ensures Consistent(b) ==> m.count0 == m.count1 && IndicesIn(m.indices, 0, m.count0)
  {
    AnimatedMesh(b.count0, b.count1, b.indices)
  }

  /** GenerateDownGravityToggle: one circle and one arrow. */
  function GenerateDownGravityToggle(resolution: int): (m: AnimatedMesh)
    ensures m.count0 == m.count1 && m.FloatCount0() == m.FloatCount1()
    ensures IndicesIn(m.indices, 0, m.count0) && |m.indices| % 3 == 0
    ensures 8 <= resolution ==> m.count0 == resolution + 1 + 7
  {
    var res := ClampResolution(resolution, 8);
    Finish(AnimatedArrow(AnimatedCircle(EmptyBuilder, res)))
  }

  /** GenerateRelativeGravityToggle: two circles and two arrows. */
  function GenerateRelativeGravityToggle(resolution: int): (m: AnimatedMesh)
    ensures m.count0 == m.count1 && m.FloatCount0() == m.FloatCount1()
    ensures IndicesIn(m.indices, 0, m.count0) && |m.indices| % 3 == 0
    ensures 8 <= resolution ==> m.count0 == 2 * (resolution + 1) + 2 * 7
  {
    var res := ClampResolution(resolution, 8);
    Finish(AnimatedArrow(AnimatedArrow(AnimatedCircle(AnimatedCircle(EmptyBuilder, res), res))))
  }
}

=== FILE: Collision.dfy ===
/** The object-collision mode of a pass-2 physics module (Physics::OnRun
    when object collision is on), reduced to its discrete bookkeeping:
    which neighbours become contacts, how the contact memory of the
    previous frame classifies them, and what is written back.  Distances,
    normalised directions and push-out positions need vector magnitudes
    and are inputs. */
module Collision {
  import opened Bodies
  import opened Physics
  import ObjectMapper
  import ObjectMapperRadius

  /** GameManager::MAX_COLLISION_COUNT: contacts recorded per body and frame. */
  const MaxCollisionCount: int := 24
  /** GameManager::MAX_OBJECTS_COUNT. */
  const MaxObjectsCount: int := 1000
  /** Terminates a contact memory; larger than every object index. */
  const Sentinel: int := MaxObjectsCount + 1

  // ---------------------------------------------------------------------
  // Collecting contacts

  /** The neighbours the visitor would accept for body `self`: every
      visited entry other than `self` that is touching it. */
  function Candidates(entries: seq<int>, self: int, touching: int -> bool): (c: seq<int>)
    ensures self !in c
    ensures forall n :: 0 <= n < |c| ==> c[n] in entries && touching(c[n])
    ensures forall j :: j in entries && j != self && touching(j) ==> j in c
    decreases |entries|
  {
    if |entries| == 0 then []
    else
      var rest := Candidates(entries[1..], self, touching);
      assert forall j :: j in entries[1..] ==> j in entries;
      if entries[0] != self && touching(entries[0]) then [entries[0]] + rest else rest
  }

  /** The collision visitor run over the visited entries: it skips `self`,
      records each touching entry, and asks the visit to stop as soon as
      MaxCollisionCount contacts are recorded. */
  function Collect(entries: seq<int>, self: int, touching: int -> bool, found: seq<int>): (r: seq<int>)
    requires |found| < MaxCollisionCount
    ensures |r| <= MaxCollisionCount
    ensures |found| <= |r| && r[..|found|] == found
    decreases |entries|
  {
    if |entries| == 0 then found
    else
      var j := entries[0];
      if j == self then Collect(entries[1..], self, touching, found)
      else if touching(j) then
        var f := found + [j];
        if |f| >= MaxCollisionCount then f else Collect(entries[1..], self, touching, f)
      else Collect(entries[1..], self, touching, found)
  }

  function MinInt(a: int, b: int): int {
    if a <= b then a else b
  }

  /** The visitor's record is the found list followed by the first
      candidates, as many as the cap still allows. */
  lemma {:induction false} CollectTakesFirst(entries: seq<int>, self: int, touching: int -> bool, found: seq<int>)
    requires |found| < MaxCollisionCount
    ensures Collect(entries, self, touching, found)
      == found + Candidates(entries, self, touching)[..MinInt(MaxCollisionCount - |found|, |Candidates(entries, self, touching)|)]
    decreases |entries|
  {
    if |entries| > 0 {
      var j := entries[0];
      if j == self || !touching(j) {
        CollectTakesFirst(entries[1..], self, touching, found);
        assert Collect(entries, self, touching, found) == Collect(entries[1..], self, touching, found);
      } else if |found| + 1 < MaxCollisionCount {
        CollectTakesFirst(entries[1..], self, touching, found + [j]);
        CollectTakeStep(entries, self, touching, found);
      } else {
        CollectTakeLast(entries, self, touching, found);
      }
    }
  }

  /** One step of CollectTakesFirst where the first entry is a candidate
      and the record has room after it. */
  lemma CollectTakeStep(entries: seq<int>, self: int, touching: int -> bool, found: seq<int>)
    requires |found| + 1 < MaxCollisionCount && |entries| > 0
    requires entries[0] != self && touching(entries[0])
    requires Collect(entries[1..], self, touching, found + [entries[0]])
      == found + [entries[0]] + Candidates(entries[1..], self, touching)[..MinInt(MaxCollisionCount - |found| - 1, |Candidates(entries[1..], self, touching)|)]
    ensures Collect(entries, self, touching, found)
      == found + Candidates(entries, self, touching)[..MinInt(MaxCollisionCount - |found|, |Candidates(entries, self, touching)|)]
  {
    var j := entries[0];
    var c := Candidates(entries, self, touching);
    var rest := Candidates(entries[1..], self, touching);
    assert c == [j] + rest;
    var f := found + [j];
    var m := MinInt(MaxCollisionCount - |f|, |rest|);
    assert MinInt(MaxCollisionCount - |found|, |c|) == m + 1;
    calc {
      Collect(entries, self, touching, found);
      Collect(entries[1..], self, touching, f);
      f + rest[..m];
      { assert c[..m + 1] == [j] + rest[..m]; }
      found + c[..m + 1];
    }
  }

  /** The step of CollectTakesFirst where the first entry is a candidate
      and fills the record. */
  lemma CollectTakeLast(entries: seq<int>, self: int, touching: int -> bool, found: seq<int>)
    requires |found| + 1 == MaxCollisionCount && |entries| > 0
    requires entries[0] != self && touching(entries[0])
    ensures Collect(entries, self, touching, found)
      == found + Candidates(entries, self, touching)[..MinInt(MaxCollisionCount - |found|, |Candidates(entries, self, touching)|)]
  {
    var j := entries[0];
    var c := Candidates(entries, self, touching);
    assert c == [j] + Candidates(entries[1..], self, touching);
    assert Collect(entries, self, touching, found) == found + [j];
    assert MinInt(MaxCollisionCount - |found|, |c|) == 1;
    assert c[..1] == [j];
  }

  /** The contacts of body `self` given the entries its radius visit
      produces, in visit order. */
  function Contacts(entries: seq<int>, self: int, touching: int -> bool): (r: seq<int>)
    ensures |r| <= MaxCollisionCount
    ensures self !in r
    ensures forall n :: 0 <= n < |r| ==> r[n] in entries && touching(r[n])
    ensures |r| < MaxCollisionCount ==> forall j :: j in entries && j != self && touching(j) ==> j in r
  {
    CollectTakesFirst(entries, self, touching, []);
    var c := Candidates(entries, self, touching);
    assert Collect(entries, self, touching, []) == c[..MinInt(MaxCollisionCount, |c|)];
    assert forall j :: j in c[..MinInt(MaxCollisionCount, |c|)] ==> j in c;
    Collect(entries, self, touching, [])
  }

  /** The radius of the collision visit: 2 * MAX_MASS * MASS_TO_RADIUS,
      twice the radius of the heaviest body. */
  const CollisionRadius: real := 2.0 * 2.0 * MassToRadius

  /** Fed with what the radius visit reads around body `self`'s position,
      the visitor records every touching body filed in the cell of a
      position within the collision radius, unless the cap is reached. */
  lemma NearbyTouchingIsContact(g: ObjectMapper.Grid, buf: seq<int>, position: Vec2, self: int,
                                touching: int -> bool, q: Vec2, j: int)
    requires g.Valid() && ObjectMapperRadius.Readable(g, buf)
    requires position.x - CollisionRadius <= q.x <= position.x + CollisionRadius
    requires position.y - CollisionRadius <= q.y <= position.y + CollisionRadius
    requires j in ObjectMapper.CellEntries(g, buf, ObjectMapper.CellOf(g, q)) && j != self && touching(j)
    ensures ObjectMapperRadius.ReadableCells(g, buf, ObjectMapperRadius.RadiusCells(g, position, CollisionRadius))
    ensures var c := Contacts(ObjectMapperRadius.Entries(g, buf, ObjectMapperRadius.RadiusCells(g, position, CollisionRadius)), self, touching);
      |c| < MaxCollisionCount ==> j in c
  {
    ObjectMapperRadius.NearbyEntryVisited(g, buf, position, CollisionRadius, q, j);
  }

  // ---------------------------------------------------------------------
  // Contact memory

  /** The index of the first sentinel of a contact memory. */
  function SentinelIndex(mem: seq<int>): (k: nat)
    requires Sentinel in mem
    ensures k < |mem| && mem[k] == Sentinel
    ensures Sentinel !in mem[..k]
  {
    if mem[0] == Sentinel then 0
    else
      var k := SentinelIndex(mem[1..]);
      assert mem[..k + 1] == [mem[0]] + mem[1..][..k];
      k + 1
  }

  /** The contacts a memory holds: everything before its sentinel.  The
      slots after the sentinel are never read. */
  function Remembered(mem: seq<int>): seq<int>
    requires Sentinel in mem
  {
    mem[..SentinelIndex(mem)]
  }

  /** The constructor's memory for every object slot: the sentinel alone. */
  function InitialMemory(): (m: seq<seq<int>>)
    ensures |m| == MaxObjectsCount
    ensures forall i :: 0 <= i < |m| ==> Sentinel in m[i] && Remembered(m[i]) == []
  {
    seq(MaxObjectsCount, _ => [Sentinel])
  }

  /** The merge walk's inner loop: from position p, skip the remembered
      entries smaller than j.  It stops at the first entry not below j,
      which is at the latest the sentinel, so it never reads past it. */
  function Advance(mem: seq<int>, p: nat, j: int): (q: nat)
    requires Sentinel in mem && p <= SentinelIndex(mem) && j < Sentinel
    ensures p <= q <= SentinelIndex(mem)
    ensures j <= mem[q]
    ensures forall k :: p <= k < q ==> mem[k] < j
    decreases SentinelIndex(mem) - p
  {
    if mem[p] < j then Advance(mem, p + 1, j) else p
  }

  /** The merge walk over this frame's contacts: true marks a contact found
      in the memory (a continuing contact), false a new one. */
  function Walk(mem: seq<int>, contacts: seq<int>, p: nat): (r: seq<bool>)
    requires Sentinel in mem && p <= SentinelIndex(mem)
    requires forall n :: 0 <= n < |contacts| ==> contacts[n] < Sentinel
    ensures |r| == |contacts|
    ensures forall n :: 0 <= n < |r| && r[n] ==> contacts[n] in Remembered(mem)
    decreases |contacts|
  {
    if |contacts| == 0 then []
    else
      var j := contacts[0];
      var q := Advance(mem, p, j);
      if mem[q] == j then
        assert mem[q] in Remembered(mem);
        [true] + Walk(mem, contacts[1..], q + 1)
      else
        [false] + Walk(mem, contacts[1..], q)
  }

  ghost predicate Increasing(s: seq<int>) {
    forall a, b :: 0 <= a < b < |s| ==> s[a] < s[b]
  }

  /** When both lists are in increasing order the walk is exact: a contact
      is marked continuing exactly when the memory holds it. */
  lemma {:induction false} WalkExact(mem: seq<int>, contacts: seq<int>, p: nat)
    requires Sentinel in mem && p <= SentinelIndex(mem)
    requires forall n :: 0 <= n < |contacts| ==> contacts[n] < Sentinel
    requires Increasing(Remembered(mem)) && Increasing(contacts)
    requires |contacts| > 0 ==> forall k :: 0 <= k < p ==> mem[k] < contacts[0]
    ensures forall n :: 0 <= n < |contacts| ==> (Walk(mem, contacts, p)[n] <==> contacts[n] in Remembered(mem))
    decreases |contacts|
  {
    if |contacts| > 0 {
      var j := contacts[0];
      var q := Advance(mem, p, j);
      var r := Walk(mem, contacts, p);
      if mem[q] == j {
        WalkHit(mem, contacts, p);
        WalkExact(mem, contacts[1..], q + 1);
        assert r == [true] + Walk(mem, contacts[1..], q + 1);
      } else {
        WalkMiss(mem, contacts, p);
        WalkExact(mem, contacts[1..], q);
        assert r == [false] + Walk(mem, contacts[1..], q);
      }
      MarksExactCons(r, contacts, Remembered(mem));
    }
  }

  /** A first contact found by the walk is remembered, and the walk goes on
      past it with everything before still below the next contact. */
  lemma WalkHit(mem: seq<int>, contacts: seq<int>, p: nat)
    requires Sentinel in mem && p <= SentinelIndex(mem)
    requires forall n :: 0 <= n < |contacts| ==> contacts[n] < Sentinel
    requires Increasing(contacts)
    requires |contacts| > 0 && forall k :: 0 <= k < p ==> mem[k] < contacts[0]
    requires mem[Advance(mem, p, contacts[0])] == contacts[0]
    ensures Advance(mem, p, contacts[0]) < SentinelIndex(mem)
    ensures contacts[0] in Remembered(mem)
    ensures |contacts| > 1 ==> forall k :: 0 <= k < Advance(mem, p, contacts[0]) + 1 ==> mem[k] < contacts[1]
  {
    var j, q := contacts[0], Advance(mem, p, contacts[0]);
    assert q < SentinelIndex(mem);
    assert Remembered(mem)[q] == j;
    if |contacts| > 1 {
      assert j < contacts[1];
    }
  }

  /** A first contact the walk does not find is not remembered, because the
      memory is increasing; the walk goes on from the same place. */
  lemma WalkMiss(mem: seq<int>, contacts: seq<int>, p: nat)
    requires Sentinel in mem && p <= SentinelIndex(mem)
    requires forall n :: 0 <= n < |contacts| ==> contacts[n] < Sentinel
    requires Increasing(Remembered(mem)) && Increasing(contacts)
    requires |contacts| > 0 && forall k :: 0 <= k < p ==> mem[k] < contacts[0]
    requires mem[Advance(mem, p, contacts[0])] != contacts[0]
    ensures contacts[0] !in Remembered(mem)
    ensures |contacts| > 1 ==> forall k :: 0 <= k < Advance(mem, p, contacts[0]) ==> mem[k] < contacts[1]
  {
    var j, q := contacts[0], Advance(mem, p, contacts[0]);
    var si := SentinelIndex(mem);
    assert forall k :: 0 <= k < q ==> mem[k] < j;
    forall k | 0 <= k < si
      ensures mem[k] != j
    {
      if q < k {
        assert Remembered(mem)[q] < Remembered(mem)[k];
      }
    }
    if |contacts| > 1 {
      assert j < contacts[1];
    }
  }

  /** Marks that are exact for the first contact and for the rest are exact
      for all of them. */
  lemma MarksExactCons(r: seq<bool>, contacts: seq<int>, remembered: seq<int>)
    requires |r| == |contacts| > 0
    requires r[0] <==> contacts[0] in remembered
    requires forall n :: 0 <= n < |contacts| - 1 ==> (r[1..][n] <==> contacts[1..][n] in remembered)
    ensures forall n :: 0 <= n < |contacts| ==> (r[n] <==> contacts[n] in remembered)
  {
    forall n | 0 < n < |contacts|
      ensures r[n] <==> contacts[n] in remembered
    {
      assert r[n] == r[1..][n - 1] && contacts[n] == contacts[1..][n - 1];
    }
  }

  /** Contacts are recorded in visit order, not sorted, and then the walk
      can miss a remembered contact: here 3 is remembered but reported new. */
  lemma WalkMissesUnsorted()
    ensures Sentinel in [5, 3, Sentinel]
    ensures 3 in Remembered([5, 3, Sentinel])
    ensures Walk([5, 3, Sentinel], [3, 5], 0) == [false, true]
  {
    var mem := [5, 3, Sentinel];
    assert SentinelIndex(mem[1..][1..]) == 0;
    assert SentinelIndex(mem) == 2;
    assert Advance(mem, 0, 3) == 0;
    assert Advance(mem, 0, 5) == 0;
    assert Walk(mem, [5], 0) == [true] + Walk(mem, [], 1);
  }

  // ---------------------------------------------------------------------
  // Shared velocity

  function TotalMass(bodies: seq<Body>): real
    decreases |bodies|
  {
    if |bodies| == 0 then 0.0 else bodies[0].mass + TotalMass(bodies[1..])
  }

  function Momentum(bodies: seq<Body>): Vec2
    decreases |bodies|
  {
    if |bodies| == 0 then Origin else bodies[0].velocity.Scale(bodies[0].mass).Plus(Momentum(bodies[1..]))
  }

  ghost predicate PositiveMasses(bodies: seq<Body>) {
    forall n :: 0 <= n < |bodies| ==> 0.0 < bodies[n].mass
  }

  lemma {:induction false} TotalMassPositive(bodies: seq<Body>)
    requires PositiveMasses(bodies) && |bodies| > 0
    ensures 0.0 < TotalMass(bodies)
    decreases |bodies|
  {
    if |bodies| > 1 {
      TotalMassPositive(bodies[1..]);
    }
  }

  /** Bodies moving with a common velocity u carry momentum u times their mass. */
  lemma {:induction false} CommonMomentum(bodies: seq<Body>, u: Vec2)
    requires forall n :: 0 <= n < |bodies| ==> bodies[n].velocity == u
    ensures Momentum(bodies) == u.Scale(TotalMass(bodies))
    decreases |bodies|
  {
    if |bodies| > 0 {
      CommonMomentum(bodies[1..], u);
      var m := bodies[0].mass;
      var rest := TotalMass(bodies[1..]);
      assert u.x * m + u.x * rest == u.x * (m + rest);
      assert u.y * m + u.y * rest == u.y * (m + rest);
    }
  }

  /** The mass-weighted mean velocity of a body and its new partners,
      accumulated with `+=` as evidently intended. */
  function SharedVelocity(self: Body, partners: seq<Body>): (v: Vec2)
    requires 0.0 < self.mass && PositiveMasses(partners)
    ensures v.Scale(TotalMass([self] + partners)) == Momentum([self] + partners)
  {
    var all := [self] + partners;
    TotalMassPositive(all);
    var m := TotalMass(all);
    var p := Momentum(all);
    assert p.x / m * m == p.x && p.y / m * m == p.y;
    Vec2(p.x / m, p.y / m)
  }

  /** When the body and its partners already move together, the shared
      velocity is that common velocity. */
  lemma SharedVelocityKeepsCommon(self: Body, partners: seq<Body>)
    requires 0.0 < self.mass && PositiveMasses(partners)
    requires forall n :: 0 <= n < |partners| ==> partners[n].velocity == self.velocity
    ensures SharedVelocity(self, partners) == self.velocity
  {
    var all := [self] + partners;
    CommonMomentum(all, self.velocity);
    TotalMassPositive(all);
    var m := TotalMass(all);
    var u := self.velocity;
    assert u.x * m / m == u.x && u.y * m / m == u.y;
  }

  /** The accumulation as written: each new partner's momentum replaces
      the running sum instead of adding to it, while the masses add up. */
  function SharedVelocityAsWritten(self: Body, partners: seq<Body>): (v: Vec2)
    requires 0.0 < self.mass && PositiveMasses(partners)
    ensures |partners| == 0 ==> v == self.velocity
    ensures |partners| > 0 ==>
      v.Scale(TotalMass([self] + partners)) == partners[|partners| - 1].velocity.Scale(partners[|partners| - 1].mass)
  {
    var all := [self] + partners;
    TotalMassPositive(all);
    var m := TotalMass(all);
    var p := LastMomentum(self.velocity.Scale(self.mass), partners);
    assert |partners| == 0 ==> m == self.mass by {
      if |partners| == 0 { assert all == [self]; }
    }
    assert self.velocity.x * self.mass / self.mass == self.velocity.x;
    assert self.velocity.y * self.mass / self.mass == self.velocity.y;
    assert p.x / m * m == p.x && p.y / m * m == p.y;
    Vec2(p.x / m, p.y / m)
  }

  /** The running "sum" after the `=` assignments: the last partner's momentum. */
  function LastMomentum(acc: Vec2, partners: seq<Body>): (p: Vec2)
    ensures |partners| == 0 ==> p == acc
    ensures |partners| > 0 ==> p == partners[|partners| - 1].velocity.Scale(partners[|partners| - 1].mass)
    decreases |partners|
  {
    if |partners| == 0 then acc
    else LastMomentum(partners[0].velocity.Scale(partners[0].mass), partners[1..])
  }

  /** Two unit masses at the same velocity (1, 0): the intended shared
      velocity is (1, 0), the code as written gives (0.5, 0). */
  lemma SharedVelocityAsWrittenHalves()
    ensures SharedVelocity(Body(1.0, Origin, Vec2(1.0, 0.0)), [Body(1.0, Origin, Vec2(1.0, 0.0))]) == Vec2(1.0, 0.0)
    ensures SharedVelocityAsWritten(Body(1.0, Origin, Vec2(1.0, 0.0)), [Body(1.0, Origin, Vec2(1.0, 0.0))]) == Vec2(0.5, 0.0)
  {
    var b := Body(1.0, Origin, Vec2(1.0, 0.0));
    SharedVelocityKeepsCommon(b, [b]);
    assert ([b] + [b])[1..] == [b];
    assert TotalMass([b]) == 1.0;
    assert TotalMass([b] + [b]) == 2.0;
    assert LastMomentum(b.velocity.Scale(b.mass), [b]) == Vec2(1.0, 0.0);
  }

  // ---------------------------------------------------------------------
  // One body in collision mode

  /** The bodies of the contacts the walk marked new. */
  function NewPartners(read: seq<Body>, contacts: seq<int>, continuing: seq<bool>): (ps: seq<Body>)
    requires |continuing| == |contacts|
    requires forall n :: 0 <= n < |contacts| ==> 0 <= contacts[n] < |read|
    ensures |ps| <= |contacts|
    ensures forall k :: 0 <= k < |ps| ==> ps[k] in read
    decreases |contacts|
  {
    if |contacts| == 0 then []
    else
      var rest := NewPartners(read, contacts[1..], continuing[1..]);
      if continuing[0] then rest else [read[contacts[0]]] + rest
  }

  /** Sum of the rebound terms of the new contacts, with their normalised
      directions (computed outside the model), and how many there were. */
  datatype Rebound = Rebound(sum: Vec2, count: nat)

  function Rebounds(self: Body, read: seq<Body>, contacts: seq<int>, continuing: seq<bool>, directions: seq<Vec2>): (r: Rebound)
    requires |continuing| == |contacts| == |directions|
    requires forall n :: 0 <= n < |contacts| ==> 0 <= contacts[n] < |read|
    ensures r.count == |NewPartners(read, contacts, continuing)|
    decreases |contacts|
  {
    if |contacts| == 0 then Rebound(Origin, 0)
    else
      var rest := Rebounds(self, read, contacts[1..], continuing[1..], directions[1..]);
      if continuing[0] then rest
      else
        var d := directions[0];
        var term := d.Scale((read[contacts[0]].velocity.Dot(d) - self.velocity.Dot(d)) * 0.5);
        Rebound(term.Plus(rest.sum), rest.count + 1)
  }

  /** The memory written after a frame with contacts: the contacts in
      visit order followed by the sentinel. */
  function RecordContacts(contacts: seq<int>): (m: seq<int>)
    requires forall n :: 0 <= n < |contacts| ==> contacts[n] < Sentinel
    ensures Sentinel in m && Remembered(m) == contacts
  {
    var memory := contacts + [Sentinel];
    SentinelAfter(contacts);
    assert memory[..|contacts|] == contacts;
    memory
  }

  /** Which accumulation of the shared velocity an update uses: the `=`
      of the code as written, or the `+=` evidently intended. */
  datatype Accumulation = AsWritten | Intended

  function Shared(acc: Accumulation, self: Body, partners: seq<Body>): Vec2
    requires 0.0 < self.mass && PositiveMasses(partners)
  {
    match acc
    case AsWritten => SharedVelocityAsWritten(self, partners)
    case Intended => SharedVelocity(self, partners)
  }

  /** The velocity written for a body with contacts.  With new contacts it
      is the shared velocity plus the averaged rebound scaled by
      0.5 * COLLISION_PRESERVE; with only continuing contacts it is the
      displacement from the previous position divided by the pass-1 step,
      so a resting body that was not pushed keeps its velocity. */
  function ContactVelocity(acc: Accumulation, read: seq<Body>, i: int, contacts: seq<int>, continuing: seq<bool>,
                           directions: seq<Vec2>, pushed: Vec2, prevStep: real): (v: Vec2)
    requires 0 <= i < |read| && PositiveMasses(read)
    requires forall n :: 0 <= n < |contacts| ==> 0 <= contacts[n] < |read|
    requires |directions| == |contacts| == |continuing|
    requires NewPartners(read, contacts, continuing) == [] ==> prevStep != 0.0
    ensures (forall n :: 0 <= n < |contacts| ==> continuing[n]) && pushed == read[i].position ==> v == read[i].velocity
  {
    var self := read[i];
    var partners := NewPartners(read, contacts, continuing);
    assert PositiveMasses(partners);
    var rb := Rebounds(self, read, contacts, continuing, directions);
    assert (forall n :: 0 <= n < |contacts| ==> continuing[n]) ==> rb.count == 0 by {
      if forall n :: 0 <= n < |contacts| ==> continuing[n] {
        AllContinuingNoPartners(read, contacts, continuing);
      }
    }
    if rb.count != 0 then
      Shared(acc, self, partners).Plus(rb.sum.Scale(1.0 / (rb.count as real)).Scale(0.5 * CollisionPreserve))
    else
      RestingVelocity(self, pushed, prevStep)
  }

  /** The velocity of a body whose contacts all continue: the distance
      from the previous position (position minus velocity times the
      pass-1 step) to the pushed-out position, over that step. */
  function RestingVelocity(self: Body, pushed: Vec2, prevStep: real): (v: Vec2)
    requires prevStep != 0.0
    ensures pushed == self.position ==> v == self.velocity
    ensures v.Scale(prevStep) == pushed.Minus(self.position.Minus(self.velocity.Scale(prevStep)))
  {
    var prev := self.position.Minus(self.velocity.Scale(prevStep));
    var moved := pushed.Minus(prev);
    assert pushed == self.position ==> moved == self.velocity.Scale(prevStep);
    assert self.velocity.x * prevStep / prevStep == self.velocity.x;
    assert self.velocity.y * prevStep / prevStep == self.velocity.y;
    assert moved.x / prevStep * prevStep == moved.x && moved.y / prevStep * prevStep == moved.y;
    Vec2(moved.x / prevStep, moved.y / prevStep)
  }

  /** New partners moving with the body: every contact the walk marks new
      belongs to a body with the same velocity as body i. */
  ghost predicate NewPartnersCoMove(read: seq<Body>, i: int, contacts: seq<int>, continuing: seq<bool>)
    requires 0 <= i < |read| && |continuing| == |contacts|
    requires forall n :: 0 <= n < |contacts| ==> 0 <= contacts[n] < |read|
  {
    forall n :: 0 <= n < |contacts| && !continuing[n] ==> read[contacts[n]].velocity == read[i].velocity
  }

  /** Partners moving with the body have no relative velocity along any
      direction, so the rebounds add up to nothing. */
  lemma {:induction false} CoMovingRebounds(read: seq<Body>, i: int, contacts: seq<int>, continuing: seq<bool>, directions: seq<Vec2>)
    requires 0 <= i < |read| && |continuing| == |contacts| == |directions|
    requires forall n :: 0 <= n < |contacts| ==> 0 <= contacts[n] < |read|
    requires NewPartnersCoMove(read, i, contacts, continuing)
    ensures Rebounds(read[i], read, contacts, continuing, directions).sum == Origin
    ensures forall k :: 0 <= k < |NewPartners(read, contacts, continuing)| ==>
      NewPartners(read, contacts, continuing)[k].velocity == read[i].velocity
    decreases |contacts|
  {
    if |contacts| > 0 {
      CoMovingRebounds(read, i, contacts[1..], continuing[1..], directions[1..]);
    }
  }

  /** With the intended accumulation, a body that is not pushed and whose
      new partners all move with it keeps its velocity: the shared velocity
      is the common one and the rebounds cancel. */
  lemma CoMovingKeepsVelocity(read: seq<Body>, i: int, contacts: seq<int>, continuing: seq<bool>,
                              directions: seq<Vec2>, prevStep: real)
    requires 0 <= i < |read| && PositiveMasses(read)
    requires forall n :: 0 <= n < |contacts| ==> 0 <= contacts[n] < |read|
    requires |directions| == |contacts| == |continuing|
    requires NewPartners(read, contacts, continuing) == [] ==> prevStep != 0.0
    requires NewPartnersCoMove(read, i, contacts, continuing)
    ensures ContactVelocity(Intended, read, i, contacts, continuing, directions, read[i].position, prevStep) == read[i].velocity
  {
    var partners := NewPartners(read, contacts, continuing);
    assert PositiveMasses(partners);
    CoMovingRebounds(read, i, contacts, continuing, directions);
    var rb := Rebounds(read[i], read, contacts, continuing, directions);
    if rb.count != 0 {
      SharedVelocityKeepsCommon(read[i], partners);
    }
  }

  /** As written, the same situation slows the body down: two unit bodies
      moving together at (1, 0), in a new contact, give body 0 the velocity
      (0.5, 0) where the intended accumulation keeps (1, 0). */
  lemma CoMovingAsWrittenHalves()
    ensures var b := Body(1.0, Origin, Vec2(1.0, 0.0));
      && ContactVelocity(AsWritten, [b, b], 0, [1], [false], [Vec2(1.0, 0.0)], Origin, 1.0) == Vec2(0.5, 0.0)
      && ContactVelocity(Intended, [b, b], 0, [1], [false], [Vec2(1.0, 0.0)], Origin, 1.0) == Vec2(1.0, 0.0)
  {
    var b := Body(1.0, Origin, Vec2(1.0, 0.0));
    var read := [b, b];
    assert NewPartners(read, [1], [false]) == [b] by {
      assert NewPartners(read, [1][1..], [false][1..]) == [];
    }
    CoMovingRebounds(read, 0, [1], [false], [Vec2(1.0, 0.0)]);
    SharedVelocityAsWrittenHalves();
    CoMovingKeepsVelocity(read, 0, [1], [false], [Vec2(1.0, 0.0)], 1.0);
  }

  /** What a collision-mode update leaves behind for one body. */
  datatype Outcome = Outcome(body: Body, memory: seq<int>)

  /** The collision-mode update of body i.  `contacts` is what the
      visitor recorded, `directions` their normalised directions,
      `pushed` the position after the push-out moves and `prevStep` the
      pass-1 step; all of these need magnitudes and are inputs.  Without
      contacts the body is copied and its memory left as it was. */
  function CollideBody(acc: Accumulation, read: seq<Body>, i: int, write: Body, contacts: seq<int>, mem: seq<int>,
                       directions: seq<Vec2>, pushed: Vec2, prevStep: real): (r: Outcome)
    requires 0 <= i < |read| <= MaxObjectsCount && PositiveMasses(read)
    requires forall n :: 0 <= n < |contacts| ==> 0 <= contacts[n] < |read|
    requires |directions| == |contacts|
    requires Sentinel in mem
    requires forall n :: 0 <= n < |contacts| ==> contacts[n] < Sentinel
    requires |contacts| > 0 && NewPartners(read, contacts, Walk(mem, contacts, 0)) == [] ==> prevStep != 0.0
    ensures |contacts| == 0 ==> r == Outcome(Body(write.mass, read[i].position, read[i].velocity), mem)
    ensures |contacts| > 0 ==> Sentinel in r.memory && Remembered(r.memory) == contacts
    ensures r.body.mass == write.mass
    ensures |contacts| > 0 ==> r.body.position == pushed
    ensures |contacts| > 0 && pushed == read[i].position && (forall n :: 0 <= n < |contacts| ==> Walk(mem, contacts, 0)[n])
      ==> r.body.velocity == read[i].velocity
    ensures |contacts| > 0 && acc == Intended && pushed == read[i].position
      && NewPartnersCoMove(read, i, contacts, Walk(mem, contacts, 0))
      ==> r.body.velocity == read[i].velocity
  {
    if |contacts| == 0 then Outcome(Body(write.mass, read[i].position, read[i].velocity), mem)
    else
      var continuing := Walk(mem, contacts, 0);
      var v := ContactVelocity(acc, read, i, contacts, continuing, directions, pushed, prevStep);
      assert acc == Intended && pushed == read[i].position && NewPartnersCoMove(read, i, contacts, continuing)
        ==> v == read[i].velocity by {
        if acc == Intended && pushed == read[i].position && NewPartnersCoMove(read, i, contacts, continuing) {
          CoMovingKeepsVelocity(read, i, contacts, continuing, directions, prevStep);
        }
      }
      Outcome(Body(write.mass, pushed, v), RecordContacts(contacts))
  }

  /** A list without the sentinel, followed by it, has its sentinel at the end. */
  lemma {:induction false} SentinelAfter(contacts: seq<int>)
    requires Sentinel !in contacts
    ensures SentinelIndex(contacts + [Sentinel]) == |contacts|
    decreases |contacts|
  {
    if |contacts| > 0 {
      assert (contacts + [Sentinel])[1..] == contacts[1..] + [Sentinel];
      SentinelAfter(contacts[1..]);
    }
  }

  lemma {:induction false} AllContinuingNoPartners(read: seq<Body>, contacts: seq<int>, continuing: seq<bool>)
    requires |continuing| == |contacts|
    requires forall n :: 0 <= n < |contacts| ==> 0 <= contacts[n] < |read|
    requires forall n :: 0 <= n < |contacts| ==> continuing[n]
    ensures NewPartners(read, contacts, continuing) == []
    decreases |contacts|
  {
    if |contacts| > 0 {
      AllContinuingNoPartners(read, contacts[1..], continuing[1..]);
    }
  }
}

=== FILE: Easing.dfy ===
/** The renderer's easing curves, each clamped to 0 before t = 0 and to 1
    after t = 1. */
module Easing {
  import opened Arith

  function Smoothstep(t: real): (r: real)
    ensures 0.0 <= r <= 1.0
    ensures t < 0.0 ==> r == 0.0
    ensures 1.0 < t ==> r == 1.0
  {
    if t < 0.0 then 0.0
    else if t > 1.0 then 1.0
    else
      CubicBounds(t);
      t * t * (3.0 - 2.0 * t)
  }

  /** On [0, 1] the cubic t^2 (3 - 2t) stays in [0, 1]. */
  lemma CubicBounds(t: real)
    requires 0.0 <= t <= 1.0
    ensures 0.0 <= t * t * (3.0 - 2.0 * t) <= 1.0
  {
    RealMulMono(0.0, t, t);
    RealMulMono(0.0, t * t, 3.0 - 2.0 * t);
    var s := 1.0 - t;
    RealMulMono(0.0, s, s);
    RealMulMono(0.0, s * s, 1.0 + 2.0 * t);
    assert 1.0 - t * t * (3.0 - 2.0 * t) == s * s * (1.0 + 2.0 * t);
  }

  /** The curve ends where it is clamped: 0 at t = 0, 1 at t = 1, and
      1/2 in the middle. */
  lemma SmoothstepEnds()
    ensures Smoothstep(0.0) == 0.0 && Smoothstep(1.0) == 1.0 && Smoothstep(0.5) == 0.5
  {
  }

  /** Smoothstep is symmetric about its midpoint. */
  lemma SmoothstepSymmetric(t: real)
    ensures Smoothstep(1.0 - t) == 1.0 - Smoothstep(t)
  {
    if 0.0 <= t <= 1.0 {
      assert (1.0 - t) * (1.0 - t) * (3.0 - 2.0 * (1.0 - t)) == 1.0 - t * t * (3.0 - 2.0 * t);
    }
  }

  /** Smoothstep never decreases. */
  lemma SmoothstepMonotone(a: real, b: real)
    requires a <= b
    ensures Smoothstep(a) <= Smoothstep(b)
  {
    if 0.0 <= a && b <= 1.0 {
      CubicMonotone(a, b);
    }
  }

  /** On [0, 1] the cubic t^2 (3 - 2t) never decreases. */
  lemma CubicMonotone(a: real, b: real)
    requires 0.0 <= a <= b <= 1.0
    ensures a * a * (3.0 - 2.0 * a) <= b * b * (3.0 - 2.0 * b)
  {
    var slope := 3.0 * (a + b) - 2.0 * (a * a + a * b + b * b);
    SlopeNonnegative(a, b);
    RealMulMono(0.0, slope, b - a);
    CubicDifference(a, b);
  }

  /** The difference quotient of t^2 (3 - 2t) over [a, b]. */
  lemma CubicDifference(a: real, b: real)
    ensures b * b * (3.0 - 2.0 * b) - a * a * (3.0 - 2.0 * a)
         == (3.0 * (a + b) - 2.0 * (a * a + a * b + b * b)) * (b - a)
  {
  }

  /** On [0, 1] that quotient is not negative. */
  lemma SlopeNonnegative(a: real, b: real)
    requires 0.0 <= a <= b <= 1.0
    ensures 0.0 <= 3.0 * (a + b) - 2.0 * (a * a + a * b + b * b)
  {
    RealMulMono(a, 1.0, a);
    RealMulMono(b, 1.0, b);
    var d := a - b;
    RealMulMono(0.0, d * d, 1.0);
    assert d * d == a * a - 2.0 * (a * b) + b * b;
    assert a * a <= a;
    assert b * b <= b;
    assert 2.0 * (a * b) <= a * a + b * b;
    SlopeBound(a, b, a * a, b * b, a * b);
  }

  lemma SlopeBound(a: real, b: real, sa: real, sb: real, ab: real)
    requires sa <= a && sb <= b && 2.0 * ab <= sa + sb
    ensures 0.0 <= 3.0 * (a + b) - 2.0 * (sa + ab + sb)
  {
  }

  function Smoothstart(t: real): (r: real)
    ensures 0.0 <= r <= 1.0
    ensures t < 0.0 ==> r == 0.0
    ensures 1.0 < t ==> r == 1.0
  {
    if t < 0.0 then 0.0
    else if t > 1.0 then 1.0
    else
      assert t * t * t <= 1.0 by {
        assert t * t <= t * 1.0;
        assert t * t * t <= t * t * 1.0;
      }
      t * t * t
  }

  /** Smoothstart never decreases. */
  lemma SmoothstartMonotone(a: real, b: real)
    requires a <= b
    ensures Smoothstart(a) <= Smoothstart(b)
  {
    if 0.0 <= a && b <= 1.0 {
      assert b * b * b - a * a * a == (b - a) * (a * a + a * b + b * b);
      assert 0.0 <= a * b;
      assert 0.0 <= (b - a) * (a * a + a * b + b * b);
    }
  }

  /** Smoothstop is smoothstart mirrored: it starts fast and ends slowly. */
  function Smoothstop(t: real): (r: real)
    ensures 0.0 <= r <= 1.0
    ensures t < 0.0 ==> r == 0.0
    ensures 1.0 < t ==> r == 1.0
  {
    1.0 - Smoothstart(1.0 - t)
  }

  lemma SmoothstopEnds()
    ensures Smoothstop(0.0) == 0.0 && Smoothstop(1.0) == 1.0
  {
  }

  /** Smoothstop never decreases, because smoothstart does not. */
  lemma SmoothstopMonotone(a: real, b: real)
    requires a <= b
    ensures Smoothstop(a) <= Smoothstop(b)
  {
    SmoothstartMonotone(1.0 - b, 1.0 - a);
  }
}

=== FILE: EnergySaver.dfy ===
/** The energy saver: a module that idles for a fraction of the time its
    enclosing group is predicted to still need.  The scheduler's groups
    and their predictions are inputs; Idle itself is left out. */
module EnergySaver {
  import opened Bodies
  import opened Arith

  /** A scheduler group: its own parent, if any, and its predicted lower
      bound on the remaining execution time. */
  datatype Group = Group(parent: Option<Group>, predicted: real)

  datatype Saver = Saver(factor: real)

  /** The factor clamp shared by the constructor and the setter. */
  function ClampFactor(value: real): (f: real)
    ensures 0.0 <= f <= 1.0
    ensures 0.0 <= value <= 1.0 ==> f == value
    ensures value < 0.0 ==> f == 0.0
    ensures 1.0 < value ==> f == 1.0
  {
    var f := if value < 0.0 then 0.0 else value;
    if f > 1.0 then 1.0 else f
  }

  /** The default factor is 0: no idling. */
  const DefaultFactor: real := 0.0

  function Create(factor: real): (s: Saver)
    ensures 0.0 <= s.factor <= 1.0
    ensures 0.0 <= factor <= 1.0 ==> s.factor == factor
  {
    Saver(ClampFactor(factor))
  }

  function SetFactor(s: Saver, value: real): (r: Saver)
    ensures 0.0 <= r.factor <= 1.0
    ensures 0.0 <= value <= 1.0 ==> r.factor == value
  {
    Saver(ClampFactor(value))
  }

  /** Setting the factor twice, or setting it to what it already is, has
      the effect of setting it once. */
  lemma SetFactorIdempotent(s: Saver, value: real)
    ensures SetFactor(SetFactor(s, value), value) == SetFactor(s, value)
    ensures SetFactor(s, ClampFactor(value)) == SetFactor(s, value)
  {
  }

  /** OnRun: the idle duration requested, or None when it returns early. */
  function OnRun(s: Saver, parent: Option<Group>): (idle: Option<real>)
    ensures idle.Some? <==> s.factor != 0.0 && parent.Some? && parent.value.parent.Some?
    ensures idle.Some? ==> idle.value == s.factor * parent.value.parent.value.predicted
  {
    if s.factor == 0.0 then None
    else match parent
      case None => None
      case Some(g) =>
        match g.parent
        case None => None
        case Some(gg) => Some(s.factor * gg.predicted)
  }

  /** A saver built by Create or SetFactor never idles longer than the
      grandparent's predicted remaining time, nor a negative time. */
  lemma IdleWithinPrediction(s: Saver, parent: Option<Group>)
    requires 0.0 <= s.factor <= 1.0
    requires OnRun(s, parent).Some?
    requires 0.0 <= parent.value.parent.value.predicted
    ensures 0.0 <= OnRun(s, parent).value <= parent.value.parent.value.predicted
  {
    var p := parent.value.parent.value.predicted;
    RealMulMono(s.factor, 1.0, p);
    assert OnRun(s, parent).value == s.factor * p;
    assert 0.0 <= s.factor * p <= p;
  }
}

=== FILE: GameManager.dfy ===
/** The frame-state machine of GameManager: the constructor's initial
    state, one OnRun frame (buffer-role rotation, feature toggles,
    stepped object-count changes, buffer resizing, the time multiplier,
    the borders and the mouse), and PhysicsPassNotify.  Window input is a
    parameter of the frame, and the random generator is an oracle of
    unit-interval draws. */
module GameManager {
  import opened Bodies
  import opened Physics
  import opened Collision
  import Arith

  /** GameManager::DEFAULT_OBJECTS_COUNT. */
  const DefaultObjectsCount: int := 10
  /** GameManager::MIN_OBJECTS_COUNT (MAX_OBJECTS_COUNT is Collision.MaxObjectsCount). */
  const MinObjectsCount: int := 0
  /** GameManager::DEFAULT_MASS, MIN_MASS and MAX_MASS. */
  const DefaultMass: real := 1.0
  const MinMass: real := 0.5
  const MaxMass: real := 2.0
  /** GameManager::DEFAULT_TIME_MULTIPLIER, MIN_TIME_MULTIPLIER and MAX_TIME_MULTIPLIER. */
  const DefaultTimeMultiplier: real := 1.0
  const MinTimeMultiplier: real := 0.125
  const MaxTimeMultiplier: real := 8.0

  // ---------------------------------------------------------------------
  // Buffer roles

  /** The buffer read by pass-1 workers, written by pass-2 workers and
      shown by the renderer.  Pass 1 always writes buffer 1 and pass 2
      always reads it. */
  datatype Roles = Roles(render: int, pass1Read: int, pass2Write: int)

  const Pass1WriteBuffer: int := 1
  const Pass2ReadBuffer: int := 1

  /** Render and pass-2 write are the two outer buffers 0 and 2, one each,
      and pass 1 reads one of them. */
  ghost predicate RolesValid(r: Roles) {
    {r.render, r.pass2Write} == {0, 2} && (r.pass1Read == r.render || r.pass1Read == r.pass2Write)
  }

  const InitialRoles := Roles(0, 0, 2)

  lemma InitialRolesValid()
    ensures RolesValid(InitialRoles)
    ensures InitialRoles.render != Pass1WriteBuffer && InitialRoles.pass2Write != Pass2ReadBuffer
  {
  }

  /** Start of a frame: swap render and pass-2 write, then let pass 1
      read the new render buffer. */
  function SwapRoles(r: Roles): (n: Roles)
    ensures RolesValid(r) ==> RolesValid(n) && n.render != Pass1WriteBuffer && n.pass2Write != Pass1WriteBuffer
    ensures n.render == r.pass2Write && n.pass2Write == r.render
    ensures n.pass1Read == n.render
  {
    Roles(r.pass2Write, r.pass2Write, r.render)
  }

  /** PhysicsPassNotify: pass 1 of the next round reads what pass 2 wrote. */
  function NotifyPass(r: Roles): (n: Roles)
    ensures RolesValid(r) ==> RolesValid(n)
    ensures n.pass1Read == n.pass2Write
    ensures n.render == r.render && n.pass2Write == r.pass2Write
  {
    r.(pass1Read := r.pass2Write)
  }

  /** Swapping twice gives back the render and pass-2 write buffers. */
  lemma SwapTwiceRestores(r: Roles)
    requires RolesValid(r)
    ensures SwapRoles(SwapRoles(r)).render == r.render
    ensures SwapRoles(SwapRoles(r)).pass2Write == r.pass2Write
    ensures SwapRoles(SwapRoles(r)).pass1Read == r.render
  {
  }

  // ---------------------------------------------------------------------
  // Object count

  /** The up-key loop: for i from 0 while i < count / 11 + 1 (the bound
      is re-read after every step), raise count by 1 if that stays within
      MaxObjectsCount. */
  function CountUp(count: int, i: nat): (r: int)
    requires MinObjectsCount <= count <= MaxObjectsCount
    ensures count <= r <= MaxObjectsCount
    ensures i < count / 11 + 1 && count < MaxObjectsCount ==> count < r
    decreases MaxObjectsCount / 11 + 1 - i
  {
    if i < count / 11 + 1 then
      CountUp(if count + 1 <= MaxObjectsCount then count + 1 else count, i + 1)
    else count
  }

  /** The down-key loop: the same loop, lowering count by 1 while it stays
      at or above MinObjectsCount. */
  function CountDown(count: int, i: nat): (r: int)
    requires MinObjectsCount <= count <= MaxObjectsCount
    ensures MinObjectsCount <= r <= count
    ensures i < count / 11 + 1 && MinObjectsCount < count ==> r < count
    decreases count / 11 + 1 - i
  {
    if i < count / 11 + 1 then
      var next := if MinObjectsCount <= count - 1 then count - 1 else count;
      assert next / 11 <= count / 11;
      CountDown(next, i + 1)
    else count
  }

  /** Both keys of one frame: up first, then down. */
  function StepCount(count: int, up: bool, down: bool): (r: int)
    requires MinObjectsCount <= count <= MaxObjectsCount
    ensures MinObjectsCount <= r <= MaxObjectsCount
    ensures up && !down ==> count <= r && (count < MaxObjectsCount ==> count < r)
    ensures down && !up ==> r <= count && (MinObjectsCount < count ==> r < count)
    ensures !up && !down ==> r == count
  {
    var c := if up then CountUp(count, 0) else count;
    if down then CountDown(c, 0) else c
  }

  // ---------------------------------------------------------------------
  // Random bodies

  /** Three unit-interval draws of the random oracle: mass, x and y. */
  datatype Draw = Draw(mass: real, x: real, y: real)

  predicate InUnit(u: real) {
    0.0 <= u < 1.0
  }

  ghost predicate UnitDraw(d: Draw) {
    InUnit(d.mass) && InUnit(d.x) && InUnit(d.y)
  }

  /** Random::GetDouble(lo, hi) for a given unit draw. */
  function GetDouble(lo: real, hi: real, u: real): (r: real)
    ensures InUnit(u) && lo <= hi ==> lo <= r <= hi
    ensures InUnit(u) && lo < hi ==> r < hi
  {
    var d := hi - lo;
    Arith.UnitScale(u, d);
    assert InUnit(u) && lo < hi ==> u * d < d;
    lo + u * d
  }

  /** A body placed at random inside the borders, at rest.  Its mass is
      DefaultMass unless variable mass is on. */
  function NewBody(variableMass: bool, borderX: real, borderY: real, d: Draw): (b: Body)
    ensures !variableMass ==> b.mass == DefaultMass
    ensures variableMass && UnitDraw(d) ==> MinMass <= b.mass <= MaxMass
    ensures b.velocity == Origin
    ensures UnitDraw(d) && b.mass * MassToRadius <= borderX ==>
      -LocalBorder(borderX, b.mass) <= b.position.x <= LocalBorder(borderX, b.mass)
    ensures UnitDraw(d) && b.mass * MassToRadius <= borderY ==>
      -LocalBorder(borderY, b.mass) <= b.position.y <= LocalBorder(borderY, b.mass)
  {
    var mass := if variableMass then GetDouble(MinMass, MaxMass, d.mass) else DefaultMass;
    var r := mass * MassToRadius;
    Body(mass, Vec2(GetDouble(-borderX + r, borderX - r, d.x), GetDouble(-borderY + r, borderY - r, d.y)), Origin)
  }

  // ---------------------------------------------------------------------
  // Buffers

  /** std::vector::resize: truncate, or pad with default bodies. */
  function Resized(b: seq<Body>, count: nat): (r: seq<Body>)
    ensures |r| == count
    ensures forall k :: 0 <= k < count && k < |b| ==> r[k] == b[k]
  {
    if count <= |b| then b[..count] else b + seq(count - |b|, _ => DefaultBody)
  }

  /** The three buffers after the resize block of a frame, given the
      render buffer index: shrink all three when the render buffer is
      longer than count, then append the same new bodies to all three
      when it is shorter. */
  function ResizeBuffers(bufs: seq<seq<Body>>, render: int, count: nat, variableMass: bool,
                         borderX: real, borderY: real, draw: int -> Draw): (r: seq<seq<Body>>)
    requires |bufs| == 3 && 0 <= render < 3
    ensures |r| == 3
  {
    var shrunk := if count < |bufs[render]| then seq(3, k requires 0 <= k < 3 => Resized(bufs[k], count)) else bufs;
    if |shrunk[render]| < count then
      var added := seq(count - |shrunk[render]|, n => NewBody(variableMass, borderX, borderY, draw(n)));
      seq(3, k requires 0 <= k < 3 => shrunk[k] + added)
    else shrunk
  }

  ghost predicate SameLengths(bufs: seq<seq<Body>>, count: int) {
    |bufs| == 3 && forall k :: 0 <= k < 3 ==> |bufs[k]| == count
  }

  /** From three buffers of one length, the resize leaves three buffers of
      length count, keeps every surviving body, and appends the same new
      bodies to each. */
  lemma ResizeKeepsPrefix(bufs: seq<seq<Body>>, render: int, count: nat, variableMass: bool,
                          borderX: real, borderY: real, draw: int -> Draw, len: nat)
    requires SameLengths(bufs, len) && 0 <= render < 3
    ensures SameLengths(ResizeBuffers(bufs, render, count, variableMass, borderX, borderY, draw), count)
    ensures forall k, n :: 0 <= k < 3 && 0 <= n < count && n < len ==>
      ResizeBuffers(bufs, render, count, variableMass, borderX, borderY, draw)[k][n] == bufs[k][n]
    ensures forall k, n :: 0 <= k < 3 && len <= n < count ==>
      ResizeBuffers(bufs, render, count, variableMass, borderX, borderY, draw)[k][n]
        == NewBody(variableMass, borderX, borderY, draw(n - len))
  {
  }

  // ---------------------------------------------------------------------
  // Time multiplier

  /** Left key: halve, unless that would go below the minimum. */
  function Slower(m: real): (r: real)
    ensures MinTimeMultiplier <= m * 0.5 ==> r == m * 0.5
    ensures m * 0.5 < MinTimeMultiplier ==> r == m
    ensures MinTimeMultiplier <= m <= MaxTimeMultiplier ==> MinTimeMultiplier <= r <= MaxTimeMultiplier
  {
    var t := m * 0.5;
    if MinTimeMultiplier <= t then t else m
  }

  /** Right key: double, unless that would exceed the maximum. */
  function Faster(m: real): (r: real)
    ensures m * 2.0 <= MaxTimeMultiplier ==> r == m * 2.0
    ensures MaxTimeMultiplier < m * 2.0 ==> r == m
    ensures MinTimeMultiplier <= m <= MaxTimeMultiplier ==> MinTimeMultiplier <= r <= MaxTimeMultiplier
  {
    var t := m * 2.0;
    if t <= MaxTimeMultiplier then t else m
  }

  /** Doubling undoes a halving that was allowed, and the other way round. */
  lemma SlowerFasterInverse(m: real)
    requires MinTimeMultiplier <= m <= MaxTimeMultiplier
    ensures MinTimeMultiplier <= m * 0.5 ==> Faster(Slower(m)) == m
    ensures m * 2.0 <= MaxTimeMultiplier ==> Slower(Faster(m)) == m
  {
  }

  // ---------------------------------------------------------------------
  // Mouse

  /** Pixel x to world x: 0 maps to -borderX and width to +borderX. */
  function MouseWorldX(borderX: real, pixel: int, width: int): (x: real)
    requires width != 0
    ensures pixel == 0 ==> x == -borderX
    ensures pixel == width ==> x == borderX
    ensures 2 * pixel == width ==> x == 0.0
  {
    var f := (pixel as real) / (width as real);
    Arith.PixelFraction(pixel, width);
    borderX * (2.0 * f - 1.0)
  }

  /** Pixel y to world y: the pixel axis points down, so 0 maps to
      +borderY and height to -borderY. */
  function MouseWorldY(borderY: real, pixel: int, height: int): (y: real)
    requires height != 0
    ensures pixel == 0 ==> y == borderY
    ensures pixel == height ==> y == -borderY
    ensures 2 * pixel == height ==> y == 0.0
  {
    var f := (pixel as real) / (height as real);
    Arith.PixelFraction(pixel, height);
    borderY * (-2.0 * f + 1.0)
  }

  /** Within the window the world position stays between the borders. */
  lemma MouseInsideBorders(borderX: real, borderY: real, px: int, py: int, width: int, height: int)
    requires 0 < width && 0 < height && 0.0 <= borderX && 0.0 <= borderY
    requires 0 <= px <= width && 0 <= py <= height
    ensures -borderX <= MouseWorldX(borderX, px, width) <= borderX
    ensures -borderY <= MouseWorldY(borderY, py, height) <= borderY
  {
    Arith.RealDivUnit(px as real, width as real);
    Arith.RealDivUnit(py as real, height as real);
    var fx := 2.0 * ((px as real) / (width as real)) - 1.0;
    var fy := -2.0 * ((py as real) / (height as real)) + 1.0;
    Arith.RealScaleUnit(borderX, fx);
    Arith.RealScaleUnit(borderY, fy);
  }

  // ---------------------------------------------------------------------
  // A whole frame

  datatype Key = KeyG | KeyR | KeyM | KeyB | KeyC | KeyUp | KeyDown | KeyLeft | KeyRight

  /** What the window reports for one frame, plus the random oracle. */
  datatype Input = Input(pressed: set<Key>, repeated: set<Key>, width: int, height: int,
                         mouseX: int, mouseY: int, left: bool, right: bool, middle: bool,
                         draw: int -> Draw)

  datatype Toggles = Toggles(downGravity: bool, relativeGravity: bool, variableMass: bool,
                             borderCollision: bool, objectCollision: bool)

  datatype Mouse = Mouse(x: real, y: real, pulling: bool, pushing: bool, braking: bool)

  datatype State = State(roles: Roles, count: int, multiplier: real, toggles: Toggles,
                         buffers: seq<seq<Body>>, borderX: real, borderY: real, aspect: real, mouse: Mouse)

  /** What every frame keeps true. */
  ghost predicate Invariant(s: State) {
    RolesValid(s.roles)
    && MinObjectsCount <= s.count <= MaxObjectsCount
    && MinTimeMultiplier <= s.multiplier <= MaxTimeMultiplier
    && SameLengths(s.buffers, s.count)
  }

  /** The constructor: ten default-mass bodies at rest per buffer, each
      buffer drawn separately, borders 1, gravity off, border collision on.
      The source leaves the aspect ratio, the mouse position and the mouse
      buttons uninitialised; `OnRun` writes them before they are read, so
      the values 1, (0, 0) and false chosen here are never observed. */
  function Initial(draw: int -> Draw): (s: State)
    ensures Invariant(s)
    ensures s.count == DefaultObjectsCount && s.roles == InitialRoles
    ensures forall k, n :: 0 <= k < 3 && 0 <= n < DefaultObjectsCount ==>
      s.buffers[k][n].mass == DefaultMass && s.buffers[k][n].velocity == Origin
  {
    var bufs := seq(3, k => seq(DefaultObjectsCount, n => NewBody(false, 1.0, 1.0, draw(k * DefaultObjectsCount + n))));
    assert SameLengths(bufs, DefaultObjectsCount);
    assert RolesValid(InitialRoles);
    assert forall k, n :: 0 <= k < 3 && 0 <= n < DefaultObjectsCount ==>
      bufs[k][n] == NewBody(false, 1.0, 1.0, draw(k * DefaultObjectsCount + n));
    State(InitialRoles, DefaultObjectsCount, DefaultTimeMultiplier,
          Toggles(false, false, false, true, false), bufs, 1.0, 1.0, 1.0, Mouse(0.0, 0.0, false, false, false))
  }

  function Toggle(b: bool, k: Key, pressed: set<Key>): (r: bool)
    ensures r != b <==> k in pressed
  {
    if k in pressed then !b else b
  }

  function Held(k: Key, i: Input): bool {
    k in i.pressed || k in i.repeated
  }

  /** GameManager::OnRun for one frame (window polling aside). */
  function OnRun(s: State, i: Input): (n: State)
    requires Invariant(s)
    requires i.width != 0 && i.height != 0
    ensures Invariant(n)
    ensures n.roles == SwapRoles(s.roles)
    ensures n.borderX == n.aspect && n.borderY == 1.0
    ensures forall k, m :: 0 <= k < 3 && 0 <= m < n.count && m < s.count ==> n.buffers[k][m] == s.buffers[k][m]
  {
    var roles := SwapRoles(s.roles);
    var t := s.toggles;
    var toggles := Toggles(Toggle(t.downGravity, KeyG, i.pressed), Toggle(t.relativeGravity, KeyR, i.pressed),
                           Toggle(t.variableMass, KeyM, i.pressed), Toggle(t.borderCollision, KeyB, i.pressed),
                           Toggle(t.objectCollision, KeyC, i.pressed));
    var count := StepCount(s.count, Held(KeyUp, i), Held(KeyDown, i));
    ResizeKeepsPrefix(s.buffers, roles.render, count, toggles.variableMass, s.borderX, s.borderY, i.draw, s.count);
    var buffers := ResizeBuffers(s.buffers, roles.render, count, toggles.variableMass, s.borderX, s.borderY, i.draw);
    var m1 := if Held(KeyLeft, i) then Slower(s.multiplier) else s.multiplier;
    var multiplier := if Held(KeyRight, i) then Faster(m1) else m1;
    var aspect := (i.width as real) / (i.height as real);
    State(roles, count, multiplier, toggles, buffers, aspect, 1.0, aspect,
          Mouse(MouseWorldX(aspect, i.mouseX, i.width), MouseWorldY(1.0, i.mouseY, i.height), i.left, i.right, i.middle))
  }

  /** A frame overwrites the aspect ratio and the mouse state without
      reading them, so the values a state held before do not matter. */
  lemma OnRunIgnoresAspectAndMouse(s: State, i: Input, aspect: real, mouse: Mouse)
    requires Invariant(s)
    requires i.width != 0 && i.height != 0
    ensures OnRun(s.(aspect := aspect, mouse := mouse), i) == OnRun(s, i)
    ensures OnRun(s, i).aspect == (i.width as real) / (i.height as real)
    ensures OnRun(s, i).mouse.pulling == i.left && OnRun(s, i).mouse.pushing == i.right && OnRun(s, i).mouse.braking == i.middle
  {
  }

  /** PhysicsPassNotify as a state step: only the pass-1 read role moves. */
  function PhysicsPassNotify(s: State): (n: State)
    ensures Invariant(s) ==> Invariant(n)
    ensures n.roles.pass1Read == n.roles.pass2Write
    ensures n == s.(roles := n.roles)
  {
    s.(roles := NotifyPass(s.roles))
  }
}

=== FILE: ObjectMapper.dfy ===
/** The spatial hash grid (ObjectMapper.h): a flat int buffer split into
    SizeX*SizeY cells of CellCapacity slots each, every cell's list ended by
    the sentinel -1, cells addressed by toroidally wrapped coordinates.
    The buffer is a seq<int> and the template parameters are a Grid value. */
module ObjectMapper {
  import opened Bodies
  import opened Arith

  /** The template parameters ObjectMapper<SizeX, SizeY, AreaX, AreaY, CellCapacity>. */
  datatype Grid = Grid(sizeX: int, sizeY: int, areaX: int, areaY: int, capacity: int) {

    predicate Valid() {
      sizeX > 0 && sizeY > 0 && areaX > 0 && areaY > 0 && capacity > 0
    }

    /** SlotsCount in the code: the number of cells. */
    function SlotsCount(): int {
      sizeX * sizeY
    }

    function BufferLength(): int {
      sizeX * sizeY * capacity
    }
  }

  /** The list terminator written into a cell. */
  const Empty: int := -1

  /*********************************************************************
   * Coordinates
   *********************************************************************/

  /** The C++ conversion `(int)v`: truncation toward zero, not floor. */
  function Trunc(v: real): (r: int)
    ensures 0.0 <= v ==> 0 <= r && r as real <= v < r as real + 1.0
    ensures v < 0.0 ==> r <= 0 && r as real - 1.0 < v <= r as real
  {
    if v >= 0.0 then v.Floor else -((-v).Floor)
  }

  lemma TruncMonotone(a: real, b: real)
    requires a <= b
    ensures Trunc(a) <= Trunc(b)
  {
  }

  /** PositionToIndexX = SizeX / AreaX. */
  function ScaleX(g: Grid): (k: real)
    requires g.Valid()
    ensures k > 0.0
  {
    g.sizeX as real / g.areaX as real
  }

  /** PositionToIndexY = SizeY / AreaY. */
  function ScaleY(g: Grid): (k: real)
    requires g.Valid()
    ensures k > 0.0
  {
    g.sizeY as real / g.areaY as real
  }

  /** GetIndexX: position to (unwrapped) column. */
  function GetIndexX(g: Grid, px: real): int
    requires g.Valid()
  {
    Trunc(px * ScaleX(g))
  }

  /** GetIndexY: position to (unwrapped) row. */
  function GetIndexY(g: Grid, py: real): int
    requires g.Valid()
  {
    Trunc(py * ScaleY(g))
  }

  /** A position inside the area lands on a column in [0, SizeX) and a
      row in [0, SizeY). */
  lemma GetIndexInArea(g: Grid, p: Vec2)
    requires g.Valid()
    ensures 0.0 <= p.x < g.areaX as real ==> 0 <= GetIndexX(g, p.x) < g.sizeX
    ensures 0.0 <= p.y < g.areaY as real ==> 0 <= GetIndexY(g, p.y) < g.sizeY
  {
    ScaledBelow(p.x, g.areaX as real, g.sizeX as real);
    ScaledBelow(p.y, g.areaY as real, g.sizeY as real);
  }

  lemma TruncScaleMonotone(a: real, b: real, k: real)
    requires a <= b && k > 0.0
    ensures Trunc(a * k) <= Trunc(b * k)
  {
    assert a * k <= b * k;
    TruncMonotone(a * k, b * k);
  }

  /** The row conversion is monotone non-decreasing in the position. */
  lemma GetIndexYMonotone(g: Grid, a: real, b: real)
    requires g.Valid() && a <= b
    ensures GetIndexY(g, a) <= GetIndexY(g, b)
  {
    var k := ScaleY(g);
    assert GetIndexY(g, a) == Trunc(a * k) && GetIndexY(g, b) == Trunc(b * k);
    TruncScaleMonotone(a, b, k);
  }

  /** The column conversion is monotone non-decreasing in the position. */
  lemma GetIndexXMonotone(g: Grid, a: real, b: real)
    requires g.Valid() && a <= b
    ensures GetIndexX(g, a) <= GetIndexX(g, b)
  {
    var k := ScaleX(g);
    assert GetIndexX(g, a) == Trunc(a * k) && GetIndexX(g, b) == Trunc(b * k);
    TruncScaleMonotone(a, b, k);
  }

  /** Because the cast truncates, column 0 spans a whole cell width on each
      side of zero, while every other column spans one width. */
  lemma ColumnZeroIsDoubleWidth(g: Grid, px: real)
    requires g.Valid()
    requires -(g.areaX as real / g.sizeX as real) < px < g.areaX as real / g.sizeX as real
    ensures GetIndexX(g, px) == 0
  {
    var k := ScaleX(g);
    var w := g.areaX as real / g.sizeX as real;
    assert w * k == 1.0;
    TruncWithinUnit(px, w, k);
    assert GetIndexX(g, px) == Trunc(px * k);
  }

  /** Scaling by k = 1/w maps (-w, w) into (-1, 1), which truncates to 0. */
  lemma TruncWithinUnit(px: real, w: real, k: real)
    requires 0.0 < k && w * k == 1.0 && -w < px < w
    ensures Trunc(px * k) == 0
  {
    var v := px * k;
    if px >= 0.0 {
      RealMulMono(px, px, k);
      RealMulStrict(px, w, k);
      assert 0.0 <= v;
      assert v < w * k;
    } else {
      RealMulStrict(-px, w, k);
      assert -px * k == -v;
      assert -v < w * k;
    }
  }

  /** A column at or above 1 is reached only from positions of at least one
      cell width: the truncation is a floor on the non-negative side. */
  lemma GetIndexXTruncates(g: Grid, px: real)
    requires g.Valid()
    ensures var c := GetIndexX(g, px);
      && (0.0 <= px ==> 0 <= c && c as real <= px * ScaleX(g) < c as real + 1.0)
      && (px < 0.0 ==> c <= 0 && c as real - 1.0 < px * ScaleX(g) <= c as real)
  {
    assert 0.0 <= px ==> 0.0 <= px * ScaleX(g);
    assert px < 0.0 ==> px * ScaleX(g) < 0.0;
  }

  /** C++ `a % n` for n > 0: the remainder keeps the sign of `a`, so it is
      the Euclidean remainder or that minus n. */
  function CRem(a: int, n: int): (r: int)
    requires n > 0
    ensures -n < r < n
    ensures 0 <= a ==> 0 <= r
    ensures a < 0 ==> r <= 0
    ensures r == a % n || r == a % n - n
  {
    if a >= 0 then a % n
    else
      CRemNegative(a, n);
      -((-a) % n)
  }

  lemma CRemNegative(a: int, n: int)
    requires n > 0 && a < 0
    ensures -((-a) % n) == a % n || -((-a) % n) == a % n - n
  {
    var m := -a;
    var q := m / n;
    var t := m % n;
    assert m == q * n + t;
    if t == 0 {
      assert a == (-q) * n + 0;
      ModUnique(a, -q, 0, n);
    } else {
      assert a == (-q - 1) * n + (n - t);
      ModUnique(a, -q - 1, n - t, n);
    }
  }

  /** The wrapped cell coordinate of ObjectMapper.h lines 43-48: the
      truncating remainder, raised by n when negative, which is the
      Euclidean residue. */
  function WrapIndex(a: int, n: int): (r: int)
    requires n > 0
    ensures 0 <= r < n
    ensures r == a % n
  {
    var x := CRem(a, n);
    if x < 0 then x + n else x
  }

  /** The rank of wrapped cell (x, y) in x-major order. */
  function CellNumber(g: Grid, x: int, y: int): int {
    x * g.sizeY + y
  }

  /** A cell start: the first slot of one of the SizeX*SizeY cells. */
  ghost predicate IsCellStart(g: Grid, s: int)
    requires g.Valid()
  {
    0 <= s < g.BufferLength() && s % g.capacity == 0
  }

  /** Cell ranks of in-range coordinates are the ranks 0 .. SlotsCount-1. */
  lemma CellNumberRange(g: Grid, x: int, y: int)
    requires g.Valid() && 0 <= x < g.sizeX && 0 <= y < g.sizeY
    ensures 0 <= CellNumber(g, x, y) < g.SlotsCount()
  {
    MulNonneg(x, g.sizeY);
    MulMono(x, g.sizeX - 1, g.sizeY);
    assert (g.sizeX - 1) * g.sizeY == g.sizeX * g.sizeY - g.sizeY;
  }

  /** The start of the cell of rank c, for 0 <= c < SlotsCount, is a cell start
      whose whole cell fits in the buffer. */
  lemma CellRankStart(g: Grid, c: int)
    requires g.Valid() && 0 <= c < g.SlotsCount()
    ensures IsCellStart(g, c * g.capacity)
    ensures c * g.capacity + g.capacity <= g.BufferLength()
  {
    var cap := g.capacity;
    MulMono(c + 1, g.SlotsCount(), cap);
    assert (c + 1) * cap == c * cap + cap;
    MulNonneg(c, cap);
    ModMultipleOffset(c, 0, cap);
  }

  /** The code's x * IndexMultiplierX + y * IndexMultiplierY is the rank times CellCapacity. */
  lemma IndexMultipliers(g: Grid, x: int, y: int)
    ensures x * (g.sizeY * g.capacity) + y * g.capacity == CellNumber(g, x, y) * g.capacity
  {
    var cap := g.capacity;
    assert (x * g.sizeY + y) * cap == x * g.sizeY * cap + y * cap;
    assert x * g.sizeY * cap == x * (g.sizeY * cap);
  }

  /** GetIndex(index_x, index_y): the first slot of the cell whose rank is
      built from the Euclidean residues of the coordinates. */
  function GetIndex(g: Grid, ix: int, iy: int): (r: int)
    requires g.Valid()
    ensures IsCellStart(g, r)
    ensures r == CellNumber(g, ix % g.sizeX, iy % g.sizeY) * g.capacity
  {
    var x := WrapIndex(ix, g.sizeX);
    var y := WrapIndex(iy, g.sizeY);
    CellNumberRange(g, x, y);
    CellRankStart(g, CellNumber(g, x, y));
    IndexMultipliers(g, x, y);
    x * (g.sizeY * g.capacity) + y * g.capacity
  }

  /** A cell start is a multiple of CellCapacity whose whole cell fits in the buffer. */
  lemma CellStartFits(g: Grid, s: int)
    requires g.Valid() && IsCellStart(g, s)
    ensures s == (s / g.capacity) * g.capacity
    ensures 0 <= s / g.capacity < g.SlotsCount()
    ensures s + g.capacity <= g.BufferLength()
  {
    var c := g.capacity;
    var q := s / c;
    assert s == q * c;
    MulMonoOrLess(q, g.SlotsCount(), c);
    MulMono(q + 1, g.SlotsCount(), c);
    assert (q + 1) * c == q * c + c;
  }

  /** Adding SizeX to the column or SizeY to the row names the same cell. */
  lemma GetIndexPeriodic(g: Grid, ix: int, iy: int)
    requires g.Valid()
    ensures GetIndex(g, ix + g.sizeX, iy) == GetIndex(g, ix, iy)
    ensures GetIndex(g, ix, iy + g.sizeY) == GetIndex(g, ix, iy)
  {
    assert ix + g.sizeX == (ix / g.sizeX + 1) * g.sizeX + ix % g.sizeX;
    ModUnique(ix + g.sizeX, ix / g.sizeX + 1, ix % g.sizeX, g.sizeX);
    assert iy + g.sizeY == (iy / g.sizeY + 1) * g.sizeY + iy % g.sizeY;
    ModUnique(iy + g.sizeY, iy / g.sizeY + 1, iy % g.sizeY, g.sizeY);
  }

  /** Two coordinate pairs share a cell exactly when they agree modulo the grid size. */
  lemma GetIndexSameCell(g: Grid, ax: int, ay: int, bx: int, bY: int)
    requires g.Valid()
    ensures GetIndex(g, ax, ay) == GetIndex(g, bx, bY)
        <==> ax % g.sizeX == bx % g.sizeX && ay % g.sizeY == bY % g.sizeY
  {
    var x1, y1 := ax % g.sizeX, ay % g.sizeY;
    var x2, y2 := bx % g.sizeX, bY % g.sizeY;
    var c1, c2 := CellNumber(g, x1, y1), CellNumber(g, x2, y2);
    if GetIndex(g, ax, ay) == GetIndex(g, bx, bY) {
      ModMultipleOffset(c1, 0, g.capacity);
      ModMultipleOffset(c2, 0, g.capacity);
      assert c1 == c2;
      ModMultipleOffset(x1, y1, g.sizeY);
      ModMultipleOffset(x2, y2, g.sizeY);
    }
  }

  /** GetIndex(position): the cell a position falls in. */
  function CellOf(g: Grid, p: Vec2): (s: int)
    requires g.Valid()
    ensures IsCellStart(g, s)
  {
    GetIndex(g, GetIndexX(g, p.x), GetIndexY(g, p.y))
  }

  /*********************************************************************
   * Cell lists
   *********************************************************************/

  /** A read loop from `j` up to (not including) `stop` stays inside the
      buffer: either `stop` fits, or a sentinel comes first. */
  ghost predicate ScanInBounds(buf: seq<int>, j: int, stop: int) {
    stop <= |buf| || exists k :: j <= k < stop && 0 <= k < |buf| && buf[k] == Empty
  }

  /** The entries a read loop sees from slot `j`: it stops at the first
      sentinel or on reaching `stop`. */
  function Scan(buf: seq<int>, j: int, stop: int): (r: seq<int>)
    requires 0 <= j <= |buf|
    requires ScanInBounds(buf, j, stop)
    ensures j + |r| <= |buf|
    ensures |r| == 0 || j + |r| <= stop
    ensures r == buf[j .. j + |r|]
    ensures Empty !in r
    ensures j + |r| < stop ==> j + |r| < |buf| && buf[j + |r|] == Empty
    decreases stop - j
  {
    if j >= stop || buf[j] == Empty then []
    else [buf[j]] + Scan(buf, j + 1, stop)
  }

  /** The number of slots a scan reads before a sentinel at offset o, given
      room for n slots. */
  function Clip(o: int, n: int): int {
    if n <= 0 then 0 else if o <= n then o else n
  }

  /** The scan's result is fixed by the first sentinel at offset `o` and the bound. */
  lemma ScanUpToSentinel(buf: seq<int>, j: int, stop: int, o: int)
    requires 0 <= j && 0 <= o && j + o < |buf| && buf[j + o] == Empty
    requires forall m :: j <= m < j + o ==> buf[m] != Empty
    ensures ScanInBounds(buf, j, stop)
    ensures Scan(buf, j, stop) == buf[j .. j + Clip(o, stop - j)]
  {
    assert ScanInBounds(buf, j, stop) by {
      if stop > |buf| {
        assert j <= j + o < stop && buf[j + o] == Empty;
      }
    }
    var r := Scan(buf, j, stop);
    assert forall m :: 0 <= m < |r| ==> r[m] == buf[j + m];
  }

  /** A scan over slots holding no sentinel returns all of them. */
  lemma {:induction false} ScanFillsBound(buf: seq<int>, j: int, stop: int)
    requires 0 <= j <= stop <= |buf|
    requires forall m :: j <= m < stop ==> buf[m] != Empty
    ensures Scan(buf, j, stop) == buf[j .. stop]
    decreases stop - j
  {
    if j < stop {
      ScanFillsBound(buf, j + 1, stop);
      assert buf[j .. stop] == [buf[j]] + buf[j + 1 .. stop];
    }
  }

  /** The cell list the code reads from a cell start (scan bound start + SlotsCount). */
  function CellEntries(g: Grid, buf: seq<int>, start: int): seq<int>
    requires g.Valid() && 0 <= start <= |buf|
    requires ScanInBounds(buf, start, start + g.SlotsCount())
  {
    Scan(buf, start, start + g.SlotsCount())
  }

  /** The cell starting at `s` holds a sentinel within its own slots. */
  ghost predicate Terminated(g: Grid, buf: seq<int>, s: int)
    requires g.Valid()
  {
    exists m :: s <= m < s + g.capacity && 0 <= m < |buf| && buf[m] == Empty
  }

  /** Every cell holds fewer than CellCapacity entries, so its list ends inside its own slots. */
  ghost predicate WellFormed(g: Grid, buf: seq<int>)
    requires g.Valid()
  {
    |buf| == g.BufferLength()
    && forall s :: IsCellStart(g, s) ==> Terminated(g, buf, s)
  }

  /** A scan stops at or before any sentinel inside its bound. */
  lemma {:induction false} ScanStopsAtSentinel(buf: seq<int>, j: int, stop: int, m: int)
    requires 0 <= j <= m < stop && m < |buf| && buf[m] == Empty
    ensures ScanInBounds(buf, j, stop)
    ensures j + |Scan(buf, j, stop)| <= m
    decreases m - j
  {
    assert j <= m < stop && 0 <= m < |buf| && buf[m] == Empty;
    if buf[j] != Empty {
      ScanStopsAtSentinel(buf, j + 1, stop, m);
    }
  }

  /** The offset of the first sentinel of a terminated cell. */
  function SentinelOffset(g: Grid, buf: seq<int>, s: int): (o: int)
    requires g.Valid() && 0 <= s <= |buf| && Terminated(g, buf, s)
    ensures 0 <= o < g.capacity && s + o < |buf| && buf[s + o] == Empty
    ensures forall m :: s <= m < s + o ==> buf[m] != Empty
  {
    var m :| s <= m < s + g.capacity && 0 <= m < |buf| && buf[m] == Empty;
    ScanStopsAtSentinel(buf, s, s + g.capacity, m);
    var r := Scan(buf, s, s + g.capacity);
    assert forall k :: s <= k < s + |r| ==> buf[k] == r[k - s];
    |r|
  }

  /** Within a terminated cell the code's list is the slots before the first
      sentinel, cut at SlotsCount entries. */
  lemma CellEntriesOfTerminated(g: Grid, buf: seq<int>, s: int)
    requires g.Valid() && 0 <= s <= |buf| && Terminated(g, buf, s)
    ensures ScanInBounds(buf, s, s + g.SlotsCount())
    ensures CellEntries(g, buf, s) == buf[s .. s + Clip(SentinelOffset(g, buf, s), g.SlotsCount())]
  {
    ScanUpToSentinel(buf, s, s + g.SlotsCount(), SentinelOffset(g, buf, s));
  }

  /** Clear: writes the sentinel into the first slot of each of the SizeX*SizeY
      cells. Afterwards every cell is terminated and reads as empty, and no
      other slot has changed. */
  method Clear(g: Grid, buf: seq<int>) returns (r: seq<int>)
    requires g.Valid() && |buf| == g.BufferLength()
    ensures |r| == |buf|
    ensures forall k :: 0 <= k < |r| && !IsCellStart(g, k) ==> r[k] == buf[k]
    ensures WellFormed(g, r)
    ensures forall s :: IsCellStart(g, s) ==>
      r[s] == Empty && ScanInBounds(r, s, s + g.SlotsCount()) && CellEntries(g, r, s) == []
  {
    var c := g.capacity;
    r := buf;
    var i := 0;
    while i < g.SlotsCount()
      invariant 0 <= i <= g.SlotsCount()
      invariant |r| == |buf|
      invariant forall s :: IsCellStart(g, s) && s / c < i ==> r[s] == Empty
      invariant forall k :: 0 <= k < |r| && !(IsCellStart(g, k) && k / c < i) ==> r[k] == buf[k]
    {
      ModMultipleOffset(i, 0, c);
      MulMono(i + 1, g.SlotsCount(), c);
      assert (i + 1) * c == i * c + c;
      assert IsCellStart(g, i * c) && (i * c) / c == i;
      forall s | IsCellStart(g, s) && s / c == i
        ensures s == i * c
      {
        CellStartFits(g, s);
      }
      r := r[i * c := Empty];
      i := i + 1;
    }
    forall s | IsCellStart(g, s)
      ensures r[s] == Empty && Terminated(g, r, s)
      ensures ScanInBounds(r, s, s + g.SlotsCount()) && CellEntries(g, r, s) == []
    {
      CellStartFits(g, s);
      assert r[s + 0] == Empty;
      ScanUpToSentinel(r, s, s + g.SlotsCount(), 0);
    }
  }

  /*********************************************************************
   * Adding an entry
   *********************************************************************/

  /** The write loop of AddObject for a given bound: the index goes into the
      first sentinel slot before `stop`, and a sentinel into the following
      slot when that is still before `stop`. Without a sentinel in range the
      index is dropped. */
  function AddAt(buf: seq<int>, start: int, stop: int, obj: int): (r: seq<int>)
    requires 0 <= start <= |buf| && ScanInBounds(buf, start, stop)
    requires start + |Scan(buf, start, stop)| + 1 < stop ==> start + |Scan(buf, start, stop)| + 1 < |buf|
    ensures |r| == |buf|
  {
    var k := start + |Scan(buf, start, stop)|;
    if k < stop then
      var b := buf[k := obj];
      if k + 1 < stop then b[k + 1 := Empty] else b
    else buf
  }

  /** With the first sentinel at offset o, the write loop touches slots
      j+o and j+o+1 only: the index goes into the first and a sentinel into
      the second, each only when it lies before the bound. */
  lemma AddAtWrites(buf: seq<int>, j: int, stop: int, o: int, obj: int)
    requires 0 <= j && 0 <= o && j + o < |buf| && buf[j + o] == Empty
    requires forall m :: j <= m < j + o ==> buf[m] != Empty
    requires o + 1 < stop - j ==> j + o + 1 < |buf|
    ensures ScanInBounds(buf, j, stop)
    ensures j + |Scan(buf, j, stop)| + 1 < stop ==> j + |Scan(buf, j, stop)| + 1 < |buf|
    ensures forall k :: 0 <= k < |buf| && k != j + o && k != j + o + 1 ==> AddAt(buf, j, stop, obj)[k] == buf[k]
    ensures stop - j <= o ==> AddAt(buf, j, stop, obj) == buf
    ensures o < stop - j ==> AddAt(buf, j, stop, obj)[j + o] == obj
    ensures o + 1 < stop - j ==> AddAt(buf, j, stop, obj)[j + o + 1] == Empty
    ensures o + 1 == stop - j && j + o + 1 < |buf| ==> AddAt(buf, j, stop, obj)[j + o + 1] == buf[j + o + 1]
  {
    ScanUpToSentinel(buf, j, stop, o);
    if o < stop - j {
      assert |Scan(buf, j, stop)| == o;
    } else {
      assert j + |Scan(buf, j, stop)| >= stop;
    }
  }

  /** With the first sentinel at offset o before the bound, the write loop
      appends the index to the list read with the same bound. */
  lemma AddAtAppends(buf: seq<int>, j: int, stop: int, o: int, obj: int)
    requires 0 <= j && 0 <= o < stop - j && j + o < |buf| && buf[j + o] == Empty
    requires forall m :: j <= m < j + o ==> buf[m] != Empty
    requires o + 1 < stop - j ==> j + o + 1 < |buf|
    requires obj != Empty
    ensures ScanInBounds(buf, j, stop)
    ensures j + |Scan(buf, j, stop)| + 1 < stop ==> j + |Scan(buf, j, stop)| + 1 < |buf|
    ensures ScanInBounds(AddAt(buf, j, stop, obj), j, stop)
    ensures Scan(AddAt(buf, j, stop, obj), j, stop) == Scan(buf, j, stop) + [obj]
  {
    ScanUpToSentinel(buf, j, stop, o);
    assert Scan(buf, j, stop) == buf[j .. j + o];
    var r := AddAt(buf, j, stop, obj);
    assert r[j + o] == obj;
    ScanAfterWrite(buf, r, j, stop, o, obj);
  }

  /** A buffer r that agrees with buf before slot j+o, holds obj there and
      (when the bound allows) a sentinel after it reads back as the list
      buf[j..j+o] followed by obj. */
  lemma ScanAfterWrite(buf: seq<int>, r: seq<int>, j: int, stop: int, o: int, obj: int)
    requires 0 <= j && 0 <= o < stop - j && j + o < |r| == |buf| && obj != Empty
    requires forall m :: j <= m < j + o ==> buf[m] != Empty && r[m] == buf[m]
    requires r[j + o] == obj
    requires o + 1 < stop - j ==> j + o + 1 < |r| && r[j + o + 1] == Empty
    ensures ScanInBounds(r, j, stop)
    ensures Scan(r, j, stop) == buf[j .. j + o] + [obj]
  {
    assert r[j .. j + o + 1] == buf[j .. j + o] + [obj];
    if o + 1 < stop - j {
      ScanUpToSentinel(r, j, stop, o + 1);
      assert Clip(o + 1, stop - j) == o + 1;
    } else {
      ScanFillsBound(r, j, stop);
      assert stop == j + o + 1;
    }
  }

  /** The write loop of AddObject stays inside the buffer: its search is in
      bounds, and so is the sentinel it writes after the new entry. */
  ghost predicate AddInBounds(g: Grid, buf: seq<int>, start: int)
    requires g.Valid()
  {
    0 <= start <= |buf| && ScanInBounds(buf, start, start + g.SlotsCount())
    && (start + |Scan(buf, start, start + g.SlotsCount())| + 1 < start + g.SlotsCount()
        ==> start + |Scan(buf, start, start + g.SlotsCount())| + 1 < |buf|)
  }

  /** AddObject as written, from the cell start `start` = CellOf(position):
      the search and the sentinel write are bounded by start + SlotsCount,
      not by the cell's own CellCapacity slots. */
  function AddObject(g: Grid, buf: seq<int>, start: int, obj: int): (r: seq<int>)
    requires g.Valid()
    requires AddInBounds(g, buf, start)
    ensures |r| == |buf|
  {
    AddAt(buf, start, start + g.SlotsCount(), obj)
  }

  /** Distinct cell starts are at least a cell apart. */
  lemma CellsDisjoint(g: Grid, s: int, t: int)
    requires g.Valid() && IsCellStart(g, s) && IsCellStart(g, t) && s != t
    ensures s + g.capacity <= t || t + g.capacity <= s
  {
    var c := g.capacity;
    CellStartFits(g, s);
    CellStartFits(g, t);
    var qs, qt := s / c, t / c;
    if qs < qt {
      MulMono(qs + 1, qt, c);
      assert (qs + 1) * c == qs * c + c;
    } else {
      MulMono(qt + 1, qs, c);
      assert (qt + 1) * c == qt * c + c;
    }
  }

  /** A cell holding fewer than CellCapacity-1 entries: AddObject appends the
      index to its list, rewrites the sentinel right after it, changes no slot
      of any other cell, and (unless the grid has no more cells than the new
      list's length) leaves every cell terminated. */
  lemma AddObjectAppends(g: Grid, buf: seq<int>, s: int, obj: int)
    requires g.Valid() && WellFormed(g, buf) && IsCellStart(g, s) && obj != Empty
    requires SentinelOffset(g, buf, s) < g.capacity - 1
    ensures AddInBounds(g, buf, s)
    ensures var o := SentinelOffset(g, buf, s);
      var r := AddObject(g, buf, s, obj);
      && (forall k :: 0 <= k < |buf| && !(s <= k < s + g.capacity) ==> r[k] == buf[k])
      && (o < g.SlotsCount() ==> r[s + o] == obj)
      && (o + 1 < g.SlotsCount() ==> r[s + o + 1] == Empty)
      && (o + 1 != g.SlotsCount() ==> WellFormed(g, r))
      && (o < g.SlotsCount() ==>
            ScanInBounds(r, s, s + g.SlotsCount()) && CellEntries(g, r, s) == CellEntries(g, buf, s) + [obj])
      && (g.SlotsCount() <= o ==> r == buf)
  {
    var o := SentinelOffset(g, buf, s);
    CellStartFits(g, s);
    AddObjectAt(g, buf, s, o, obj);
    if o + 1 != g.SlotsCount() {
      var r := AddObject(g, buf, s, obj);
      assert Terminated(g, r, s) by {
        if o + 1 < g.SlotsCount() {
          assert s <= s + o + 1 < s + g.capacity && r[s + o + 1] == Empty;
        } else {
          assert r == buf;
          assert s <= s + o < s + g.capacity && r[s + o] == Empty;
        }
      }
      WellFormedAfterCellWrite(g, buf, r, s);
    }
  }

  /** AddObject on a cell whose first sentinel sits at offset o, leaving at
      least one more free slot in the cell. */
  lemma AddObjectAt(g: Grid, buf: seq<int>, s: int, o: int, obj: int)
    requires g.Valid() && 0 <= s && s + g.capacity <= |buf| && obj != Empty
    requires 0 <= o < g.capacity - 1 && buf[s + o] == Empty
    requires forall m :: s <= m < s + o ==> buf[m] != Empty
    ensures AddInBounds(g, buf, s)
    ensures var r := AddObject(g, buf, s, obj);
      && (forall k :: 0 <= k < |buf| && !(s <= k < s + g.capacity) ==> r[k] == buf[k])
      && (o < g.SlotsCount() ==> r[s + o] == obj)
      && (o + 1 < g.SlotsCount() ==> r[s + o + 1] == Empty)
      && (o < g.SlotsCount() ==>
            ScanInBounds(r, s, s + g.SlotsCount()) && CellEntries(g, r, s) == CellEntries(g, buf, s) + [obj])
      && (g.SlotsCount() <= o ==> r == buf)
  {
    var stop := s + g.SlotsCount();
    AddAtCell(buf, s, stop, g.capacity, o, obj);
    var r := AddObject(g, buf, s, obj);
    assert r == AddAt(buf, s, stop, obj);
    assert CellEntries(g, buf, s) == Scan(buf, s, stop);
    assert o < g.SlotsCount() ==> CellEntries(g, r, s) == Scan(r, s, stop);
  }

  /** The write loop with bound `stop` on a region of c slots from j whose
      first sentinel sits at offset o < c-1. */
  lemma AddAtCell(buf: seq<int>, j: int, stop: int, c: int, o: int, obj: int)
    requires 0 <= j && j + c <= |buf| && obj != Empty
    requires 0 <= o < c - 1 && buf[j + o] == Empty
    requires forall m :: j <= m < j + o ==> buf[m] != Empty
    ensures ScanInBounds(buf, j, stop)
    ensures j + |Scan(buf, j, stop)| + 1 < stop ==> j + |Scan(buf, j, stop)| + 1 < |buf|
    ensures var r := AddAt(buf, j, stop, obj);
      && (forall k :: 0 <= k < |buf| && !(j <= k < j + c) ==> r[k] == buf[k])
      && (o < stop - j ==> r[j + o] == obj)
      && (o + 1 < stop - j ==> r[j + o + 1] == Empty)
      && (o < stop - j ==> ScanInBounds(r, j, stop) && Scan(r, j, stop) == Scan(buf, j, stop) + [obj])
      && (stop - j <= o ==> r == buf)
  {
    AddAtWrites(buf, j, stop, o, obj);
    if o < stop - j {
      AddAtAppends(buf, j, stop, o, obj);
    }
  }

  /** Rewriting the slots of one cell, keeping a sentinel in it, keeps the
      buffer well formed. */
  lemma WellFormedAfterCellWrite(g: Grid, buf: seq<int>, r: seq<int>, s: int)
    requires g.Valid() && WellFormed(g, buf) && IsCellStart(g, s)
    requires |r| == |buf| && Terminated(g, r, s)
    requires forall k :: 0 <= k < |buf| && !(s <= k < s + g.capacity) ==> r[k] == buf[k]
    ensures WellFormed(g, r)
  {
    forall t | IsCellStart(g, t)
      ensures Terminated(g, r, t)
    {
      if t != s {
        var q := SentinelOffset(g, buf, t);
        CellsDisjoint(g, s, t);
        assert r[t + q] == buf[t + q];
      }
    }
  }

  /*********************************************************************
   * Reading a cell
   *********************************************************************/

  /** GetObjects(start, result, i): copies the cell's list into `result`
      from position i on, never at or past MaxCount (= |result|), and returns
      i plus the number of entries written. GetObjects(position, ...) is this
      with start = CellOf(position), a cell start. */
  method GetObjects(g: Grid, buf: seq<int>, start: int, result: seq<int>, i0: int)
      returns (res: seq<int>, i: int)
    requires g.Valid() && 0 <= start <= |buf| && 0 <= i0
    requires ScanInBounds(buf, start, start + g.SlotsCount())
    ensures |res| == |result|
    ensures var e := CellEntries(g, buf, start);
      var n := if i0 >= |result| then 0 else if |e| <= |result| - i0 then |e| else |result| - i0;
      && i == i0 + n
      && (forall k :: i0 <= k < i ==> 0 <= k < |res| && res[k] == e[k - i0])
      && (forall k :: 0 <= k < |res| && !(i0 <= k < i) ==> res[k] == result[k])
  {
    ghost var e := CellEntries(g, buf, start);
    var stop := start + g.SlotsCount();
    res := result;
    i := i0;
    var j := start;
    while j < stop && i < |result|
      invariant start <= j && j - start == i - i0 && i0 <= i
      invariant j - start <= |e|
      invariant i0 < |result| ==> i <= |result|
      invariant i0 >= |result| ==> i == i0
      invariant |res| == |result|
      invariant forall k :: i0 <= k < i ==> res[k] == e[k - i0]
      invariant forall k :: 0 <= k < |res| && !(i0 <= k < i) ==> res[k] == result[k]
    {
      assert j - start < |e| ==> buf[j] == e[j - start];
      if buf[j] != Empty {
        res := res[i := buf[j]];
        i := i + 1;
      } else {
        return;
      }
      j := j + 1;
    }
  }

  /** The outcome of calling the visitor on `entries` in order until it
      first returns true: `stopped` says whether it ever does, `visited`
      counts the calls made, and the last call made is the first hit. */
  ghost predicate StopsAtFirstHit(entries: seq<int>, visitor: int -> bool, stopped: bool, visited: int) {
    && 0 <= visited <= |entries|
    && (stopped <==> exists k :: 0 <= k < |entries| && visitor(entries[k]))
    && (stopped ==> visited >= 1 && visitor(entries[visited - 1]))
    && (forall k :: 0 <= k < visited - 1 ==> !visitor(entries[k]))
    && (!stopped ==> visited == |entries| && forall k :: 0 <= k < |entries| ==> !visitor(entries[k]))
  }

  /** VisitObjects(start, visitor): calls the visitor on the cell's entries in
      buffer order, stopping at the first `true`; `visited` counts the calls. */
  method VisitObjects(g: Grid, buf: seq<int>, start: int, visitor: int -> bool)
      returns (stopped: bool, visited: nat)
    requires g.Valid() && 0 <= start <= |buf|
    requires ScanInBounds(buf, start, start + g.SlotsCount())
    ensures StopsAtFirstHit(CellEntries(g, buf, start), visitor, stopped, visited)
  {
    ghost var e := CellEntries(g, buf, start);
    var stop := start + g.SlotsCount();
    var j := start;
    visited := 0;
    while j < stop
      invariant start <= j && j - start == visited && visited <= |e|
      invariant forall k :: 0 <= k < visited ==> !visitor(e[k])
    {
      assert visited < |e| ==> buf[j] == e[visited];
      if buf[j] != Empty {
        visited := visited + 1;
        if visitor(buf[j]) {
          return true, visited;
        }
      } else {
        return false, visited;
      }
      j := j + 1;
    }
    return false, visited;
  }

  /*********************************************************************
   * Corrected cell bound (see Findings in README)
   *********************************************************************/

  /** The cell list read with the bound start + CellCapacity. */
  function CellList(g: Grid, buf: seq<int>, start: int): (r: seq<int>)
    requires g.Valid() && 0 <= start && start + g.capacity <= |buf|
    ensures |r| <= g.capacity
  {
    Scan(buf, start, start + g.capacity)
  }

  /** AddObject with the search and the sentinel write bounded by the cell's own
      CellCapacity slots; a full cell drops the index. */
  function AddObjectBounded(g: Grid, buf: seq<int>, start: int, obj: int): (r: seq<int>)
    requires g.Valid() && |buf| == g.BufferLength() && IsCellStart(g, start)
    ensures |r| == |buf|
  {
    CellStartFits(g, start);
    AddAt(buf, start, start + g.capacity, obj)
  }

  /** With the bounded loop, every cell keeps to its own slots whatever it
      holds: the index is appended when there is room, dropped otherwise. */
  lemma AddObjectBoundedKeepsCells(g: Grid, buf: seq<int>, s: int, obj: int)
    requires g.Valid() && |buf| == g.BufferLength() && IsCellStart(g, s) && obj != Empty
    ensures s + g.capacity <= |buf|
    ensures var r := AddObjectBounded(g, buf, s, obj);
      && (forall k :: 0 <= k < |buf| && !(s <= k < s + g.capacity) ==> r[k] == buf[k])
      && (|CellList(g, buf, s)| < g.capacity ==> CellList(g, r, s) == CellList(g, buf, s) + [obj])
      && (|CellList(g, buf, s)| == g.capacity ==> r == buf)
  {
    assert 0 <= s && s + g.capacity <= |buf| by {
      CellStartFits(g, s);
    }
    AddAtOwnSlots(buf, s, g.capacity, obj);
  }

  /** The write loop bounded by the c slots from j stays within them: with
      room it appends the index, and a full run of c entries is left alone. */
  lemma AddAtOwnSlots(buf: seq<int>, j: int, c: int, obj: int)
    requires 0 <= j && 0 < c && j + c <= |buf| && obj != Empty
    ensures ScanInBounds(buf, j, j + c)
    ensures forall k :: 0 <= k < |buf| && !(j <= k < j + c) ==> AddAt(buf, j, j + c, obj)[k] == buf[k]
    ensures |Scan(buf, j, j + c)| < c ==> ScanInBounds(AddAt(buf, j, j + c, obj), j, j + c)
    ensures |Scan(buf, j, j + c)| < c ==> Scan(AddAt(buf, j, j + c, obj), j, j + c) == Scan(buf, j, j + c) + [obj]
    ensures |Scan(buf, j, j + c)| == c ==> AddAt(buf, j, j + c, obj) == buf
  {
    var e := Scan(buf, j, j + c);
    var o := |e|;
    if o < c {
      assert buf[j + o] == Empty;
      assert forall m :: j <= m < j + o ==> buf[m] != Empty by {
        assert forall m :: j <= m < j + o ==> buf[m] == e[m - j];
      }
      AddAtRoomOutside(buf, j, c, o, obj);
      AddAtRoom(buf, j, c, o, obj);
    } else {
      assert AddAt(buf, j, j + c, obj) == buf;
    }
  }

  /** AddAtOwnSlots when the first sentinel sits at offset o < c: the list
      read back is the old one plus the index. */
  lemma AddAtRoom(buf: seq<int>, j: int, c: int, o: int, obj: int)
    requires 0 <= j && 0 <= o < c && j + c <= |buf| && obj != Empty
    requires buf[j + o] == Empty
    requires forall m :: j <= m < j + o ==> buf[m] != Empty
    ensures ScanInBounds(AddAt(buf, j, j + c, obj), j, j + c)
    ensures Scan(AddAt(buf, j, j + c, obj), j, j + c) == Scan(buf, j, j + c) + [obj]
  {
    AddAtAppends(buf, j, j + c, o, obj);
  }

  /** With the first sentinel at offset o < c, the write loop bounded by the
      c slots from j touches none of the slots outside them. */
  lemma AddAtRoomOutside(buf: seq<int>, j: int, c: int, o: int, obj: int)
    requires 0 <= j && 0 <= o < c && j + c <= |buf| && obj != Empty
    requires buf[j + o] == Empty
    requires forall m :: j <= m < j + o ==> buf[m] != Empty
    ensures forall k :: 0 <= k < |buf| && !(j <= k < j + c) ==> AddAt(buf, j, j + c, obj)[k] == buf[k]
  {
    AddAtWrites(buf, j, j + c, o, obj);
  }

  /** The position (0, 0) falls in the cell starting at slot 0. */
  lemma OriginInFirstCell(g: Grid)
    requires g.Valid()
    ensures CellOf(g, Origin) == 0
  {
    assert GetIndexX(g, 0.0) == 0 && GetIndexY(g, 0.0) == 0;
  }

  /** The counterexample to the as-written bound: a 2x2 grid of capacity 2 whose
      cell 0 holds one entry (CellCapacity-1) and cell 1 holds entry 6. Adding
      index 7 to cell 0 (the cell of the origin) writes the sentinel into
      cell 1's first slot, and entry 6 is lost. */
  lemma AddObjectClobbersNeighbour()
    ensures var g := Grid(2, 2, 1, 1, 2);
      var buf := [5, Empty, 6, Empty, Empty, 0, Empty, 0];
      && WellFormed(g, buf)
      && AddInBounds(g, buf, 0)
      && ScanInBounds(buf, 2, 2 + g.SlotsCount())
      && CellEntries(g, buf, 2) == [6]
      && ScanInBounds(AddObject(g, buf, 0, 7), 2, 2 + g.SlotsCount())
      && CellEntries(g, AddObject(g, buf, 0, 7), 2) == []
  {
    var g := Grid(2, 2, 1, 1, 2);
    var buf := [5, Empty, 6, Empty, Empty, 0, Empty, 0];
    forall t | IsCellStart(g, t)
      ensures Terminated(g, buf, t)
    {
      if t < 4 {
        assert buf[t + 1] == Empty;
      } else {
        assert buf[t] == Empty;
      }
    }
    ScanUpToSentinel(buf, 0, 4, 1);
    ScanUpToSentinel(buf, 2, 6, 1);
    var r := AddObject(g, buf, 0, 7);
    assert r == [5, 7, Empty, Empty, Empty, 0, Empty, 0];
    ScanUpToSentinel(r, 2, 6, 0);
  }

  /** For a cell holding no more than SlotsCount entries the code's scan and
      the bounded scan read the same list. */
  lemma CellEntriesMatchCellList(g: Grid, buf: seq<int>, s: int)
    requires g.Valid() && WellFormed(g, buf) && IsCellStart(g, s)
    requires SentinelOffset(g, buf, s) <= g.SlotsCount()
    ensures ScanInBounds(buf, s, s + g.SlotsCount())
    ensures s + g.capacity <= |buf|
    ensures CellEntries(g, buf, s) == CellList(g, buf, s)
  {
    CellEntriesOfTerminated(g, buf, s);
    CellStartFits(g, s);
    ScanUpToSentinel(buf, s, s + g.capacity, SentinelOffset(g, buf, s));
  }
}

=== FILE: ObjectMapperRadius.dfy ===
/** The radius query of ObjectMapper.h (VisitObjects(position, radius, visitor)):
    the area of cells around the centre cell, clamped so that it never wraps
    onto itself, walked as the centre followed by square rings of growing
    distance, each ring as its bottom, right, top and left edges. */
module ObjectMapperRadius {
  import opened Bodies
  import opened Arith
  import opened ObjectMapper

  /** An unwrapped cell coordinate (column x, row y). */
  datatype Coord = Coord(x: int, y: int)

  /** How many cells the area reaches from the centre in each direction. */
  datatype Extents = Extents(left: int, right: int, bottom: int, top: int) {
    predicate NonNegative() {
      0 <= left && 0 <= right && 0 <= bottom && 0 <= top
    }
  }

  function MinInt(a: int, b: int): int {
    if a <= b then a else b
  }

  function MaxInt(a: int, b: int): int {
    if a <= b then b else a
  }

  function AbsInt(a: int): int {
    if a < 0 then -a else a
  }

  /*********************************************************************
   * Extents
   *********************************************************************/

  /** One axis of the area: the cells below and above the centre, replaced by
      (Size/2, Size - Size/2 - 1) when together they would reach Size cells. */
  function Span(size: int, below: int, above: int): (r: (int, int))
    requires size > 0
    ensures 0 <= below && 0 <= above ==> 0 <= r.0 && 0 <= r.1
    ensures r.0 + r.1 <= size - 1
    ensures below + above < size ==> r == (below, above)
  {
    if below + above >= size then (size / 2, size - size / 2 - 1) else (below, above)
  }

  /** left, right, bottom and top of the radius query. */
  function GetExtents(g: Grid, p: Vec2, radius: real): Extents
    requires g.Valid()
  {
    var cx, cy := GetIndexX(g, p.x), GetIndexY(g, p.y);
    var h := Span(g.sizeX, cx - GetIndexX(g, p.x - radius), GetIndexX(g, p.x + radius) - cx);
    var v := Span(g.sizeY, cy - GetIndexY(g, p.y - radius), GetIndexY(g, p.y + radius) - cy);
    Extents(h.0, h.1, v.0, v.1)
  }

  /** For a non-negative radius all four extents are non-negative and the area
      spans at most SizeX columns and SizeY rows, clamped or not. */
  lemma ExtentsBounds(g: Grid, p: Vec2, radius: real)
    requires g.Valid() && radius >= 0.0
    ensures var e := GetExtents(g, p, radius);
      e.NonNegative() && e.left + e.right <= g.sizeX - 1 && e.bottom + e.top <= g.sizeY - 1
  {
    GetIndexXMonotone(g, p.x - radius, p.x);
    GetIndexXMonotone(g, p.x, p.x + radius);
    GetIndexYMonotone(g, p.y - radius, p.y);
    GetIndexYMonotone(g, p.y, p.y + radius);
  }

  /** index_radius: the number of rings walked. */
  function IndexRadius(e: Extents): (r: int)
    ensures e.left <= r && e.right <= r && e.bottom <= r && e.top <= r
    ensures r == e.left || r == e.right || r == e.bottom || r == e.top
  {
    MaxInt(MaxInt(e.left, e.right), MaxInt(e.bottom, e.top))
  }

  /*********************************************************************
   * Rings
   *********************************************************************/

  /** Row y from column x0 up to x1 (inclusive), left to right. */
  function RowRight(y: int, x0: int, x1: int): seq<Coord> {
    seq(if x0 <= x1 then x1 - x0 + 1 else 0, i => Coord(x0 + i, y))
  }

  /** Column x from row y0 up to y1 (inclusive), bottom to top. */
  function ColumnUp(x: int, y0: int, y1: int): seq<Coord> {
    seq(if y0 <= y1 then y1 - y0 + 1 else 0, i => Coord(x, y0 + i))
  }

  /** Row y from column x1 down to x0 (inclusive), right to left. */
  function RowLeft(y: int, x1: int, x0: int): seq<Coord> {
    seq(if x0 <= x1 then x1 - x0 + 1 else 0, i => Coord(x1 - i, y))
  }

  /** Column x from row y1 down to y0 (inclusive), top to bottom. */
  function ColumnDown(x: int, y1: int, y0: int): seq<Coord> {
    seq(if y0 <= y1 then y1 - y0 + 1 else 0, i => Coord(x, y1 - i))
  }

  /** The first and last column and row of ring d's edges: the ring is cut
      to the area, l = cx - min(d, left), r = cx + min(d, right),
      b = cy - min(d, bottom), t = cy + min(d, top). */
  function RingLeft(cx: int, e: Extents, d: int): int { cx - MinInt(d, e.left) }
  function RingRight(cx: int, e: Extents, d: int): int { cx + MinInt(d, e.right) }
  function RingBottom(cy: int, e: Extents, d: int): int { cy - MinInt(d, e.bottom) }
  function RingTop(cy: int, e: Extents, d: int): int { cy + MinInt(d, e.top) }

  /** Bottom edge, left to right: row cy-d from l, stopping before r when the
      right edge is walked. */
  function BottomEdge(cx: int, cy: int, e: Extents, d: int): (r: seq<Coord>)
    ensures forall k :: 0 <= k < |r| ==> r[k].y == cy - d && RingLeft(cx, e, d) <= r[k].x <= RingRight(cx, e, d)
  {
    var r := RingRight(cx, e, d);
    if d <= e.bottom then RowRight(cy - d, RingLeft(cx, e, d), if d <= e.right then r - 1 else r) else []
  }

  /** Right edge, bottom to top: column cx+d from b, stopping before t when the
      top edge is walked. */
  function RightEdge(cx: int, cy: int, e: Extents, d: int): (r: seq<Coord>)
    ensures forall k :: 0 <= k < |r| ==> r[k].x == cx + d && RingBottom(cy, e, d) <= r[k].y <= RingTop(cy, e, d)
  {
    var t := RingTop(cy, e, d);
    if d <= e.right then ColumnUp(cx + d, RingBottom(cy, e, d), if d <= e.top then t - 1 else t) else []
  }

  /** Top edge, right to left: row cy+d from r, stopping after l when the
      left edge is walked. */
  function TopEdge(cx: int, cy: int, e: Extents, d: int): (r: seq<Coord>)
    ensures forall k :: 0 <= k < |r| ==> r[k].y == cy + d && RingLeft(cx, e, d) <= r[k].x <= RingRight(cx, e, d)
  {
    var l := RingLeft(cx, e, d);
    if d <= e.top then RowLeft(cy + d, RingRight(cx, e, d), if d <= e.left then l + 1 else l) else []
  }

  /** Left edge, top to bottom: column cx-d from t, stopping after b when the
      bottom edge is walked. */
  function LeftEdge(cx: int, cy: int, e: Extents, d: int): (r: seq<Coord>)
    ensures forall k :: 0 <= k < |r| ==> r[k].x == cx - d && RingBottom(cy, e, d) <= r[k].y <= RingTop(cy, e, d)
  {
    var b := RingBottom(cy, e, d);
    if d <= e.left then ColumnDown(cx - d, RingTop(cy, e, d), if d <= e.bottom then b + 1 else b) else []
  }

  /** The cells of ring `d` in visiting order: each edge is walked only when
      the area reaches distance d on that side. */
  function Ring(cx: int, cy: int, e: Extents, d: int): seq<Coord> {
    BottomEdge(cx, cy, e, d) + RightEdge(cx, cy, e, d) + TopEdge(cx, cy, e, d) + LeftEdge(cx, cy, e, d)
  }

  /** Rings d, d+1, ..., last. */
  function Rings(cx: int, cy: int, e: Extents, d: int, last: int): seq<Coord>
    decreases last - d + 1
  {
    if d > last then [] else Ring(cx, cy, e, d) + Rings(cx, cy, e, d + 1, last)
  }

  /** Every cell coordinate the radius query visits, in order: the centre,
      then rings 1 .. index_radius. */
  function Traversal(cx: int, cy: int, e: Extents): seq<Coord> {
    [Coord(cx, cy)] + Rings(cx, cy, e, 1, IndexRadius(e))
  }

  /** The area: columns cx-left .. cx+right, rows cy-bottom .. cy+top. */
  predicate InArea(cx: int, cy: int, e: Extents, q: Coord) {
    cx - e.left <= q.x <= cx + e.right && cy - e.bottom <= q.y <= cy + e.top
  }

  /** Ring number of a coordinate: its Chebyshev distance from the centre. */
  function Distance(cx: int, cy: int, q: Coord): int {
    MaxInt(AbsInt(q.x - cx), AbsInt(q.y - cy))
  }

  predicate NoDup<T(==)>(s: seq<T>) {
    forall i, j :: 0 <= i < j < |s| ==> s[i] != s[j]
  }

  lemma NoDupConcat<T>(a: seq<T>, b: seq<T>)
    requires NoDup(a) && NoDup(b)
    requires forall q :: q in a ==> q !in b
    ensures NoDup(a + b)
  {
    forall i, j | 0 <= i < j < |a + b|
      ensures (a + b)[i] != (a + b)[j]
    {
      if i < |a| && |a| <= j {
        assert (a + b)[i] in a && (a + b)[j] in b;
      }
    }
  }

  lemma RowRightMembers(y: int, lo: int, hi: int)
    ensures forall q :: q in RowRight(y, lo, hi) <==> q.y == y && lo <= q.x <= hi
    ensures NoDup(RowRight(y, lo, hi))
  {
    forall q: Coord | q.y == y && lo <= q.x <= hi
      ensures q in RowRight(y, lo, hi)
    {
      assert RowRight(y, lo, hi)[q.x - lo] == q;
    }
  }

  lemma RowLeftMembers(y: int, hi: int, lo: int)
    ensures forall q :: q in RowLeft(y, hi, lo) <==> q.y == y && lo <= q.x <= hi
    ensures NoDup(RowLeft(y, hi, lo))
  {
    forall q: Coord | q.y == y && lo <= q.x <= hi
      ensures q in RowLeft(y, hi, lo)
    {
      assert RowLeft(y, hi, lo)[hi - q.x] == q;
    }
  }

  lemma ColumnUpMembers(x: int, lo: int, hi: int)
    ensures forall q :: q in ColumnUp(x, lo, hi) <==> q.x == x && lo <= q.y <= hi
    ensures NoDup(ColumnUp(x, lo, hi))
  {
    forall q: Coord | q.x == x && lo <= q.y <= hi
      ensures q in ColumnUp(x, lo, hi)
    {
      assert ColumnUp(x, lo, hi)[q.y - lo] == q;
    }
  }

  lemma ColumnDownMembers(x: int, hi: int, lo: int)
    ensures forall q :: q in ColumnDown(x, hi, lo) <==> q.x == x && lo <= q.y <= hi
    ensures NoDup(ColumnDown(x, hi, lo))
  {
    forall q: Coord | q.x == x && lo <= q.y <= hi
      ensures q in ColumnDown(x, hi, lo)
    {
      assert ColumnDown(x, hi, lo)[hi - q.y] == q;
    }
  }

  /** The coordinates each edge loop of ring d walks. */
  predicate OnBottomEdge(cx: int, cy: int, e: Extents, d: int, q: Coord) {
    d <= e.bottom && q.y == cy - d && RingLeft(cx, e, d) <= q.x
    && (if d <= e.right then q.x < RingRight(cx, e, d) else q.x <= RingRight(cx, e, d))
  }

  predicate OnRightEdge(cx: int, cy: int, e: Extents, d: int, q: Coord) {
    d <= e.right && q.x == cx + d && RingBottom(cy, e, d) <= q.y
    && (if d <= e.top then q.y < RingTop(cy, e, d) else q.y <= RingTop(cy, e, d))
  }

  predicate OnTopEdge(cx: int, cy: int, e: Extents, d: int, q: Coord) {
    d <= e.top && q.y == cy + d && q.x <= RingRight(cx, e, d)
    && (if d <= e.left then RingLeft(cx, e, d) < q.x else RingLeft(cx, e, d) <= q.x)
  }

  predicate OnLeftEdge(cx: int, cy: int, e: Extents, d: int, q: Coord) {
    d <= e.left && q.x == cx - d && q.y <= RingTop(cy, e, d)
    && (if d <= e.bottom then RingBottom(cy, e, d) < q.y else RingBottom(cy, e, d) <= q.y)
  }

  /** The four edges split the area's cells at distance d between them, each
      cell on exactly one edge. */
  lemma EdgesPartitionRing(cx: int, cy: int, e: Extents, d: int, q: Coord)
    requires e.NonNegative() && d >= 1
    ensures OnBottomEdge(cx, cy, e, d, q) || OnRightEdge(cx, cy, e, d, q)
         || OnTopEdge(cx, cy, e, d, q) || OnLeftEdge(cx, cy, e, d, q)
        <==> InArea(cx, cy, e, q) && Distance(cx, cy, q) == d
    ensures OnBottomEdge(cx, cy, e, d, q) ==>
      !OnRightEdge(cx, cy, e, d, q) && !OnTopEdge(cx, cy, e, d, q) && !OnLeftEdge(cx, cy, e, d, q)
    ensures OnRightEdge(cx, cy, e, d, q) ==> !OnTopEdge(cx, cy, e, d, q) && !OnLeftEdge(cx, cy, e, d, q)
    ensures OnTopEdge(cx, cy, e, d, q) ==> !OnLeftEdge(cx, cy, e, d, q)
  {
  }

  lemma BottomEdgeMembers(cx: int, cy: int, e: Extents, d: int)
    ensures forall q :: q in BottomEdge(cx, cy, e, d) <==> OnBottomEdge(cx, cy, e, d, q)
    ensures NoDup(BottomEdge(cx, cy, e, d))
  {
    var r := RingRight(cx, e, d);
    RowRightMembers(cy - d, RingLeft(cx, e, d), if d <= e.right then r - 1 else r);
  }

  lemma RightEdgeMembers(cx: int, cy: int, e: Extents, d: int)
    ensures forall q :: q in RightEdge(cx, cy, e, d) <==> OnRightEdge(cx, cy, e, d, q)
    ensures NoDup(RightEdge(cx, cy, e, d))
  {
    var t := RingTop(cy, e, d);
    ColumnUpMembers(cx + d, RingBottom(cy, e, d), if d <= e.top then t - 1 else t);
  }

  lemma TopEdgeMembers(cx: int, cy: int, e: Extents, d: int)
    ensures forall q :: q in TopEdge(cx, cy, e, d) <==> OnTopEdge(cx, cy, e, d, q)
    ensures NoDup(TopEdge(cx, cy, e, d))
  {
    var l := RingLeft(cx, e, d);
    RowLeftMembers(cy + d, RingRight(cx, e, d), if d <= e.left then l + 1 else l);
  }

  lemma LeftEdgeMembers(cx: int, cy: int, e: Extents, d: int)
    ensures forall q :: q in LeftEdge(cx, cy, e, d) <==> OnLeftEdge(cx, cy, e, d, q)
    ensures NoDup(LeftEdge(cx, cy, e, d))
  {
    var b := RingBottom(cy, e, d);
    ColumnDownMembers(cx - d, RingTop(cy, e, d), if d <= e.bottom then b + 1 else b);
  }

  /** Ring d >= 1 holds exactly the area's cells at distance d, each once. */
  lemma RingMembers(cx: int, cy: int, e: Extents, d: int)
    requires e.NonNegative() && d >= 1
    ensures forall q :: q in Ring(cx, cy, e, d) <==> InArea(cx, cy, e, q) && Distance(cx, cy, q) == d
    ensures NoDup(Ring(cx, cy, e, d))
  {
    var bottom, right := BottomEdge(cx, cy, e, d), RightEdge(cx, cy, e, d);
    var top, left := TopEdge(cx, cy, e, d), LeftEdge(cx, cy, e, d);
    BottomEdgeMembers(cx, cy, e, d);
    RightEdgeMembers(cx, cy, e, d);
    TopEdgeMembers(cx, cy, e, d);
    LeftEdgeMembers(cx, cy, e, d);
    forall q
      ensures OnBottomEdge(cx, cy, e, d, q) || OnRightEdge(cx, cy, e, d, q)
           || OnTopEdge(cx, cy, e, d, q) || OnLeftEdge(cx, cy, e, d, q)
          <==> InArea(cx, cy, e, q) && Distance(cx, cy, q) == d
      ensures OnBottomEdge(cx, cy, e, d, q) ==>
        !OnRightEdge(cx, cy, e, d, q) && !OnTopEdge(cx, cy, e, d, q) && !OnLeftEdge(cx, cy, e, d, q)
      ensures OnRightEdge(cx, cy, e, d, q) ==> !OnTopEdge(cx, cy, e, d, q) && !OnLeftEdge(cx, cy, e, d, q)
      ensures OnTopEdge(cx, cy, e, d, q) ==> !OnLeftEdge(cx, cy, e, d, q)
    {
      EdgesPartitionRing(cx, cy, e, d, q);
    }
    NoDupConcat(bottom, right);
    NoDupConcat(bottom + right, top);
    NoDupConcat(bottom + right + top, left);
  }

  /** Rings d .. last hold exactly the area's cells at distances d .. last, each once. */
  lemma {:induction false} RingsMembers(cx: int, cy: int, e: Extents, d: int, last: int)
    requires e.NonNegative() && d >= 1
    ensures forall q :: q in Rings(cx, cy, e, d, last) <==>
      InArea(cx, cy, e, q) && d <= Distance(cx, cy, q) <= last
    ensures NoDup(Rings(cx, cy, e, d, last))
    decreases last - d + 1
  {
    if d <= last {
      RingMembers(cx, cy, e, d);
      RingsMembers(cx, cy, e, d + 1, last);
      NoDupConcat(Ring(cx, cy, e, d), Rings(cx, cy, e, d + 1, last));
    }
  }

  /** The traversal visits every cell of the area exactly once and nothing else. */
  lemma TraversalCoversArea(cx: int, cy: int, e: Extents)
    requires e.NonNegative()
    ensures forall q :: q in Traversal(cx, cy, e) <==> InArea(cx, cy, e, q)
    ensures NoDup(Traversal(cx, cy, e))
  {
    RingsMembers(cx, cy, e, 1, IndexRadius(e));
    NoDupConcat([Coord(cx, cy)], Rings(cx, cy, e, 1, IndexRadius(e)));
  }

  /** Every coordinate of ring d is at distance d. */
  lemma RingDistance(cx: int, cy: int, e: Extents, d: int)
    requires e.NonNegative() && d >= 1
    ensures forall i :: 0 <= i < |Ring(cx, cy, e, d)| ==> Distance(cx, cy, Ring(cx, cy, e, d)[i]) == d
  {
    RingMembers(cx, cy, e, d);
    forall i | 0 <= i < |Ring(cx, cy, e, d)|
      ensures Distance(cx, cy, Ring(cx, cy, e, d)[i]) == d
    {
      assert Ring(cx, cy, e, d)[i] in Ring(cx, cy, e, d);
    }
  }

  /** Every coordinate of rings d .. last is at distance d or more. */
  lemma RingsFarEnough(cx: int, cy: int, e: Extents, d: int, last: int)
    requires e.NonNegative() && d >= 1
    ensures forall i :: 0 <= i < |Rings(cx, cy, e, d, last)| ==> d <= Distance(cx, cy, Rings(cx, cy, e, d, last)[i])
  {
    var s := Rings(cx, cy, e, d, last);
    RingsMembers(cx, cy, e, d, last);
    forall i | 0 <= i < |s|
      ensures d <= Distance(cx, cy, s[i])
    {
      assert s[i] in s;
    }
  }

  /** The coordinates come in non-decreasing distance from the centre. */
  predicate OrderedByDistance(cx: int, cy: int, s: seq<Coord>) {
    forall i, j :: 0 <= i < j < |s| ==> Distance(cx, cy, s[i]) <= Distance(cx, cy, s[j])
  }

  lemma OrderedConcat(cx: int, cy: int, a: seq<Coord>, b: seq<Coord>, d: int)
    requires forall i :: 0 <= i < |a| ==> Distance(cx, cy, a[i]) <= d
    requires forall i :: 0 <= i < |b| ==> d <= Distance(cx, cy, b[i])
    requires OrderedByDistance(cx, cy, a) && OrderedByDistance(cx, cy, b)
    ensures OrderedByDistance(cx, cy, a + b)
  {
    forall i, j | 0 <= i < j < |a + b|
      ensures Distance(cx, cy, (a + b)[i]) <= Distance(cx, cy, (a + b)[j])
    {
      if j < |a| {
        assert (a + b)[i] == a[i] && (a + b)[j] == a[j];
      } else if i < |a| {
        assert (a + b)[i] == a[i] && (a + b)[j] == b[j - |a|];
      } else {
        assert (a + b)[i] == b[i - |a|] && (a + b)[j] == b[j - |a|];
      }
    }
  }

  /** The rings come in order of distance. */
  lemma {:induction false} RingsOrdered(cx: int, cy: int, e: Extents, d: int, last: int)
    requires e.NonNegative() && d >= 1
    ensures OrderedByDistance(cx, cy, Rings(cx, cy, e, d, last))
    decreases last - d + 1
  {
    if d <= last {
      RingDistance(cx, cy, e, d);
      RingsFarEnough(cx, cy, e, d + 1, last);
      RingsOrdered(cx, cy, e, d + 1, last);
      OrderedConcat(cx, cy, Ring(cx, cy, e, d), Rings(cx, cy, e, d + 1, last), d);
    }
  }

  /** The centre comes first and the rings follow in increasing distance. */
  lemma TraversalOrdered(cx: int, cy: int, e: Extents)
    requires e.NonNegative()
    ensures Traversal(cx, cy, e)[0] == Coord(cx, cy)
    ensures OrderedByDistance(cx, cy, Traversal(cx, cy, e))
  {
    var rings := Rings(cx, cy, e, 1, IndexRadius(e));
    RingsOrdered(cx, cy, e, 1, IndexRadius(e));
    RingsFarEnough(cx, cy, e, 1, IndexRadius(e));
    OrderedConcat(cx, cy, [Coord(cx, cy)], rings, 0);
  }

  /*********************************************************************
   * Wrapped cells
   *********************************************************************/

  /** Two values agreeing modulo n and closer than n are equal. */
  lemma SameResidueClose(a: int, b: int, n: int)
    requires n > 0 && a % n == b % n && AbsInt(a - b) < n
    ensures a == b
  {
    var qa, qb := a / n, b / n;
    assert a - b == (qa - qb) * n;
    if qa > qb {
      MulAtLeast(qa - qb, n);
    } else if qb > qa {
      MulAtLeast(qb - qa, n);
    }
  }

  /** The cell starts a coordinate sequence names. */
  function Cells(g: Grid, s: seq<Coord>): (cells: seq<int>)
    requires g.Valid()
    ensures |cells| == |s|
    ensures forall i :: 0 <= i < |s| ==> IsCellStart(g, cells[i])
  {
    seq(|s|, i requires 0 <= i < |s| => GetIndex(g, s[i].x, s[i].y))
  }

  /** Inside an area no wider than the grid, distinct coordinates name distinct
      cells, so the traversal never visits a wrapped cell twice. */
  lemma TraversalCellsDistinct(g: Grid, cx: int, cy: int, e: Extents)
    requires g.Valid() && e.NonNegative()
    requires e.left + e.right <= g.sizeX - 1 && e.bottom + e.top <= g.sizeY - 1
    ensures NoDup(Cells(g, Traversal(cx, cy, e)))
  {
    var s := Traversal(cx, cy, e);
    var cells := Cells(g, s);
    TraversalCoversArea(cx, cy, e);
    forall i, j | 0 <= i < j < |cells|
      ensures cells[i] != cells[j]
    {
      assert s[i] in s && s[j] in s;
      if cells[i] == cells[j] {
        GetIndexSameCell(g, s[i].x, s[i].y, s[j].x, s[j].y);
        SameResidueClose(s[i].x, s[j].x, g.sizeX);
        SameResidueClose(s[i].y, s[j].y, g.sizeY);
      }
    }
  }

  /** The cells the radius query visits, in order. */
  function RadiusCells(g: Grid, p: Vec2, radius: real): (cells: seq<int>)
    requires g.Valid()
    ensures 0 < |cells| && cells[0] == CellOf(g, p)
    ensures forall k :: 0 <= k < |cells| ==> IsCellStart(g, cells[k])
  {
    Cells(g, Traversal(GetIndexX(g, p.x), GetIndexY(g, p.y), GetExtents(g, p, radius)))
  }

  /** A coordinate between c - below and c + above has a representative of
      the same residue inside the (possibly clamped) span. */
  lemma AxisRepresentative(size: int, c: int, below: int, above: int, v: int) returns (w: int)
    requires size > 0 && 0 <= below && 0 <= above && c - below <= v <= c + above
    ensures c - Span(size, below, above).0 <= w <= c + Span(size, below, above).1
    ensures w % size == v % size
  {
    var sp := Span(size, below, above);
    if below + above < size {
      w := v;
    } else {
      var lo := c - sp.0;
      var k := (v - lo) % size;
      w := lo + k;
      assert v - lo == ((v - lo) / size) * size + k;
      assert v == ((v - lo) / size) * size + w;
      assert w == (lo / size) * size + lo % size + k;
      var qv := (v - lo) / size;
      ModUnique(v, qv + w / size, w % size, size);
    }
  }

  /** Every position within `radius` on both axes lies in a visited cell. */
  lemma RadiusCoversNearby(g: Grid, p: Vec2, radius: real, q: Vec2)
    requires g.Valid() && radius >= 0.0
    requires p.x - radius <= q.x <= p.x + radius && p.y - radius <= q.y <= p.y + radius
    ensures CellOf(g, q) in RadiusCells(g, p, radius)
  {
    var cx, cy := GetIndexX(g, p.x), GetIndexY(g, p.y);
    var e := GetExtents(g, p, radius);
    ExtentsBounds(g, p, radius);
    var w := RadiusWitness(g, p, radius, q);
    var s := Traversal(cx, cy, e);
    TraversalCoversArea(cx, cy, e);
    assert w in s;
    var i :| 0 <= i < |s| && s[i] == w;
    assert RadiusCells(g, p, radius)[i] == CellOf(g, q);
  }

  /** A coordinate of the area around p's cell that maps to q's cell. */
  lemma RadiusWitness(g: Grid, p: Vec2, radius: real, q: Vec2) returns (w: Coord)
    requires g.Valid() && radius >= 0.0
    requires p.x - radius <= q.x <= p.x + radius && p.y - radius <= q.y <= p.y + radius
    ensures InArea(GetIndexX(g, p.x), GetIndexY(g, p.y), GetExtents(g, p, radius), w)
    ensures GetIndex(g, w.x, w.y) == CellOf(g, q)
  {
    var wx := AxisWitnessX(g, p, radius, q);
    var wy := AxisWitnessY(g, p, radius, q);
    w := Coord(wx, wy);
    GetIndexSameCell(g, wx, wy, GetIndexX(g, q.x), GetIndexY(g, q.y));
  }

  /** The column of that coordinate. */
  lemma AxisWitnessX(g: Grid, p: Vec2, radius: real, q: Vec2) returns (wx: int)
    requires g.Valid() && radius >= 0.0
    requires p.x - radius <= q.x <= p.x + radius
    ensures GetIndexX(g, p.x) - GetExtents(g, p, radius).left <= wx <= GetIndexX(g, p.x) + GetExtents(g, p, radius).right
    ensures wx % g.sizeX == GetIndexX(g, q.x) % g.sizeX
  {
    var cx := GetIndexX(g, p.x);
    GetIndexXMonotone(g, p.x - radius, q.x);
    GetIndexXMonotone(g, q.x, p.x + radius);
    GetIndexXMonotone(g, p.x - radius, p.x);
    GetIndexXMonotone(g, p.x, p.x + radius);
    wx := AxisRepresentative(g.sizeX, cx, cx - GetIndexX(g, p.x - radius), GetIndexX(g, p.x + radius) - cx, GetIndexX(g, q.x));
  }

  /** The row of that coordinate. */
  lemma AxisWitnessY(g: Grid, p: Vec2, radius: real, q: Vec2) returns (wy: int)
    requires g.Valid() && radius >= 0.0
    requires p.y - radius <= q.y <= p.y + radius
    ensures GetIndexY(g, p.y) - GetExtents(g, p, radius).bottom <= wy <= GetIndexY(g, p.y) + GetExtents(g, p, radius).top
    ensures wy % g.sizeY == GetIndexY(g, q.y) % g.sizeY
  {
    var cy := GetIndexY(g, p.y);
    GetIndexYMonotone(g, p.y - radius, q.y);
    GetIndexYMonotone(g, q.y, p.y + radius);
    GetIndexYMonotone(g, p.y - radius, p.y);
    GetIndexYMonotone(g, p.y, p.y + radius);
    wy := AxisRepresentative(g.sizeY, cy, cy - GetIndexY(g, p.y - radius), GetIndexY(g, p.y + radius) - cy, GetIndexY(g, q.y));
  }

  /*********************************************************************
   * The radius visit
   *********************************************************************/

  /** Every cell's read loop stays inside the buffer. */
  ghost predicate Readable(g: Grid, buf: seq<int>)
    requires g.Valid()
  {
    |buf| == g.BufferLength()
    && forall s :: IsCellStart(g, s) ==> ScanInBounds(buf, s, s + g.SlotsCount())
  }

  /** The read loop of each of the given cells stays inside the buffer. */
  ghost predicate ReadableCells(g: Grid, buf: seq<int>, cells: seq<int>)
    requires g.Valid()
  {
    forall i :: 0 <= i < |cells| ==>
      0 <= cells[i] <= |buf| && ScanInBounds(buf, cells[i], cells[i] + g.SlotsCount())
  }

  /** The entries of the first n of the given cells, cell after cell. */
  ghost function EntriesUpTo(g: Grid, buf: seq<int>, cells: seq<int>, n: int): seq<int>
    requires g.Valid() && ReadableCells(g, buf, cells) && 0 <= n <= |cells|
    decreases n
  {
    if n == 0 then []
    else EntriesUpTo(g, buf, cells, n - 1) + CellEntries(g, buf, cells[n - 1])
  }

  /** The entries of all the given cells. */
  ghost function Entries(g: Grid, buf: seq<int>, cells: seq<int>): seq<int>
    requires g.Valid() && ReadableCells(g, buf, cells)
  {
    EntriesUpTo(g, buf, cells, |cells|)
  }

  /** Visits the given cells in order with VisitObjects and stops at the
      first cell whose visit returns true. `visited` counts the visitor calls:
      the visitor sees exactly the first `visited` entries of the cells. */
  method VisitCells(g: Grid, buf: seq<int>, cells: seq<int>, visitor: int -> bool)
      returns (stopped: bool, visited: nat)
    requires g.Valid() && ReadableCells(g, buf, cells)
    ensures StopsAtFirstHit(Entries(g, buf, cells), visitor, stopped, visited)
  {
    var i := 0;
    stopped, visited := false, 0;
    while i < |cells| && !stopped
      invariant 0 <= i <= |cells|
      invariant !stopped ==> NoHitUpTo(g, buf, cells, i, visitor, visited)
      invariant stopped ==> StopsAtFirstHit(Entries(g, buf, cells), visitor, true, visited)
    {
      var n;
      stopped, n := VisitCell(g, buf, cells, i, visited, visitor);
      visited := visited + n;
      i := i + 1;
    }
    if !stopped {
      NoHitAll(g, buf, cells, visitor, visited);
    }
  }

  /** One pass of the cell loop: visits cell i after `visited` entries of
      the cells before it, none of them a hit. */
  method VisitCell(g: Grid, buf: seq<int>, cells: seq<int>, i: int, visited: nat, visitor: int -> bool)
      returns (hit: bool, n: nat)
    requires g.Valid() && ReadableCells(g, buf, cells) && 0 <= i < |cells|
    requires NoHitUpTo(g, buf, cells, i, visitor, visited)
    ensures hit ==> StopsAtFirstHit(Entries(g, buf, cells), visitor, true, visited + n)
    ensures !hit ==> NoHitUpTo(g, buf, cells, i + 1, visitor, visited + n)
  {
    hit, n := VisitObjects(g, buf, cells[i], visitor);
    if hit {
      HitStopsVisit(g, buf, cells, i, visited, n, visitor);
    } else {
      NoHitStep(g, buf, cells, i, visited, n, visitor);
    }
  }

  /** The visitor has seen the `visited` entries of the first i cells and
      returned false on every one. */
  ghost predicate NoHitUpTo(g: Grid, buf: seq<int>, cells: seq<int>, i: int, visitor: int -> bool, visited: int)
    requires g.Valid() && ReadableCells(g, buf, cells) && 0 <= i <= |cells|
  {
    && visited == |EntriesUpTo(g, buf, cells, i)|
    && forall k :: 0 <= k < visited ==> !visitor(EntriesUpTo(g, buf, cells, i)[k])
  }

  /** A cell visit without a hit extends the entries seen without a hit. */
  lemma NoHitStep(g: Grid, buf: seq<int>, cells: seq<int>, i: int, visited: int, n: int, visitor: int -> bool)
    requires g.Valid() && ReadableCells(g, buf, cells) && 0 <= i < |cells|
    requires NoHitUpTo(g, buf, cells, i, visitor, visited)
    requires StopsAtFirstHit(CellEntries(g, buf, cells[i]), visitor, false, n)
    ensures NoHitUpTo(g, buf, cells, i + 1, visitor, visited + n)
  {
    NoHitConcat(EntriesUpTo(g, buf, cells, i), CellEntries(g, buf, cells[i]), visitor);
  }

  /** Once every cell is visited without a hit, the visit returns false
      after calling the visitor on every entry. */
  lemma NoHitAll(g: Grid, buf: seq<int>, cells: seq<int>, visitor: int -> bool, visited: int)
    requires g.Valid() && ReadableCells(g, buf, cells)
    requires NoHitUpTo(g, buf, cells, |cells|, visitor, visited)
    ensures StopsAtFirstHit(Entries(g, buf, cells), visitor, false, visited)
  {
  }

  lemma NoHitConcat(a: seq<int>, b: seq<int>, visitor: int -> bool)
    requires forall k :: 0 <= k < |a| ==> !visitor(a[k])
    requires forall k :: 0 <= k < |b| ==> !visitor(b[k])
    ensures forall k :: 0 <= k < |a + b| ==> !visitor((a + b)[k])
  {
    forall k | 0 <= k < |a + b|
      ensures !visitor((a + b)[k])
    {
      if k >= |a| {
        assert (a + b)[k] == b[k - |a|];
      }
    }
  }

  /** A hit at the n-th entry of cell i, after no hit in the cells before it,
      is the first hit among all the entries. */
  lemma HitStopsVisit(g: Grid, buf: seq<int>, cells: seq<int>, i: int, before: int, n: int, visitor: int -> bool)
    requires g.Valid() && ReadableCells(g, buf, cells) && 0 <= i < |cells|
    requires NoHitUpTo(g, buf, cells, i, visitor, before)
    requires StopsAtFirstHit(CellEntries(g, buf, cells[i]), visitor, true, n)
    ensures StopsAtFirstHit(Entries(g, buf, cells), visitor, true, before + n)
  {
    var prefix, here := EntriesUpTo(g, buf, cells, i), CellEntries(g, buf, cells[i]);
    EntriesPrefix(g, buf, cells, i + 1);
    FirstHitInPrefix(prefix, here, Entries(g, buf, cells), n, visitor);
  }

  /** The first hit of the last visited cell is the first hit among all the
      entries of which the visited ones are a prefix. */
  lemma FirstHitInPrefix(before: seq<int>, here: seq<int>, all: seq<int>, n: int, visitor: int -> bool)
    requires before + here <= all && 1 <= n <= |here| && visitor(here[n - 1])
    requires forall k :: 0 <= k < |before| ==> !visitor(before[k])
    requires forall k :: 0 <= k < n - 1 ==> !visitor(here[k])
    ensures |before| + n <= |all| && visitor(all[|before| + n - 1])
    ensures forall k :: 0 <= k < |before| + n - 1 ==> !visitor(all[k])
    ensures exists k :: 0 <= k < |all| && visitor(all[k])
  {
    assert all[|before| + n - 1] == (before + here)[|before| + n - 1];
    forall k | 0 <= k < |before| + n - 1
      ensures !visitor(all[k])
    {
      assert all[k] == (before + here)[k];
      if k >= |before| {
        assert all[k] == here[k - |before|];
      }
    }
  }

  /** VisitObjects(position, radius, visitor): the centre cell, then the rings,
      stopping at the first visitor call that returns true. */
  method VisitRadius(g: Grid, buf: seq<int>, position: Vec2, radius: real, visitor: int -> bool)
      returns (stopped: bool, visited: nat)
    requires g.Valid() && Readable(g, buf)
    ensures StopsAtFirstHit(Entries(g, buf, RadiusCells(g, position, radius)), visitor, stopped, visited)
  {
    var cells := RadiusCells(g, position, radius);
    assert ReadableCells(g, buf, cells) by {
      forall i | 0 <= i < |cells|
        ensures 0 <= cells[i] <= |buf| && ScanInBounds(buf, cells[i], cells[i] + g.SlotsCount())
      {
        assert IsCellStart(g, cells[i]);
      }
    }
    stopped, visited := VisitCells(g, buf, cells, visitor);
  }

  /** An entry of the k-th cell is among the entries of all the cells. */
  lemma CellInEntries(g: Grid, buf: seq<int>, cells: seq<int>, k: int, x: int)
    requires g.Valid() && ReadableCells(g, buf, cells) && 0 <= k < |cells|
    requires x in CellEntries(g, buf, cells[k])
    ensures x in Entries(g, buf, cells)
  {
    EntriesPrefix(g, buf, cells, k + 1);
    assert x in EntriesUpTo(g, buf, cells, k + 1);
  }

  /** An entry filed in the cell of a position q inside the radius square
      around p is among the entries the radius visit reads. */
  lemma NearbyEntryVisited(g: Grid, buf: seq<int>, p: Vec2, radius: real, q: Vec2, x: int)
    requires g.Valid() && Readable(g, buf) && radius >= 0.0
    requires p.x - radius <= q.x <= p.x + radius && p.y - radius <= q.y <= p.y + radius
    requires x in CellEntries(g, buf, CellOf(g, q))
    ensures ReadableCells(g, buf, RadiusCells(g, p, radius))
    ensures x in Entries(g, buf, RadiusCells(g, p, radius))
  {
    var cells := RadiusCells(g, p, radius);
    RadiusCoversNearby(g, p, radius, q);
    var k :| 0 <= k < |cells| && cells[k] == CellOf(g, q);
    CellInEntries(g, buf, cells, k, x);
  }

  /** The entries of a prefix of the cells are a prefix of all the entries. */
  lemma {:induction false} EntriesPrefix(g: Grid, buf: seq<int>, cells: seq<int>, n: int)
    requires g.Valid() && ReadableCells(g, buf, cells) && 0 <= n <= |cells|
    ensures EntriesUpTo(g, buf, cells, n) <= Entries(g, buf, cells)
    decreases |cells| - n
  {
    if n < |cells| {
      EntriesPrefix(g, buf, cells, n + 1);
    }
  }
}

=== FILE: Physics.dfy ===
/** The normal-mode rules of Physics::OnRun: how the objects are split
    among the workers of a pass, and how one worker moves each of its
    bodies (velocity from acceleration, mouse braking, position, and the
    border bounce or wrap-around).  The gravity and mouse accelerations
    need vector magnitudes and are an input here. */
module Physics {
  import opened Bodies
  import opened Arith
  import TimeStep

  /** GameManager::MASS_TO_RADIUS: a body's radius is its mass times this. */
  const MassToRadius: real := 0.01
  /** GameManager::COLLISION_PRESERVE (1 - COLLISION_LOSS): velocity kept by a bounce. */
  const CollisionPreserve: real := 0.8
  /** GameManager::DOWN_GRAVITY_ACCELERATION. */
  const DownGravityAcceleration: real := 1.0
  /** GameManager::MOUSE_BRAKING_ACCELERATION. */
  const MouseBrakingAcceleration: real := 1.0

  // ---------------------------------------------------------------------
  // Worker ranges

  /** First object of worker `number` out of `total`: number * n / total
      (non-negative operands, so C++ and Dafny division agree). */
  function RangeBegin(number: int, total: int, n: int): (b: int)
    requires 0 <= number && 0 < total && 0 <= n
    ensures 0 <= b
    ensures number <= total ==> b <= n
  {
    assert number <= total ==> number * n <= total * n by {
      if number <= total { MulMono(number, total, n); }
    }
    if number <= total then
      DivMono(number * n, total * n, total);
      ModMultipleOffset(n, 0, total);
      assert (n * total + 0) / total == n;
      number * n / total
    else
      MulNonneg(number, n);
      number * n / total
  }

  /** One past the last object of worker `number`. */
  function RangeEnd(number: int, total: int, n: int): (e: int)
    requires 0 <= number && 0 < total && 0 <= n
    ensures 0 <= e
    ensures number < total ==> e <= n
  {
    RangeBegin(number + 1, total, n)
  }

  /** A worker's range lies inside [0, n) and is not inverted. */
  lemma RangeBounds(number: int, total: int, n: int)
    requires 0 <= number < total && 0 <= n
    ensures 0 <= RangeBegin(number, total, n) <= RangeEnd(number, total, n) <= n
  {
    RangeMonotone(number, number + 1, total, n);
  }

  /** Later workers start no earlier. */
  lemma RangeMonotone(a: int, b: int, total: int, n: int)
    requires 0 <= a <= b && 0 < total && 0 <= n
    ensures RangeBegin(a, total, n) <= RangeBegin(b, total, n)
  {
    MulMono(a, b, n);
    MulNonneg(a, n);
    DivMono(a * n, b * n, total);
  }

  /** The first worker starts at 0 and the last one ends at n. */
  lemma RangesSpan(total: int, n: int)
    requires 0 < total && 0 <= n
    ensures RangeBegin(0, total, n) == 0
    ensures RangeEnd(total - 1, total, n) == n
  {
    ModMultipleOffset(n, 0, total);
    assert total * n == n * total + 0;
  }

  /** Distinct workers have disjoint ranges: a lower worker ends before a
      higher one starts. */
  lemma RangesDisjoint(a: int, b: int, total: int, n: int)
    requires 0 <= a < b < total && 0 <= n
    ensures RangeEnd(a, total, n) <= RangeBegin(b, total, n)
  {
    RangeMonotone(a + 1, b, total, n);
  }

  /** Every object in [0, n) belongs to some worker's range. */
  lemma RangesCover(total: int, n: int, i: int) returns (k: int)
    requires 0 < total && 0 <= i < n
    ensures 0 <= k < total
    ensures RangeBegin(k, total, n) <= i < RangeEnd(k, total, n)
  {
    RangesSpan(total, n);
    k := 0;
    while RangeEnd(k, total, n) <= i
      invariant 0 <= k < total
      invariant RangeBegin(k, total, n) <= i
      decreases total - k
    {
      k := k + 1;
    }
  }

  // ---------------------------------------------------------------------
  // Braking

  /** Mouse braking of one velocity component by `amount`
      (MOUSE_BRAKING_ACCELERATION * step): the magnitude shrinks by the
      amount, stopping at zero, and a zero component is left alone. */
  function Brake(v: real, amount: real): (r: real)
    ensures 0.0 <= amount ==> Abs(r) <= Abs(v)
    ensures 0.0 < v ==> 0.0 <= r
    ensures v < 0.0 ==> r <= 0.0
    ensures Abs(v) <= amount ==> r == 0.0
    ensures 0.0 <= amount < Abs(v) ==> Abs(r) == Abs(v) - amount
  {
    if v != 0.0 then
      var x := Abs(v) - amount;
      if x <= 0.0 then 0.0 else if v > 0.0 then x else -x
    else v
  }

  function BrakeVelocity(v: Vec2, step: real): (r: Vec2)
    ensures 0.0 <= step ==> Abs(r.x) <= Abs(v.x) && Abs(r.y) <= Abs(v.y)
  {
    Vec2(Brake(v.x, MouseBrakingAcceleration * step), Brake(v.y, MouseBrakingAcceleration * step))
  }

  // ---------------------------------------------------------------------
  // Border handling

  /** Position and velocity along one axis. */
  datatype Axis = Axis(p: real, v: real)

  /** Bounce off the borders -lb and +lb of one axis: the low test first,
      then the high test on the (possibly mirrored) result.  Crossing a
      border by less than the span 2lb mirrors the overshoot back inside and
      reverses the velocity, keeping COLLISION_PRESERVE of it. */
  function BounceAxis(a: Axis, lb: real): (r: Axis)
    ensures -lb <= a.p <= lb ==> r == a
    ensures 0.0 <= lb && -3.0 * lb <= a.p < -lb ==> r == Axis(-2.0 * lb - a.p, -a.v * CollisionPreserve)
    ensures 0.0 <= lb && lb < a.p <= 3.0 * lb ==> r == Axis(2.0 * lb - a.p, -a.v * CollisionPreserve)
    ensures 0.0 <= lb && -3.0 * lb <= a.p <= 3.0 * lb ==> -lb <= r.p <= lb
  {
    var a1 := if a.p < -lb then Axis(-lb + (-lb - a.p), -a.v * CollisionPreserve) else a;
    if a1.p > lb then Axis(lb + (lb - a1.p), -a1.v * CollisionPreserve) else a1
  }

  /** Wrap-around on one axis with borders -b and +b: the low test first,
      then the high test; velocity is not involved.  Leaving through one
      side re-enters from the other, shifted by 2b, and a position less
      than one span outside lands back inside. */
  function WrapAxis(p: real, b: real): (r: real)
    ensures -b <= p <= b ==> r == p
    ensures r == p || r == p + 2.0 * b || r == p - 2.0 * b
    ensures 0.0 <= b && -3.0 * b <= p < -b ==> r == p + 2.0 * b
    ensures 0.0 <= b && b < p <= 3.0 * b ==> r == p - 2.0 * b
    ensures 0.0 <= b && -3.0 * b <= p <= 3.0 * b ==> -b <= r <= b
  {
    var p1 := if p < -b then b + (p - (-b)) else p;
    if p1 > b then -b + (p1 - b) else p1
  }

  // ---------------------------------------------------------------------
  // One body in normal mode

  /** The GameManager state a normal-mode pass reads. */
  datatype Settings = Settings(downGravity: bool, braking: bool, borderCollision: bool, borderX: real, borderY: real)

  /** The radius-adjusted border a body of this mass bounces off. */
  function LocalBorder(b: real, mass: real): (l: real)
    ensures 0.0 < mass ==> l < b
    ensures mass == 0.0 ==> l == b
  {
    b - mass * MassToRadius
  }

  /** The write-buffer body after one normal-mode update of `read`.
      `pull` is the mass-gravity plus mouse acceleration, whose magnitudes
      are computed outside the model; down gravity is added here.  The
      write buffer's mass is kept: the pass writes only position and velocity. */
  function Integrate(read: Body, writeMass: real, pull: Vec2, step: real, s: Settings): (w: Body)
    ensures w.mass == writeMass
    ensures !s.borderCollision ==> w.velocity == Velocity(read, pull, step, s)
    ensures s.borderCollision
              && -LocalBorder(s.borderX, read.mass) <= Moved(read, pull, step, s).x <= LocalBorder(s.borderX, read.mass)
              && -LocalBorder(s.borderY, read.mass) <= Moved(read, pull, step, s).y <= LocalBorder(s.borderY, read.mass)
            ==> w.position == Moved(read, pull, step, s) && w.velocity == Velocity(read, pull, step, s)
  {
    var v := Velocity(read, pull, step, s);
    var p := Moved(read, pull, step, s);
    if s.borderCollision then
      var ax := BounceAxis(Axis(p.x, v.x), LocalBorder(s.borderX, read.mass));
      var ay := BounceAxis(Axis(p.y, v.y), LocalBorder(s.borderY, read.mass));
      Body(writeMass, Vec2(ax.p, ay.p), Vec2(ax.v, ay.v))
    else
      Body(writeMass, Vec2(WrapAxis(p.x, s.borderX), WrapAxis(p.y, s.borderY)), v)
  }

  /** Net acceleration: the given pull minus down gravity when it is on. */
  function Acceleration(pull: Vec2, s: Settings): (a: Vec2)
    ensures a.x == pull.x
    ensures !s.downGravity ==> a == pull
    ensures s.downGravity ==> a.y == pull.y - DownGravityAcceleration
  {
    Vec2(pull.x, pull.y - (if s.downGravity then DownGravityAcceleration else 0.0))
  }

  /** Velocity after acceleration and, when on, braking. */
  function Velocity(read: Body, pull: Vec2, step: real, s: Settings): (v: Vec2)
    ensures !s.braking ==> v == read.velocity.Plus(Acceleration(pull, s).Scale(step))
    ensures s.braking && 0.0 <= step ==>
      Abs(v.x) <= Abs(read.velocity.Plus(Acceleration(pull, s).Scale(step)).x) &&
      Abs(v.y) <= Abs(read.velocity.Plus(Acceleration(pull, s).Scale(step)).y)
  {
    var v := read.velocity.Plus(Acceleration(pull, s).Scale(step));
    if s.braking then BrakeVelocity(v, step) else v
  }

  /** Position after moving with the new velocity, before border handling. */
  function Moved(read: Body, pull: Vec2, step: real, s: Settings): Vec2 {
    read.position.Plus(Velocity(read, pull, step, s).Scale(step))
  }

  /** With wrap-around, a body that stayed within one border span of the
      area ends up inside [-b, b] on both axes with its velocity unchanged. */
  lemma WrapKeepsInside(read: Body, writeMass: real, pull: Vec2, step: real, s: Settings)
    requires !s.borderCollision && 0.0 <= s.borderX && 0.0 <= s.borderY
    requires -3.0 * s.borderX <= Moved(read, pull, step, s).x <= 3.0 * s.borderX
    requires -3.0 * s.borderY <= Moved(read, pull, step, s).y <= 3.0 * s.borderY
    ensures -s.borderX <= Integrate(read, writeMass, pull, step, s).position.x <= s.borderX
    ensures -s.borderY <= Integrate(read, writeMass, pull, step, s).position.y <= s.borderY
  {
  }

  /** With border collision, a body that overshot by less than one span
      ends up inside its local borders. */
  lemma BounceKeepsInside(read: Body, writeMass: real, pull: Vec2, step: real, s: Settings)
    requires s.borderCollision
    requires 0.0 <= LocalBorder(s.borderX, read.mass) && 0.0 <= LocalBorder(s.borderY, read.mass)
    requires -3.0 * LocalBorder(s.borderX, read.mass) <= Moved(read, pull, step, s).x <= 3.0 * LocalBorder(s.borderX, read.mass)
    requires -3.0 * LocalBorder(s.borderY, read.mass) <= Moved(read, pull, step, s).y <= 3.0 * LocalBorder(s.borderY, read.mass)
    ensures -LocalBorder(s.borderX, read.mass) <= Integrate(read, writeMass, pull, step, s).position.x <= LocalBorder(s.borderX, read.mass)
    ensures -LocalBorder(s.borderY, read.mass) <= Integrate(read, writeMass, pull, step, s).position.y <= LocalBorder(s.borderY, read.mass)
  {
  }

  // ---------------------------------------------------------------------
  // A whole normal-mode pass

  /** What worker `number` leaves in the write buffer: bodies in its range
      are updated from the read buffer, the rest are untouched. */
  function WorkerPass(read: seq<Body>, write: seq<Body>, number: int, total: int, n: int,
                      pulls: seq<Vec2>, step: real, s: Settings): (w: seq<Body>)
    requires 0 <= number < total && 0 <= n <= |read| && n <= |write| && n <= |pulls|
    ensures |w| == |write|
    ensures forall i :: 0 <= i < |w| && !(RangeBegin(number, total, n) <= i < RangeEnd(number, total, n)) ==> w[i] == write[i]
    ensures forall i :: RangeBegin(number, total, n) <= i < RangeEnd(number, total, n) ==>
      w[i] == Integrate(read[i], write[i].mass, pulls[i], step, s)
  {
    RangeBounds(number, total, n);
    var b := RangeBegin(number, total, n);
    var e := RangeEnd(number, total, n);
    seq(|write|, i requires 0 <= i < |write| =>
      if b <= i < e then Integrate(read[i], write[i].mass, pulls[i], step, s) else write[i])
  }

  /** The write buffer after workers 0 .. k-1 of a pass have run.  The
      workers run in parallel in the source; their ranges are disjoint, so
      running them in order gives the same buffer.  Worker k integrates
      with steps[k]: in pass 1 the step of its own clock, in pass 2 the
      step of the clock it shares with pass-1 worker k (see PairedFrame). */
  function Workers(read: seq<Body>, write: seq<Body>, k: int, total: int, n: int,
                   pulls: seq<Vec2>, steps: seq<real>, s: Settings): (w: seq<Body>)
    requires 0 <= k <= total == |steps| && 0 < total && 0 <= n <= |read| && n <= |write| && n <= |pulls|
    ensures |w| == |write|
    decreases k
  {
    if k == 0 then write
    else WorkerPass(read, Workers(read, write, k - 1, total, n, pulls, steps, s), k - 1, total, n, pulls, steps[k - 1], s)
  }

  /** After the first k workers, every object in the range of a worker
      j < k has been updated once, from the read buffer, with worker j's
      step, and every object from RangeBegin(k) on is untouched. */
  lemma {:induction false} WorkersPrefix(read: seq<Body>, write: seq<Body>, k: int, total: int, n: int,
                                         pulls: seq<Vec2>, steps: seq<real>, s: Settings)
    requires 0 <= k <= total == |steps| && 0 < total && 0 <= n <= |read| && n <= |write| && n <= |pulls|
    ensures forall j, i :: 0 <= j < k && RangeBegin(j, total, n) <= i < RangeEnd(j, total, n) ==>
      Workers(read, write, k, total, n, pulls, steps, s)[i] == Integrate(read[i], write[i].mass, pulls[i], steps[j], s)
    ensures forall i :: RangeBegin(k, total, n) <= i < |write| ==>
      Workers(read, write, k, total, n, pulls, steps, s)[i] == write[i]
    decreases k
  {
    if k > 0 {
      WorkersPrefix(read, write, k - 1, total, n, pulls, steps, s);
      RangeBounds(k - 1, total, n);
      forall j | 0 <= j < k - 1
        ensures RangeEnd(j, total, n) <= RangeBegin(k - 1, total, n)
      {
        RangesDisjoint(j, k - 1, total, n);
      }
    }
  }

  /** A complete pass updates every object in [0, n) once, with the step
      of the worker whose range holds it, and leaves the slots beyond n
      alone (RangesCover gives every object in [0, n) its worker). */
  lemma PassUpdatesAll(read: seq<Body>, write: seq<Body>, total: int, n: int,
                       pulls: seq<Vec2>, steps: seq<real>, s: Settings)
    requires 0 < total == |steps| && 0 <= n <= |read| && n <= |write| && n <= |pulls|
    ensures forall j, i :: 0 <= j < total && RangeBegin(j, total, n) <= i < RangeEnd(j, total, n) ==>
      Workers(read, write, total, total, n, pulls, steps, s)[i] == Integrate(read[i], write[i].mass, pulls[i], steps[j], s)
    ensures forall i :: n <= i < |write| ==> Workers(read, write, total, total, n, pulls, steps, s)[i] == write[i]
  {
    WorkersPrefix(read, write, total, total, n, pulls, steps, s);
    RangesSpan(total, n);
  }

  /** With one step shared by every worker, the pass integrates every
      object in [0, n) with that step. */
  lemma PassSharedStep(read: seq<Body>, write: seq<Body>, total: int, n: int,
                       pulls: seq<Vec2>, steps: seq<real>, step: real, s: Settings)
    requires 0 < total == |steps| && 0 <= n <= |read| && n <= |write| && n <= |pulls|
    requires forall j :: 0 <= j < total ==> steps[j] == step
    ensures forall i :: 0 <= i < n ==>
      Workers(read, write, total, total, n, pulls, steps, s)[i] == Integrate(read[i], write[i].mass, pulls[i], step, s)
  {
    PassUpdatesAll(read, write, total, n, pulls, steps, s);
    forall i | 0 <= i < n
      ensures Workers(read, write, total, total, n, pulls, steps, s)[i] == Integrate(read[i], write[i].mass, pulls[i], step, s)
    {
      var j := RangesCover(total, n, i);
    }
  }

  // ---------------------------------------------------------------------
  // Clocks shared by the two passes

  /** The steps one frame draws from the clock of pass-1 worker k: pass 1
      advances it, then pass-2 worker k advances the same clock again
      (`Hybrid ? Pass1->... : ...`), and `next` is what both leave behind. */
  datatype PairedSteps = PairedSteps(pass1: real, pass2: real, next: TimeStep.Clock)

  function PairedFrame(clock: TimeStep.Clock, actual1: real, actual2: real, strictness: real): (p: PairedSteps)
    ensures p.pass2 == TimeStep.Advance(TimeStep.Clock(p.pass1, clock.debt + actual1 - p.pass1), actual2, strictness).step
    ensures p.next.lastStep == p.pass2
    ensures p.next.debt + p.pass1 + p.pass2 == clock.debt + actual1 + actual2
    ensures 0.0 < actual1 && 0.0 < actual2 ==> 0.0 < p.pass1 && 0.0 < p.pass2
  {
    var t1 := TimeStep.Advance(clock, actual1, strictness);
    var t2 := TimeStep.Advance(t1.next, actual2, strictness);
    assert t1.next == TimeStep.Clock(t1.step, clock.debt + actual1 - t1.step);
    PairedSteps(t1.step, t2.step, t2.next)
  }

  /** A shared clock in one frame behaves as the controller run over two
      frames: the pass-1 and pass-2 steps are its two consecutive steps. */
  lemma PairedFrameIsTwoFrames(clock: TimeStep.Clock, actual1: real, actual2: real, strictness: real)
    ensures var r := TimeStep.RunFrames(clock, [actual1, actual2], strictness);
      var p := PairedFrame(clock, actual1, actual2, strictness);
      r.steps == [p.pass1, p.pass2] && r.last == p.next
  {
    var t1 := TimeStep.Advance(clock, actual1, strictness);
    assert [actual1, actual2][1..] == [actual2];
    assert [actual2][1..] == [];
    assert TimeStep.RunFrames(t1.next, [actual2], strictness).steps == [TimeStep.Advance(t1.next, actual2, strictness).step];
  }

  /** The pass-1 and pass-2 step sequences of a frame, one pair per worker. */
  function FrameSteps(clocks: seq<TimeStep.Clock>, actual1: seq<real>, actual2: seq<real>, strictness: real): (f: seq<PairedSteps>)
    requires |actual1| == |actual2| == |clocks|
    ensures |f| == |clocks|
  {
    seq(|clocks|, k requires 0 <= k < |clocks| => PairedFrame(clocks[k], actual1[k], actual2[k], strictness))
  }

  function Pass1Steps(f: seq<PairedSteps>): (steps: seq<real>)
    ensures |steps| == |f|
  {
    seq(|f|, k requires 0 <= k < |f| => f[k].pass1)
  }

  function Pass2Steps(f: seq<PairedSteps>): (steps: seq<real>)
    ensures |steps| == |f|
  {
    seq(|f|, k requires 0 <= k < |f| => f[k].pass2)
  }

  /** One normal-mode frame of both passes: every body in worker j's range
      is integrated in pass 1 with the first and in pass 2 with the second
      of two consecutive steps of clock j. */
  lemma FramePasses(read1: seq<Body>, write1: seq<Body>, read2: seq<Body>, write2: seq<Body>, total: int, n: int,
                    pulls1: seq<Vec2>, pulls2: seq<Vec2>, clocks: seq<TimeStep.Clock>,
                    actual1: seq<real>, actual2: seq<real>, strictness: real, s: Settings)
    requires 0 < total == |clocks| == |actual1| == |actual2|
    requires 0 <= n <= |read1| && n <= |write1| && n <= |pulls1|
    requires n <= |read2| && n <= |write2| && n <= |pulls2|
    ensures var f := FrameSteps(clocks, actual1, actual2, strictness);
      forall j, i :: 0 <= j < total && RangeBegin(j, total, n) <= i < RangeEnd(j, total, n) ==>
        Workers(read1, write1, total, total, n, pulls1, Pass1Steps(f), s)[i]
          == Integrate(read1[i], write1[i].mass, pulls1[i], TimeStep.RunFrames(clocks[j], [actual1[j], actual2[j]], strictness).steps[0], s)
    ensures var f := FrameSteps(clocks, actual1, actual2, strictness);
      forall j, i :: 0 <= j < total && RangeBegin(j, total, n) <= i < RangeEnd(j, total, n) ==>
        Workers(read2, write2, total, total, n, pulls2, Pass2Steps(f), s)[i]
          == Integrate(read2[i], write2[i].mass, pulls2[i], TimeStep.RunFrames(clocks[j], [actual1[j], actual2[j]], strictness).steps[1], s)
  {
    var f := FrameSteps(clocks, actual1, actual2, strictness);
    PassUpdatesAll(read1, write1, total, n, pulls1, Pass1Steps(f), s);
    PassUpdatesAll(read2, write2, total, n, pulls2, Pass2Steps(f), s);
    forall j | 0 <= j < total
      ensures TimeStep.RunFrames(clocks[j], [actual1[j], actual2[j]], strictness).steps == [Pass1Steps(f)[j], Pass2Steps(f)[j]]
    {
      PairedFrameIsTwoFrames(clocks[j], actual1[j], actual2[j], strictness);
    }
  }
}

=== FILE: Startup.dfy ===
/** Start-up in `main`: the concurrency setting read from the lines of
    GravityFun.conf, and the two passes of physics workers created from
    it.  Reading the file is left out; the model takes its lines (or their
    absence) and the hardware thread count as inputs. */
module Startup {
  import opened Bodies
  import Physics

  const Keyword: string := "concurrency"
  const MinConcurrency: int := 1
  const MaxConcurrency: int := 1024

  /** std::string::operator[] at index size() yields the terminating NUL. */
  const Nul: char := 0 as char

  function CharAt(line: string, i: nat): (c: char)
    ensures i < |line| ==> c == line[i]
    ensures |line| <= i ==> c == Nul
  {
    if i < |line| then line[i] else Nul
  }

  predicate IsDigit(c: char) {
    '0' <= c <= '9'
  }

  predicate Occurs(line: string, k: nat) {
    k + |Keyword| <= |line| && line[k..k + |Keyword|] == Keyword
  }

  /** std::string::find: the first position where the keyword occurs. */
  function Find(line: string, from: nat): (r: Option<nat>)
    requires from <= |line|
    ensures r.Some? ==> from <= r.value && Occurs(line, r.value)
    ensures r.Some? ==> forall k :: from <= k < r.value ==> !Occurs(line, k)
    ensures r.None? ==> forall k :: from <= k <= |line| ==> !Occurs(line, k)
    decreases |line| - from
  {
    if Occurs(line, from) then Some(from)
    else if from == |line| then None
    else Find(line, from + 1)
  }

  /** The space-skipping loops: advance while the character is a space. */
  function SkipSpaces(line: string, i: nat): (r: nat)
    requires i <= |line|
    ensures i <= r <= |line|
    ensures forall k :: i <= k < r ==> line[k] == ' '
    ensures r < |line| ==> line[r] != ' '
    decreases |line| - i
  {
    if i < |line| && line[i] == ' ' then SkipSpaces(line, i + 1) else i
  }

  /** The digit loop as written: it advances j while line[i] (not line[j])
      is a digit, so it stops at i or runs to the end of the line. */
  function DigitEndAsWritten(line: string, i: nat, j: nat): (r: nat)
    requires i <= j
    ensures j <= r
    ensures r == j || r == |line|
    ensures j < |line| && IsDigit(CharAt(line, i)) ==> r == |line|
    ensures !IsDigit(CharAt(line, i)) ==> r == j
    decreases |line| - j
  {
    if j < |line| && IsDigit(CharAt(line, i)) then DigitEndAsWritten(line, i, j + 1) else j
  }

  /** The digit loop as evidently meant: advance while line[j] is a digit. */
  function DigitEnd(line: string, j: nat): (r: nat)
    requires j <= |line|
    ensures j <= r <= |line|
    ensures forall k :: j <= k < r ==> IsDigit(line[k])
    ensures r < |line| ==> !IsDigit(line[r])
    decreases |line| - j
  {
    if j < |line| && IsDigit(line[j]) then DigitEnd(line, j + 1) else j
  }

  function DigitValue(c: char): (d: int)
    requires IsDigit(c)
    ensures 0 <= d <= 9
  {
    c as int - '0' as int
  }

  predicate AllDigits(s: string) {
    forall k :: 0 <= k < |s| ==> IsDigit(s[k])
  }

  /** The decimal value of a string of digits. */
  function DigitsValue(s: string): (v: nat)
    requires AllDigits(s)
    decreases |s|
  {
    if |s| == 0 then 0 else DigitsValue(s[..|s| - 1]) * 10 + DigitValue(s[|s| - 1])
  }

  /** std::stoi on a string that starts with a digit: the value of its
      leading run of digits; whatever follows is ignored. */
  function Stoi(s: string): (v: nat)
    requires 0 < |s| && IsDigit(s[0])
  {
    var e := DigitEnd(s, 0);
    DigitsValue(s[..e])
  }

  /** Where the value starts: past the keyword's first occurrence, the
      spaces, an '=' and more spaces; None when the keyword is missing or
      the next non-space character after it is not '='. */
  function ValueStart(line: string): (r: Option<nat>)
    ensures r.Some? ==> r.value <= |line|
    ensures r.Some? ==> exists k :: Occurs(line, k)
  {
    match Find(line, 0)
    case None => None
    case Some(k) =>
      var i := SkipSpaces(line, k + |Keyword|);
      if CharAt(line, i) != '=' then None
      else Some(SkipSpaces(line, i + 1))
  }

  /** The value read at `start` as written: the digit loop, then stoi. */
  function ValueAsWritten(line: string, start: nat): Option<nat>
    requires start <= |line|
  {
    var j := DigitEndAsWritten(line, start, start);
    if start != j then Some(Stoi(line[start..j])) else None
  }

  /** The value read at `start` as evidently meant: the digit run. */
  function Value(line: string, start: nat): Option<nat>
    requires start <= |line|
  {
    var j := DigitEnd(line, start);
    if start != j then Some(DigitsValue(line[start..j])) else None
  }

  /** The value a config line sets before clamping, or None when the line
      is ignored. */
  function ParseLine(line: string): (r: Option<nat>)
    ensures r.Some? ==> exists k :: Occurs(line, k)
  {
    match ValueStart(line)
    case None => None
    case Some(start) => ValueAsWritten(line, start)
  }

  /** The evidently meant parser, scanning the digits with line[j]. */
  function ParseLineIntended(line: string): Option<nat> {
    match ValueStart(line)
    case None => None
    case Some(start) => Value(line, start)
  }

  /** The as-written digit loop accepts exactly the lines the intended one
      accepts, and with the same value: it over-reads to the end of the
      line, but stoi stops at the first non-digit anyway. */
  lemma ParseAsWrittenMatchesIntended(line: string)
    ensures ParseLine(line) == ParseLineIntended(line)
  {
    if ValueStart(line).Some? {
      ValueAsWrittenMatches(line, ValueStart(line).value);
    }
  }

  lemma ValueAsWrittenMatches(line: string, start: nat)
    requires start <= |line|
    ensures ValueAsWritten(line, start) == Value(line, start)
  {
    if start < |line| && IsDigit(line[start]) {
      assert DigitEndAsWritten(line, start, start) == |line|;
      assert line[start..|line|] == line[start..];
      assert DigitEnd(line, start) != start;
      StoiTail(line, start);
    }
  }

  /** stoi over the rest of the line reads the leading digit run. */
  lemma StoiTail(line: string, start: nat)
    requires start < |line| && IsDigit(line[start])
    ensures Stoi(line[start..]) == DigitsValue(line[start..DigitEnd(line, start)])
  {
    var tail := line[start..];
    var e := DigitEnd(line, start);
    DigitEndShift(line, start, 0);
    assert tail[..e - start] == line[start..e];
  }

  /** Scanning digits in a suffix is scanning them in the whole line. */
  lemma {:induction false} DigitEndShift(line: string, start: nat, j: nat)
    requires start <= |line| && j <= |line| - start
    ensures DigitEnd(line[start..], j) == DigitEnd(line, start + j) - start
    decreases |line| - start - j
  {
    if j < |line| - start && IsDigit(line[start + j]) {
      DigitEndShift(line, start, j + 1);
    }
  }

  predicate AllSpaces(s: string) {
    forall k :: 0 <= k < |s| ==> s[k] == ' '
  }

  /** The keyword does not start before position k. */
  predicate NoKeywordBefore(line: string, k: nat) {
    forall m :: 0 <= m < k ==> !Occurs(line, m)
  }

  /** A line laid out as: anything without the keyword up to k, the
      keyword, n1 spaces, '=', n2 spaces, nd digits, then the end or a
      non-digit, sets the digits' value. */
  lemma ParseAccepts(line: string, k: nat, n1: nat, n2: nat, nd: nat)
    requires Occurs(line, k) && NoKeywordBefore(line, k)
    requires k + |Keyword| + n1 + 1 + n2 + nd <= |line| && 0 < nd
    requires AllSpaces(line[k + |Keyword|..k + |Keyword| + n1])
    requires line[k + |Keyword| + n1] == '='
    requires AllSpaces(line[k + |Keyword| + n1 + 1..k + |Keyword| + n1 + 1 + n2])
    requires AllDigits(line[k + |Keyword| + n1 + 1 + n2..k + |Keyword| + n1 + 1 + n2 + nd])
    requires k + |Keyword| + n1 + 1 + n2 + nd < |line| ==> !IsDigit(line[k + |Keyword| + n1 + 1 + n2 + nd])
    ensures ParseLine(line) == Some(DigitsValue(line[k + |Keyword| + n1 + 1 + n2..k + |Keyword| + n1 + 1 + n2 + nd]))
  {
    var c := k + |Keyword| + n1 + 1 + n2;
    assert IsDigit(line[c..c + nd][0]);
    ValueStartAt(line, k, n1, n2);
    ValueAt(line, c, nd);
    ValueAsWrittenMatches(line, c);
  }

  /** Conversely, every accepted line has that layout: the first keyword,
      spaces, '=', spaces, and a non-empty digit run. */
  lemma AcceptedLayout(line: string) returns (k: nat, n1: nat, n2: nat, nd: nat)
    requires ParseLine(line).Some?
    ensures Occurs(line, k) && NoKeywordBefore(line, k)
    ensures k + |Keyword| + n1 + 1 + n2 + nd <= |line| && 0 < nd
    ensures AllSpaces(line[k + |Keyword|..k + |Keyword| + n1])
    ensures line[k + |Keyword| + n1] == '='
    ensures AllSpaces(line[k + |Keyword| + n1 + 1..k + |Keyword| + n1 + 1 + n2])
    ensures AllDigits(line[k + |Keyword| + n1 + 1 + n2..k + |Keyword| + n1 + 1 + n2 + nd])
    ensures k + |Keyword| + n1 + 1 + n2 + nd < |line| ==> !IsDigit(line[k + |Keyword| + n1 + 1 + n2 + nd])
    ensures ParseLine(line) == Some(DigitsValue(line[k + |Keyword| + n1 + 1 + n2..k + |Keyword| + n1 + 1 + n2 + nd]))
  {
    var i, c, e;
    k, i, c, e := AcceptedPositions(line);
    n1, n2, nd := LayoutOfPositions(line, k, i, c, e);
  }

  /** The spaces, '=' and digits found at positions k, i, c and e, restated
      as run lengths. */
  lemma LayoutOfPositions(line: string, k: nat, i: nat, c: nat, e: nat) returns (n1: nat, n2: nat, nd: nat)
    requires k + |Keyword| <= i < c < e <= |line|
    requires forall m :: k + |Keyword| <= m < i ==> line[m] == ' '
    requires line[i] == '='
    requires forall m :: i + 1 <= m < c ==> line[m] == ' '
    requires forall m :: c <= m < e ==> IsDigit(line[m])
    requires e < |line| ==> !IsDigit(line[e])
    ensures k + |Keyword| + n1 + 1 + n2 + nd <= |line| && 0 < nd
    ensures AllSpaces(line[k + |Keyword|..k + |Keyword| + n1])
    ensures line[k + |Keyword| + n1] == '='
    ensures AllSpaces(line[k + |Keyword| + n1 + 1..k + |Keyword| + n1 + 1 + n2])
    ensures AllDigits(line[k + |Keyword| + n1 + 1 + n2..k + |Keyword| + n1 + 1 + n2 + nd])
    ensures k + |Keyword| + n1 + 1 + n2 + nd < |line| ==> !IsDigit(line[k + |Keyword| + n1 + 1 + n2 + nd])
    ensures line[k + |Keyword| + n1 + 1 + n2..k + |Keyword| + n1 + 1 + n2 + nd] == line[c..e]
  {
    n1 := i - k - |Keyword|;
    n2 := c - i - 1;
    nd := e - c;
    assert k + |Keyword| + n1 == i && i + 1 + n2 == c && c + nd == e;
    SpacesSlice(line, k + |Keyword|, i);
    SpacesSlice(line, i + 1, c);
    DigitsSlice(line, c, e);
  }

  lemma SpacesSlice(line: string, a: nat, b: nat)
    requires a <= b <= |line|
    requires forall m :: a <= m < b ==> line[m] == ' '
    ensures AllSpaces(line[a..b])
  {
    var s := line[a..b];
    forall m | 0 <= m < |s| ensures s[m] == ' ' {
      assert s[m] == line[a + m];
    }
  }

  lemma DigitsSlice(line: string, a: nat, b: nat)
    requires a <= b <= |line|
    requires forall m :: a <= m < b ==> IsDigit(line[m])
    ensures AllDigits(line[a..b])
  {
    var s := line[a..b];
    forall m | 0 <= m < |s| ensures IsDigit(s[m]) {
      assert s[m] == line[a + m];
    }
  }

  /** The positions of an accepted line: the first keyword at k, '=' at i,
      the digit run from c up to e. */
  lemma AcceptedPositions(line: string) returns (k: nat, i: nat, c: nat, e: nat)
    requires ParseLine(line).Some?
    ensures Occurs(line, k) && NoKeywordBefore(line, k)
    ensures k + |Keyword| <= i < c < e <= |line|
    ensures forall m :: k + |Keyword| <= m < i ==> line[m] == ' '
    ensures line[i] == '='
    ensures forall m :: i + 1 <= m < c ==> line[m] == ' '
    ensures forall m :: c <= m < e ==> IsDigit(line[m])
    ensures e < |line| ==> !IsDigit(line[e])
    ensures ParseLine(line) == Some(DigitsValue(line[c..e]))
  {
    k := Find(line, 0).value;
    i := SkipSpaces(line, k + |Keyword|);
    assert CharAt(line, i) == '=';
    c := SkipSpaces(line, i + 1);
    assert ValueStart(line) == Some(c);
    ParseAsWrittenMatchesIntended(line);
    assert Value(line, c).Some?;
    e := DigitEnd(line, c);
  }

  /** The value starts after the keyword at k, n1 spaces, '=' and n2
      spaces, when the next character is not a space. */
  lemma ValueStartAt(line: string, k: nat, n1: nat, n2: nat)
    requires Occurs(line, k) && NoKeywordBefore(line, k)
    requires k + |Keyword| + n1 + 1 + n2 < |line|
    requires AllSpaces(line[k + |Keyword|..k + |Keyword| + n1])
    requires line[k + |Keyword| + n1] == '='
    requires AllSpaces(line[k + |Keyword| + n1 + 1..k + |Keyword| + n1 + 1 + n2])
    requires line[k + |Keyword| + n1 + 1 + n2] != ' '
    ensures ValueStart(line) == Some(k + |Keyword| + n1 + 1 + n2)
  {
    FindFirst(line, 0, k);
    SkipSpacesOver(line, k + |Keyword|, n1);
    SkipSpacesOver(line, k + |Keyword| + n1 + 1, n2);
    ValueStartFrom(line, k, k + |Keyword| + n1, k + |Keyword| + n1 + 1 + n2);
  }

  /** ValueStart once the keyword, the '=' and the value start are known. */
  lemma ValueStartFrom(line: string, k: nat, i: nat, c: nat)
    requires k + |Keyword| <= i < c <= |line|
    requires Find(line, 0) == Some(k)
    requires SkipSpaces(line, k + |Keyword|) == i && line[i] == '='
    requires SkipSpaces(line, i + 1) == c
    ensures ValueStart(line) == Some(c)
  {
    assert CharAt(line, i) == '=';
  }

  /** The value of nd digits at c followed by a non-digit or the end. */
  lemma ValueAt(line: string, c: nat, nd: nat)
    requires c + nd <= |line| && 0 < nd
    requires AllDigits(line[c..c + nd])
    requires c + nd < |line| ==> !IsDigit(line[c + nd])
    ensures Value(line, c) == Some(DigitsValue(line[c..c + nd]))
  {
    DigitEndOver(line, c, nd);
  }

  lemma {:induction false} FindFirst(line: string, from: nat, k: nat)
    requires from <= k <= |line| && Occurs(line, k)
    requires NoKeywordBefore(line, k)
    ensures Find(line, from) == Some(k)
    decreases k - from
  {
    if from < k {
      FindFirst(line, from + 1, k);
    }
  }

  lemma {:induction false} SkipSpacesOver(line: string, i: nat, n: nat)
    requires i + n < |line|
    requires AllSpaces(line[i..i + n])
    requires line[i + n] != ' '
    ensures SkipSpaces(line, i) == i + n
    decreases n
  {
    if n > 0 {
      assert line[i] == line[i..i + n][0];
      assert line[i + 1..i + n] == line[i..i + n][1..];
      SkipSpacesOver(line, i + 1, n - 1);
    }
  }

  lemma {:induction false} DigitEndOver(line: string, j: nat, n: nat)
    requires j + n <= |line|
    requires AllDigits(line[j..j + n])
    requires j + n < |line| ==> !IsDigit(line[j + n])
    ensures DigitEnd(line, j) == j + n
    decreases n
  {
    if n > 0 {
      assert line[j] == line[j..j + n][0];
      assert line[j + 1..j + n] == line[j..j + n][1..];
      DigitEndOver(line, j + 1, n - 1);
    }
  }

  /** The clamp to [1, 1024]. */
  function Clamp(v: int): (c: int)
    ensures MinConcurrency <= c <= MaxConcurrency
    ensures MinConcurrency <= v <= MaxConcurrency ==> c == v
    ensures v < MinConcurrency ==> c == MinConcurrency
    ensures MaxConcurrency < v ==> c == MaxConcurrency
  {
    if v < MinConcurrency then MinConcurrency
    else if v > MaxConcurrency then MaxConcurrency
    else v
  }

  /** The lines read in order: each accepted line overrides the value. */
  function ReadLines(current: nat, lines: seq<string>): (c: nat)
    ensures c == current || MinConcurrency <= c <= MaxConcurrency
    decreases |lines|
  {
    if |lines| == 0 then current
    else
      match ParseLine(lines[0])
      case Some(v) => ReadLines(Clamp(v), lines[1..])
      case None => ReadLines(current, lines[1..])
  }

  /** The concurrency used: the hardware thread count, overridden by the
      config file's lines when the file exists. */
  function Concurrency(hardware: nat, config: Option<seq<string>>): (c: nat)
    ensures config.None? ==> c == hardware
    ensures c == hardware || MinConcurrency <= c <= MaxConcurrency
  {
    match config
    case None => hardware
    case Some(lines) => ReadLines(hardware, lines)
  }

  /** The reference reading: the clamped value of the last accepted line. */
  function LastAccepted(lines: seq<string>): (r: Option<nat>)
    ensures r.Some? ==> MinConcurrency <= r.value <= MaxConcurrency
    decreases |lines|
  {
    if |lines| == 0 then None
    else
      match ParseLine(lines[|lines| - 1])
      case Some(v) => Some(Clamp(v))
      case None => LastAccepted(lines[..|lines| - 1])
  }

  /** The result is the last accepted line's value, or the hardware count
      when no line is accepted or there is no config file. */
  lemma {:induction false} ConcurrencyIsLastAccepted(hardware: nat, config: Option<seq<string>>)
    ensures config.None? ==> Concurrency(hardware, config) == hardware
    ensures config.Some? && LastAccepted(config.value).None? ==> Concurrency(hardware, config) == hardware
    ensures config.Some? && LastAccepted(config.value).Some? ==>
      Concurrency(hardware, config) == LastAccepted(config.value).value
    ensures config.Some? && LastAccepted(config.value).Some? ==>
      MinConcurrency <= Concurrency(hardware, config) <= MaxConcurrency
  {
    if config.Some? {
      ReadLinesIsLast(hardware, config.value);
    }
  }

  lemma {:induction false} ReadLinesIsLast(current: nat, lines: seq<string>)
    ensures LastAccepted(lines).None? ==> ReadLines(current, lines) == current
    ensures LastAccepted(lines).Some? ==> ReadLines(current, lines) == LastAccepted(lines).value
    ensures LastAccepted(lines).Some? ==> MinConcurrency <= LastAccepted(lines).value <= MaxConcurrency
    decreases |lines|
  {
    if |lines| > 0 {
      var last := lines[|lines| - 1];
      var init := lines[..|lines| - 1];
      ReadLinesSnoc(current, init, last);
      assert init + [last] == lines;
      ReadLinesIsLast(current, init);
    }
  }

  /** Reading one more line after the others. */
  lemma {:induction false} ReadLinesSnoc(current: nat, init: seq<string>, last: string)
    ensures ReadLines(current, init + [last]) ==
      match ParseLine(last)
      case Some(v) => Clamp(v)
      case None => ReadLines(current, init)
    decreases |init|
  {
    if |init| == 0 {
      assert init + [last] == [last];
    } else {
      assert (init + [last])[1..] == init[1..] + [last];
      match ParseLine(init[0])
      case Some(v) => ReadLinesSnoc(Clamp(v), init[1..], last);
      case None => ReadLinesSnoc(current, init[1..], last);
    }
  }

  // ---------------------------------------------------------------------
  // Worker creation

  /** A physics module's construction arguments: its number, the module
      count, and for pass 2 the number of the pass-1 module it follows. */
  datatype Worker = Worker(number: nat, total: nat, previous: Option<nat>)

  function Pass1Workers(count: nat): (w: seq<Worker>)
    ensures |w| == count
    ensures forall k :: 0 <= k < count ==> w[k] == Worker(k, count, None)
  {
    seq(count, k requires 0 <= k => Worker(k, count, None))
  }

  function Pass2Workers(count: nat): (w: seq<Worker>)
    ensures |w| == count
    ensures forall k :: 0 <= k < count ==> w[k] == Worker(k, count, Some(k))
  {
    seq(count, k requires 0 <= k => Worker(k, count, Some(k)))
  }

  /** Each pass-2 worker follows a pass-1 worker that handles the same
      object range, and each pass's ranges partition the objects. */
  lemma PassesPaired(count: nat, n: nat, o: nat)
    requires 0 < count && o < n
    ensures forall k :: 0 <= k < count ==>
      Pass2Workers(count)[k].previous.Some? &&
      Pass2Workers(count)[k].previous.value < count &&
      Pass1Workers(count)[Pass2Workers(count)[k].previous.value].number == Pass2Workers(count)[k].number
    ensures exists k :: 0 <= k < count && Physics.RangeBegin(Pass1Workers(count)[k].number, count, n) <= o < Physics.RangeEnd(Pass1Workers(count)[k].number, count, n)
  {
    var k := Physics.RangesCover(count, n, o);
    assert Pass1Workers(count)[k].number == k;
  }
}

=== FILE: TimeStep.dfy ===
/** The adaptive time-step controller of a normal-mode physics pass
    (Physics::OnRun, the block that turns the measured clock delta into
    the simulated step TimeDiff).  The wall-clock delta is an input. */
module TimeStep {
  import opened Bodies

  /** GameManager::MAX_TIME_DIFF: the longest real-time delta a frame may simulate. */
  const MaxTimeDiff: real := 0.1
  /** GameManager::MIN_TIME_DIFF_SCALE: fraction of the actual delta used when the step would not be positive. */
  const MinTimeDiffScale: real := 0.5

  /** The controller state a pass-1 module keeps: LastTimeDiff and TimeDebt. */
  datatype Clock = Clock(lastStep: real, debt: real)

  /** Both fields start at zero in the Physics constructor. */
  const InitialClock := Clock(0.0, 0.0)

  /** One controller update: the emitted step and the next state. */
  datatype Tick = Tick(step: real, next: Clock)

  function Max(a: real, b: real): real {
    if a <= b then b else a
  }

  /** The actual time to simulate: the clock delta capped at MaxTimeDiff,
      scaled by the game's time multiplier. */
  function ActualStep(elapsed: real, multiplier: real): (a: real)
    ensures 0.0 <= multiplier ==> a <= MaxTimeDiff * multiplier
    ensures 0.0 <= elapsed && 0.0 <= multiplier ==> 0.0 <= a
    ensures 0.0 < elapsed && 0.0 < multiplier ==> 0.0 < a
    ensures elapsed <= MaxTimeDiff ==> a == elapsed * multiplier
  {
    var capped := Min(MaxTimeDiff, elapsed);
    assert 0.0 <= multiplier ==> (MaxTimeDiff - capped) * multiplier >= 0.0;
    capped * multiplier
  }

  /** The correction added to the last step: offset scaled by
      strictness * |offset / actual| and clamped to the offset's own size.
      When actual is 0 the source divides by zero; an infinite ratio is
      clamped back to the offset, which is what the model returns. */
  function Correction(actual: real, offset: real, strictness: real): (c: real)
    ensures Abs(c) <= Abs(offset)
    ensures 0.0 <= strictness && 0.0 <= offset ==> 0.0 <= c
    ensures 0.0 <= strictness && offset <= 0.0 ==> c <= 0.0
    ensures actual == 0.0 ==> c == offset
  {
    if actual == 0.0 then offset
    else
      var k := strictness * Abs(offset / actual);
      assert 0.0 <= strictness ==> 0.0 <= k;
      var raw := strictness * offset * Abs(offset / actual);
      assert raw == offset * k;
      if Abs(raw) > Abs(offset) then offset else raw
  }

  /** The gap between where the clock should be (actual plus owed debt)
      and the last step. */
  function Offset(clock: Clock, actual: real): real {
    actual + clock.debt - clock.lastStep
  }

  /** The step before the positive floor: last step plus the correction.
      With a non-negative strictness it lies between the last step and
      actual + debt, whichever order those two are in. */
  function PreFloorStep(clock: Clock, actual: real, strictness: real): (s: real)
    ensures 0.0 <= strictness ==> Min(clock.lastStep, actual + clock.debt) <= s <= Max(clock.lastStep, actual + clock.debt)
  {
    clock.lastStep + Correction(actual, Offset(clock, actual), strictness)
  }

  /** One update of the controller. */
  function Advance(clock: Clock, actual: real, strictness: real): (t: Tick)
    ensures t.next.lastStep == t.step
    ensures t.next.debt + t.step == clock.debt + actual
    ensures 0.0 < actual ==> 0.0 < t.step
    ensures 0.0 < PreFloorStep(clock, actual, strictness) ==> t.step == PreFloorStep(clock, actual, strictness)
    ensures PreFloorStep(clock, actual, strictness) <= 0.0 ==> t.step == actual * MinTimeDiffScale
  {
    var pre := PreFloorStep(clock, actual, strictness);
    var step := if pre <= 0.0 then actual * MinTimeDiffScale else pre;
    Tick(step, Clock(step, clock.debt + (actual - step)))
  }

  /** The steps and final state after feeding a sequence of actual deltas. */
  datatype Run = Run(steps: seq<real>, last: Clock)

  function RunFrames(clock: Clock, actuals: seq<real>, strictness: real): (r: Run)
    ensures |r.steps| == |actuals|
    decreases |actuals|
  {
    if |actuals| == 0 then Run([], clock)
    else
      var t := Advance(clock, actuals[0], strictness);
      var rest := RunFrames(t.next, actuals[1..], strictness);
      Run([t.step] + rest.steps, rest.last)
  }

  function Sum(s: seq<real>): real {
    if |s| == 0 then 0.0 else s[0] + Sum(s[1..])
  }

  /** Time is neither created nor lost: the initial debt plus all actual
      time equals all simulated steps plus the final debt. */
  lemma {:induction false} DebtConserved(clock: Clock, actuals: seq<real>, strictness: real)
    ensures clock.debt + Sum(actuals) == Sum(RunFrames(clock, actuals, strictness).steps) + RunFrames(clock, actuals, strictness).last.debt
    decreases |actuals|
  {
    if |actuals| > 0 {
      var t := Advance(clock, actuals[0], strictness);
      DebtConserved(t.next, actuals[1..], strictness);
    }
  }

  /** Every emitted step is positive when every actual delta is. */
  lemma {:induction false} StepsPositive(clock: Clock, actuals: seq<real>, strictness: real)
    requires forall k :: 0 <= k < |actuals| ==> 0.0 < actuals[k]
    ensures forall k :: 0 <= k < |actuals| ==> 0.0 < RunFrames(clock, actuals, strictness).steps[k]
    decreases |actuals|
  {
    if |actuals| > 0 {
      var t := Advance(clock, actuals[0], strictness);
      StepsPositive(t.next, actuals[1..], strictness);
      var r := RunFrames(clock, actuals, strictness);
      assert r.steps == [t.step] + RunFrames(t.next, actuals[1..], strictness).steps;
    }
  }
}
